=== FILE: README.md ===
# Medical literature search: a Dafny model

This project models the core of a medical literature aggregator. The
application fans a list of search keywords out to several literature
providers: Semantic Scholar, PubMed and Dynamed. Each provider call ends in
one of three ways:

- a plain list of canonical records (`Success`);
- a `Redo` asking for the same search again;
- a `Partial`, which holds one page of records and the `Redo` for the next
  page.

The orchestrator sorts each round of outcomes, collects the record payloads,
and retries the pending searches while a retry budget lasts. The budget is
spent only by rounds in which nothing succeeded. A provider call that
raises ends the whole search with its exception.

Around this loop sit three more pieces:

- The PDF processor. It checks a record's `pdf_url` with a HEAD request. It
  extracts the text, the figures and the tables through layout analysis,
  asks a chat model for the introduction, results and conclusion, and
  uploads the cropped figures.
- The `process_ai` step, which merges the processor's report into the
  record.
- The serverless entry points. They read the keywords of a request, and they
  write the records to a database in batches whose size comes from the
  environment.

The repository carries two generations of the provider clients:

- the application package, `app/searchlib`, with records that hold a
  source, a citation count, a pdf url and an `ai_processed` flag;
- an older package, `search/search`, with a smaller record and a `Redo`
  whose last slot, `limit`, the callers fill with their token dict.

Both are modelled, each against its own record type.

## How the model is built

- Decoded JSON and XML trees are the datatype `PyValue.Value`:
  - null, bool, int, string, list, and dict.
  - A dict is an ordered list of pairs, as Python dicts keep insertion
    order.
  - `dict.get`, iteration, `len`, truthiness, `str()` and f-strings are
    spelt out over it, and so are dict assignment and `{**a, **b}`.
- A Python exception that escapes is the `Raise(exn)` case of `Result`.
  `Exn` names the five kinds that occur: AttributeError, TypeError,
  KeyError, IndexError and ValueError.
- Everything the code sends to a remote service comes in as a parameter:
  - HTTP replies, layout analysis, chat completions, figure cropping, blob
    upload, the regular expression search and the current year;
  - a function from the request to the reply, or the reply itself.
- Code that changes state step by step is a `method` proved against a
  specification function. This covers:
  - the loops of `process_results`, `result_len`, `search` and `batched`;
  - the grid filling and the Markdown rendering of `extract_tables`;
  - the figure, upload and section loops of the processor;
  - the per-entry loops of every client.
- The token dict of the older Semantic Scholar client is mutated in place
  and shared with the `Redo` it returns. It is the class `PyValue.DictRef`,
  and `OldScholarSearch.Search` modifies it.

Modules, one per source file or concern:

| module | file | source |
|---|---|---|
| `Text` | text.dfy | string joining and concatenation helpers |
| `PyValue` | value.dfy | the value tree and the Python operations on it |
| `Results` | results.dfy | app/searchlib/results.py |
| `OldResults` | old_results.dfy | search/search/results.py |
| `Orchestrator` | orchestrator.dfy | app/app.py, `process_results` to `search` |
| `AiStep` | process_ai.dfy | app/app.py, `process_ai` |
| `FunctionApp` | function_app.dfy | app/function_app.py |
| `Tables` | tables.dfy | app/ai/processor.py, `extract_tables` |
| `Processor` | processor.dfy | app/ai/processor.py, everything else |
| `PubMedSearch` | pubmed.dfy | app/searchlib/pubmed.py |
| `Papers` | papers.dfy | the entry shape and the `data` loop of both Semantic Scholar and Dynamed clients |
| `ScholarSearch` | semantic_scholar.dfy | app/searchlib/semantic_scholar.py |
| `DynamedSearch` | dynamed.dfy | app/searchlib/dynamed.py |
| `OldPubMedSearch` | old_pubmed.dfy | search/search/pubmed.py |
| `OldScholarSearch` | old_semantic_scholar.dfy | search/search/semantic_scholar.py |
| `OldDynamedSearch` | old_dynamed.dfy | search/search/dynamed.py |

## Model

| member | source | states |
|---|---|---|
| Results.NewSuccess | app/searchlib/results.py:4-26 | `Success(...)` always builds a dict as its data |
| Results.NewSuccessFields | app/searchlib/results.py:5-26 | the data dict has exactly the thirteen keys in constructor order; every argument is stored unchanged under its key; year, date and authors are nested under "metadata"; "ai_processed" is `False` for a truthy pdf url and "unsupported (no URL)" otherwise |
| Results.UrlCheckTouchesOnlyFlag | app/searchlib/results.py:25-26 | two records that differ only in their pdf url agree on every key other than "pdf_url" and "ai_processed" |
| Results.SuccessKeysDistinct | app/searchlib/results.py:6-24 | the thirteen record keys are pairwise distinct |
| Results.LayoutLookup | app/searchlib/results.py:6-24 | in a dict with the record's key order, the k-th key finds the k-th value |
| Results.LayoutFields | app/searchlib/results.py:6-24 | in a dict with the record's key order, each named key finds the value stored at its position |
| OldResults.NewOldSuccess | search/search/results.py:4-20 | the older `Success(...)` always builds a dict as its data |
| OldResults.NewOldSuccessFields | search/search/results.py:5-20 | the older data dict has exactly its nine keys in order; every argument is stored unchanged, with year, date and authors nested under "metadata" |
| OldResults.OldSuccessLacksNewKeys | search/search/results.py:6-20 | an older record has no "source", "citations", "pdf_url" or "ai_processed" |
| OldResults.OldSuccessKeysDistinct | search/search/results.py:6-20 | the nine older record keys are pairwise distinct |
| OldResults.OldLayoutLookup | search/search/results.py:6-20 | in a dict with the older key order, the k-th key finds the k-th value |
| OldResults.OldLayoutFields | search/search/results.py:6-20 | in a dict with the older key order, each named key finds the value at its position |
| Orchestrator.ProcessResults | app/app.py:27-41 | the redo list is every `Redo` outcome in order, then every `Partial`'s continuation in order; the payloads are those of the plain lists, then those of the partial pages; the flag holds iff some outcome is not a `Redo` |
| Orchestrator.Partition | app/app.py:28-30 | every outcome lands in exactly one of the three groups |
| Orchestrator.NoProgressMeansAllRedo | app/app.py:29-41 | no plain list and no `Partial` iff every outcome was a `Redo` |
| Orchestrator.ProgressIff | app/app.py:41 | a round made progress iff some outcome was not a `Redo` |
| Orchestrator.EmptyListCountsAsProgress | app/app.py:29-41 | a provider answering with an empty list still counts as progress |
| Orchestrator.RedosOfMembers | app/app.py:28 | a `Redo` is kept iff it was an outcome of the round |
| Orchestrator.RedosOfAppend | app/app.py:28 | the `Redo` filter keeps order over a concatenation |
| Orchestrator.PlainsOfAppend | app/app.py:29 | the plain-list filter keeps order over a concatenation |
| Orchestrator.PartialsOfAppend | app/app.py:30 | the `Partial` filter keeps order over a concatenation |
| Orchestrator.PayloadsAppend | app/app.py:38-40 | the payloads of two runs of record lists are the payloads of each, in order |
| Orchestrator.ResultLen | app/app.py:43-51 | `result_len` is the total length of the plain lists plus one per `Redo` and per `Partial` |
| Orchestrator.SizeSplit | app/app.py:43-51 | the size of a round splits into list lengths plus one per other outcome |
| Orchestrator.SizeAppend | app/app.py:43-51 | the size of a concatenation is the sum of the sizes |
| Orchestrator.InitialQueriesOrder | app/app.py:65 | the initial round has one query per (client, keyword) pair: all Semantic Scholar queries in keyword order, then all PubMed queries |
| Orchestrator.QueriesAt | app/app.py:65 | the i-th query of one client is that client with the i-th keyword |
| Orchestrator.InitialRound | app/app.py:65 | the initial round returns twice as many outcomes as keywords |
| Orchestrator.CallsAt | app/app.py:17-20 | each initial call gives the provider's answer to its query with the default token, or the exception the call raised |
| Orchestrator.RetryRound | app/app.py:73 | a retry round makes one call per pending search |
| Orchestrator.GatherMeans | app/app.py:65-73 | `gather` succeeds iff no call raised, and then holds each call's outcome at its position; otherwise it passes on the exception of the first call that raised |
| Orchestrator.RetryRoundCalls | app/app.py:22-25 | each retry call is the call for its pending search, with that search's own token |
| Orchestrator.GatherFirst | app/app.py:65-68 | a call of the initial round that raises makes the round raise; otherwise the round's redo list and payloads are the classification of its outcomes, and its flag is dropped |
| Orchestrator.RetryOnce | app/app.py:72-77 | one loop pass raises iff a call of its round raises; otherwise it is one step of the run: payloads only grow, and the budget drops by one exactly when the round made no progress |
| Orchestrator.Search | app/app.py:53-81 | the result is the exception of a raising call in the initial round or in a retry round, or else the payloads of the run of the retry loop from the initial state; the number of completed retry rounds equals the run's length and stays within the fuel |
| Orchestrator.RunUnfold | app/app.py:71-77 | while the loop condition holds, the rest of the run is the run from the next state |
| Orchestrator.RunBudget | app/app.py:71-77 | the budget spent equals the number of rounds without progress, and a non-negative budget never goes negative |
| Orchestrator.RunStops | app/app.py:71-73 | a run that ends before the fuel runs out ends because no search is pending, the budget is spent or a call raised; a call raises only in a round the loop condition lets run |
| Orchestrator.RunAccumulates | app/app.py:75 | records held before the loop stay, as a prefix, in what it returns |
| Orchestrator.AllRedoRound | app/app.py:74-77 | a round of only `Redo` outcomes re-queues every search, adds no record and makes no progress |
| Orchestrator.RunAllRedo | app/app.py:71-77 | when every call asks to be redone, the loop runs exactly `retries` rounds, adds nothing and raises nothing |
| Orchestrator.AllPartialRound | app/app.py:32-41 | a round of only `Partial` outcomes re-queues every search and makes progress |
| Orchestrator.RunAllPartial | app/app.py:71-77 | pagination never spends the budget, so endless pages run until the fuel ends |
| Orchestrator.SearchAllRedo | app/app.py:53-81 | when every call asks to be redone, the search returns an empty list after exactly `retries` retry rounds, none for a budget of zero or less |
| Orchestrator.InitialRaise | app/app.py:65 | a call of the initial round that raises makes `search` raise, with the exception of the first raising call in call order |
| Orchestrator.RetryRaise | app/app.py:71-73 | a call that raises in a retry round the loop runs ends the run with the exception of that round's first raising call, in the state the round started from |
| Orchestrator.RunNeverRaises | app/app.py:71-77 | with providers that never raise, the retry loop ends without an exception |
| Orchestrator.SearchNeverRaises | app/app.py:53-81 | with providers that never raise, `search` returns its payloads |
| Orchestrator.AnsweredRound | app/app.py:73 | with providers that never raise, a retry round gathers every answer at its pending search's position |
| AiStep.NewValues | app/app.py:86-94 | the new values carry exactly the seven keys `process_ai` writes, in order |
| AiStep.NewKeysDistinct | app/app.py:86-94 | the seven new keys are pairwise distinct |
| AiStep.NewValuesUnique | app/app.py:86-94 | the new values have no repeated key |
| AiStep.ProcessAi | app/app.py:83-96 | a record without "pdf_url" raises KeyError; otherwise the result is the record merged with the processor's report for that url |
| AiStep.MergedFields | app/app.py:95 | in the merged record every written key holds the report's value; every other key keeps the record's value; a record without repeated keys stays so |
| AiStep.MergedReport | app/app.py:86-95 | the merged record holds the report's sections, images, tables and the status dict under the record's key names |
| AiStep.NoUrlRecord | app/ai/processor.py:285-294 | a record whose url is "" comes back with status "unsupported (no URL)", empty sections and figures, and every other key untouched |
| PyValue.DictRef.Set | search/search/semantic_scholar.py:52-53 | `d[key] = v` on the shared dict: the entries become the old entries with that key set |
| PyValue.SetKeyLookup | app/searchlib/semantic_scholar.py:19-20 | after `d[key] = v`, `key` finds `v` and every other key finds what it found before |
| PyValue.MergeLookup | app/app.py:95 | in `{**a, **b}` a key of `b` finds `b`'s value and any other key finds `a`'s |
| PyValue.MapEach | app/searchlib/dynamed.py:27-40 | the per-entry loop yields the same result as mapping the entries, stopping at the first that raises |
| FunctionApp.Batched | app/function_app.py:32-35 | a negative size raises ValueError; otherwise the chunks are the consecutive slices of the input |
| FunctionApp.ChunksFlatten | app/function_app.py:48-55 | writing the chunks in turn writes every record once, in order |
| FunctionApp.ChunksSizes | app/function_app.py:32-35 | every chunk is non-empty and at most the size, and all but the last are exactly the size |
| FunctionApp.ChunksCount | app/function_app.py:32-35 | there are ⌈n / size⌉ chunks |
| FunctionApp.TrimLeft | app/function_app.py:43 | `lstrip` returns a suffix that does not start with whitespace |
| FunctionApp.TrimRight | app/function_app.py:43 | `rstrip` returns a prefix that does not end with whitespace |
| FunctionApp.ParseStripped | app/function_app.py:43 | the only error of `int()` on a stripped string is ValueError |
| FunctionApp.ParseInt | app/function_app.py:43 | `int(s)` fails only with ValueError, and always does for a blank string |
| FunctionApp.ParseIntRoundTrip | app/function_app.py:43 | `int(str(i)) == i` for every integer |
| FunctionApp.ParseIntIgnoresSpaces | app/function_app.py:43 | surrounding whitespace never changes the parse |
| FunctionApp.BatchSize | app/function_app.py:39-46 | the batch size is that of BatchSizeOf: 1000 without a variable, the parsed value when it parses, and 1000 when `int()` fails |
| FunctionApp.SaveToDb | app/function_app.py:38-59 | it raises ValueError exactly when the batch size read from the environment is negative; otherwise it inserts exactly the `batched` chunks of the results at that size, each non-empty and at most that size, all but the last full, together the results in order; a size of 0 inserts nothing |
| FunctionApp.Split | app/function_app.py:83 | `split` gives at least one part |
| FunctionApp.SplitJoin | app/function_app.py:83 | joining the parts with the separator gives the string back |
| FunctionApp.SplitPartsClean | app/function_app.py:83 | no part holds the separator |
| FunctionApp.SelectKeywords | app/function_app.py:72-99 | a non-empty query parameter wins; otherwise the JSON body is read, a ValueError from it means no keywords, and any other exception escapes; a body that is not a dict crashes with AttributeError; a falsy `keywords` value gives the 400 reply, a string gives its comma-separated parts, and any other value fails inside the `try` |
| Tables.AsInt | app/ai/processor.py:153-161 | a count or index is usable exactly when it is an int or a bool, and an int reads as itself |
| Tables.PyIndex | app/ai/processor.py:167 | a valid index designates a position within the list, counting negative indexes from the end |
| Tables.NewGrid | app/ai/processor.py:156-157 | the new grid has `rowCount` rows of `columnCount` empty strings, none for a negative count |
| Tables.CoversMeans | app/ai/processor.py:169-173 | a span covers a position iff some offset within it designates that position |
| Tables.CellSpecStamp | app/ai/processor.py:159-173 | a cell is applied exactly when all its writes fit, and then it stamps its content over its span block |
| Tables.StampBlock | app/ai/processor.py:167-173 | every position of the span block of a fitting cell, anchor included, holds the cell's content |
| Tables.StampAt | app/ai/processor.py:167-173 | after a cell, a position holds its content exactly when the cell reaches it, and keeps its old value otherwise |
| Tables.FillSpanRow | app/ai/processor.py:170-173 | the inner loop writes one span row, or raises exactly when its row or its last column falls outside the grid |
| Tables.FillSpan | app/ai/processor.py:169-173 | the span loops give the cell's span writes, or None when one raises |
| Tables.FillCell | app/ai/processor.py:159-173 | one cell iteration gives the grid after that cell, or None when it raises |
| Tables.FillAll | app/ai/processor.py:159-173 | the cell loop keeps the grid's shape |
| Tables.CellStrings | app/ai/processor.py:178 | `" | ".join(row)` succeeds iff every cell is a string, and then joins their texts |
| Tables.RowStrings | app/ai/processor.py:177-179 | rendering gives one string row per grid row, or fails |
| Tables.LinesShape | app/ai/processor.py:175-184 | a rendered table is its first row, the separator, then the other rows, and nothing for no rows |
| Tables.Rendered | app/ai/processor.py:186 | a table renders exactly when its rows render, and a rendered table ends with the blank-line terminator "\n\n" |
| Tables.Render | app/ai/processor.py:175-186 | the rendering loop gives the table's Markdown, or None when a cell is not a string |
| Tables.TableMarkdown | app/ai/processor.py:152-186 | one iteration of the table loop gives that table's Markdown, or None when any step raises |
| Tables.Outcomes | app/ai/processor.py:151-189 | each table yields one outcome |
| Tables.SkippedTable | app/ai/processor.py:187-189 | a table that raises contributes nothing, and the others render as if it were absent |
| Tables.JoinedEmpty | app/ai/processor.py:191 | with non-empty outcomes, the joined Markdown is empty iff every table raised |
| Tables.RenderedNonEmpty | app/ai/processor.py:186 | a table that does not raise renders something |
| Tables.NothingRendered | app/ai/processor.py:191-192 | the collected Markdown is empty exactly when every table raised |
| Tables.RenderTables | app/ai/processor.py:151-189 | the table loop concatenates the Markdown of the tables that did not raise |
| Tables.ExtractTables | app/ai/processor.py:140-218 | no analysis or no tables gives ""; otherwise "" when nothing rendered, else the chat reply to the Markdown, or "" when the call raised |
| Processor.NoTextIff | app/ai/processor.py:130-135 | the extracted text is empty exactly when no page has a line |
| Processor.ExtractText | app/ai/processor.py:120-138 | the text is every line followed by a space, page after page, and "" with no analysis when the service raised |
| Processor.ItemAt | app/ai/processor.py:100-107 | indexing a list within range gives the element |
| Processor.FigureBox | app/ai/processor.py:100-107 | a figure whose first region has a polygon of at least six points is cropped on page `pageNumber - 1` with points 0, 1, 4 and 5 |
| Processor.FigureTooSmall | app/ai/processor.py:100-107 | a polygon of fewer than six points, or no region, makes the figure raise |
| Processor.Images | app/ai/processor.py:98-116 | the images are at most one per figure, and none is empty |
| Processor.ImagesAppend | app/ai/processor.py:98-116 | the figure loop keeps figure order over a concatenation |
| Processor.SkippedFigure | app/ai/processor.py:113-116 | a figure that raises, or whose crop fails, adds nothing |
| Processor.ExtractImages | app/ai/processor.py:83-118 | no image without the PDF bytes, an analysis or figures; otherwise the images of the figure loop |
| Processor.Uploaded | app/ai/processor.py:266-279 | at most one url per image |
| Processor.UploadedAppend | app/ai/processor.py:268-277 | the upload loop keeps image order over a concatenation |
| Processor.UploadedAll | app/ai/processor.py:268-274 | when no upload raises there is one url per image, in image order |
| Processor.SaveImages | app/ai/processor.py:262-279 | the urls are those of the uploads that did not raise, in order |
| Processor.ExtractSections | app/ai/processor.py:220-260 | a failed chat call gives four ""; otherwise the three slots hold what the first three sections matched, and a match for a later section raises IndexError inside the `try`, leaving the slots filled so far with "" as Markdown |
| Processor.PdfDecision | app/ai/processor.py:281-353 | every status but "successful" leaves every other field ""; a falsy url gives "unsupported (no URL)"; a failed HEAD gives "failed " and its message; a Content-Type without "pdf" gives "unsupported (not a PDF)"; success holds iff the url is truthy, the Content-Type mentions "pdf", and some page has a line |
| Processor.ProcessPdf | app/ai/processor.py:281-353 | `process_pdf` returns the report its specification gives for the services' answers |
| PubMedSearch.DigEmpty | app/searchlib/pubmed.py:79-81 | a chain of `.get` calls on an empty dict gives the final default |
| PubMedSearch.DigFinds | app/searchlib/pubmed.py:86 | along a path that is present, the chain reads its leaf |
| PubMedSearch.DigMissing | app/searchlib/pubmed.py:81 | when the first key is missing, the chain gives the final default |
| PubMedSearch.Items | app/searchlib/pubmed.py:82-83 | a single dict is wrapped as a one-element list, and a list is kept |
| PubMedSearch.PmcTexts | app/searchlib/pubmed.py:84 | the pmc filter keeps at most one text per id; it raises exactly when some id is not a dict, and then with AttributeError |
| PubMedSearch.PmcTextsOne | app/searchlib/pubmed.py:84 | one id contributes its text, "" by default, exactly when its `@IdType` is pmc |
| PubMedSearch.PmcTextsAppend | app/searchlib/pubmed.py:84 | the filter keeps order over a concatenation |
| PubMedSearch.PmcIds | app/searchlib/pubmed.py:84 | the candidate ids start with the PMID text |
| PubMedSearch.SingleIdWrapped | app/searchlib/pubmed.py:81-84 | a lone `ArticleId` dict reads as the one-element list holding it |
| PubMedSearch.PublishedDate | app/searchlib/pubmed.py:87-88 | the date string is built exactly when `PubDate` is a dict |
| PubMedSearch.DateOfParts | app/searchlib/pubmed.py:88 | the date reads `Year-Month-Day`, and a missing part reads "" |
| PubMedSearch.AuthorsInOrder | app/searchlib/pubmed.py:89-92 | one "ForeName LastName" string per author dict, in order |
| PubMedSearch.SingleAuthorWrapped | app/searchlib/pubmed.py:89-92 | a lone author dict gives the one string "ForeName LastName" |
| PubMedSearch.KeywordShapes | app/searchlib/pubmed.py:93 | a list of keyword dicts gives their texts in order; a non-empty dict raises AttributeError |
| PubMedSearch.AbstractOf | app/searchlib/pubmed.py:95-99 | a non-list abstract is kept as it is; a list becomes one string |
| PubMedSearch.TwoPartAbstract | app/searchlib/pubmed.py:96-99 | a two-part abstract reads `Label1\ntext1 Label2\ntext2` |
| PubMedSearch.ReferenceCount | app/searchlib/pubmed.py:104-108 | the count never exceeds the entries; it raises exactly when some entry is not a dict, and then with AttributeError |
| PubMedSearch.ReferenceCountAppend | app/searchlib/pubmed.py:105-108 | counts add up over a concatenation |
| PubMedSearch.CitationShapes | app/searchlib/pubmed.py:101-108 | a dict's `Reference` list counts its items; an empty dict counts 0; a list counts its non-None `Reference`s; a lone `Reference` dict counts its keys |
| PubMedSearch.FirstHitIs | app/searchlib/pubmed.py:61-76 | the url is the hit of the first candidate that hits, and "" when none does |
| PubMedSearch.GetUrl | app/searchlib/pubmed.py:61-76 | `_get_url` tries the candidates in order and returns the first hit |
| PubMedSearch.PubMedRecordFields | app/searchlib/pubmed.py:112-127 | the record has source "PubMed", the key, the extracted fields, the citation count, "NA" sections, no figures and the chosen url |
| PubMedSearch.ProcessArticle | app/searchlib/pubmed.py:78-127 | `_process_article` gives the record of its specification, or its first exception |
| PubMedSearch.IdsParams | app/searchlib/pubmed.py:23-30 | the esearch parameters exist iff the token is a dict, and then have their five keys in order |
| PubMedSearch.IdsKeysLookup | app/searchlib/pubmed.py:24-30 | in that key order, "retstart" and "term" find their values |
| PubMedSearch.IdsParamsPage | app/searchlib/pubmed.py:28-29 | for a dict token, the page starts at its `retstart`, 0 by default; the term is the quoted key in titles within three words, among free full texts |
| PubMedSearch.Search | app/searchlib/pubmed.py:129-148 | `search` gives the outcome of its specification, the id lookup being asked with the parameters built from the token |
| PubMedSearch.NonDictTokenRaises | app/searchlib/pubmed.py:28-30 | a token that is not a dict makes `search` raise AttributeError, outside the `try` |
| PubMedSearch.ProcessArticles | app/searchlib/pubmed.py:146 | the articles are processed in order, and the first that raises ends the search |
| PubMedSearch.SearchRedo | app/searchlib/pubmed.py:130-142 | for a dict token, an id lookup that answers other than 200, or a details fetch that raises, answers other than 200 or whose body does not parse as XML, asks for the same search again with the same token |
| PubMedSearch.RequestFailures | app/searchlib/pubmed.py:129-142 | an id request that raises propagates its exception out of `search`, while a details request that raises, after a good id lookup, becomes a `Redo` of the same search with the same token |
| PubMedSearch.SearchRecords | app/searchlib/pubmed.py:144-148 | once the articles are fetched, the search succeeds iff every article does, with one record per article in order |
| PubMedSearch.SingleArticleRaises | app/searchlib/pubmed.py:144-146 | a lone `PubmedArticle` dict is iterated by its keys and raises AttributeError |
| Papers.HeadersMeaning | app/searchlib/semantic_scholar.py:22-26 | the API key header is sent exactly when the key is truthy, and then holds the key |
| Papers.PaperFields | app/searchlib/semantic_scholar.py:38-44 | the year slot holds `publicationDate` and the date slot `year` (both "" by default); title defaults to "" and abstract to "NA"; one author name per author, "" by default |
| Papers.EmptyPaper | app/searchlib/semantic_scholar.py:38-44 | an entry without any key reads as the defaults |
| Papers.PaperRaises | app/searchlib/semantic_scholar.py:38-40 | a non-dict entry, or an author that is not a dict, raises AttributeError |
| Papers.MapGetRaises | app/searchlib/semantic_scholar.py:40 | the author comprehension fails only with AttributeError |
| Papers.PdfUrlCases | app/searchlib/semantic_scholar.py:49 | the pdf url is the `url` of `openAccessPdf`; it is "" when `openAccessPdf` is absent or null; a truthy non-dict raises AttributeError |
| Papers.ReadRecords | app/searchlib/semantic_scholar.py:32-50 | the loop over `data` of either Semantic Scholar client gives the records of the reply |
| Papers.DataRecordsMeans | app/searchlib/dynamed.py:27-39 | for a dict reply whose `data` is a list or absent, every client's records exist iff every entry reads, one per entry in order; otherwise an entry that raises decides |
| Papers.NonDictReplyRaises | app/searchlib/semantic_scholar.py:34 | a reply that is not a dict raises AttributeError at `response.get('data', [])` |
| ScholarSearch.ParamKeysLookup | app/searchlib/semantic_scholar.py:13-18 | the base parameters find their query and year, and have no token |
| ScholarSearch.ParamsMeaning | app/searchlib/semantic_scholar.py:13-20 | the request carries the token iff it is truthy, and then unchanged; the query is the key in double quotes; the year range runs from ten years ago to the current year |
| ScholarSearch.ScholarRecordFields | app/searchlib/semantic_scholar.py:35-49 | the record has source "SemanticScholar", the key, no keywords, the citation count, "NA" sections, no figures and the pdf url |
| ScholarSearch.Search | app/searchlib/semantic_scholar.py:9-57 | `search` gives the outcome of its specification for the reply to its parameters and headers |
| ScholarSearch.SearchPages | app/searchlib/semantic_scholar.py:32-57 | the call succeeds iff every entry reads, with one record per entry in order; a truthy reply token wraps them in a `Partial` whose `Redo` carries that token, otherwise they come back as a plain list |
| ScholarSearch.EntryDefaults | app/searchlib/semantic_scholar.py:38-49 | an entry without a citation count reads 0 and one without `openAccessPdf` reads "" |
| DynamedSearch.RequestBody | app/searchlib/dynamed.py:15-18 | the body holds exactly the query, which is the key, and the fields |
| DynamedSearch.Search | app/searchlib/dynamed.py:14-42 | `search` gives the outcome of its specification for the reply to its body |
| DynamedSearch.UnauthorizedRedo | app/searchlib/dynamed.py:22-23 | an "Unauthorized" reply asks for the same search with the token unchanged; any other reply gives its records |
| DynamedSearch.SearchRecords | app/searchlib/dynamed.py:27-42 | any other reply succeeds iff every entry reads, with one record per entry in order |
| DynamedSearch.EntryDefaults | app/searchlib/dynamed.py:28-39 | a record holds the swapped year and date, the title and abstract defaults, the author names, and constant keywords, sections and figures |
| DynamedSearch.WrittenEntryRecord | app/searchlib/dynamed.py:28-39 | as written, building a record always raises |
| DynamedSearch.WrittenEntryRaises | app/searchlib/dynamed.py:27-40 | as written, a reply whose first entry is well formed raises TypeError, while the intended record exists |
| OldPubMedSearch.IdsParams | search/search/pubmed.py:22-28 | the esearch parameters have their five keys in order |
| OldPubMedSearch.IdsParamsPage | search/search/pubmed.py:26-27 | the page starts at the token's `retstart`, 0 by default; the term is the quoted key restricted to titles within three words |
| OldPubMedSearch.Search | search/search/pubmed.py:76-132 | `search` gives the outcome of its specification for the caller's token dict |
| OldPubMedSearch.ProcessArticles | search/search/pubmed.py:91-130 | the article loop yields one record per article in order, and stops at the first that raises |
| OldPubMedSearch.SearchRedo | search/search/pubmed.py:77-89 | an id lookup that answers other than 200, or a details fetch that raises, answers other than 200 or whose body does not parse as XML, gives a `Redo` holding the caller's own token dict |
| OldPubMedSearch.RequestFailures | search/search/pubmed.py:76-89 | an id request that raises propagates its exception out of `search`, while a details request that raises, after a good id lookup, becomes a `Redo` holding the caller's own token dict |
| OldPubMedSearch.SearchRecords | search/search/pubmed.py:91-132 | once the articles are fetched, the search succeeds iff every article does, with one record per article in order |
| OldPubMedSearch.ArticleFields | search/search/pubmed.py:93-130 | a record holds its article's extracted fields unchanged and the first candidate url that answers |
| OldPubMedSearch.WrittenArticleRecord | search/search/pubmed.py:116-130 | as written, building a record always raises |
| OldPubMedSearch.WrittenArticleRaises | search/search/pubmed.py:93-130 | as written, a page whose first article reads raises TypeError, while the intended record exists |
| OldScholarSearch.Params | search/search/semantic_scholar.py:13-19 | the parameters have their five keys in order |
| OldScholarSearch.ParamKeysLookup | search/search/semantic_scholar.py:13-19 | in that key order, "offset" and "limit" find their values |
| OldScholarSearch.ParamsPage | search/search/semantic_scholar.py:17-18 | the request asks for the token's offset and limit, 0 and 100 by default |
| OldScholarSearch.RateLimited | search/search/semantic_scholar.py:30 | the rate-limit test raises exactly when the reply is not a dict |
| OldScholarSearch.Search | search/search/semantic_scholar.py:12-57 | the outcome is that of its specification for the reply to the request built from the token's contents before the call; the token dict ends as the specification's updated token |
| OldScholarSearch.AdvanceMeaning | search/search/semantic_scholar.py:52-53 | the update sets the offset to `next`; it keeps the limit, writing 100 when there was none; other keys are unchanged |
| OldScholarSearch.AdvanceKeys | search/search/semantic_scholar.py:52-53 | a token that already has both keys keeps its keys and their order |
| OldScholarSearch.NextRequestContinues | search/search/semantic_scholar.py:51-55 | after an advance, the next request through the shared dict asks for the page at `next` with the same limit |
| OldScholarSearch.Decision | search/search/semantic_scholar.py:30-57 | a "429" string code gives a `Redo` and leaves the token; otherwise the records come back as a page iff `total > offset + limit`; that page's `Redo` holds the same token dict, which is advanced only then |
| OldScholarSearch.NumericCodeIgnored | search/search/semantic_scholar.py:30-31 | a numeric 429 code is not recognised as rate limiting |
| OldScholarSearch.EntryDefaults | search/search/semantic_scholar.py:36-48 | a record holds the swapped year and date, the defaults, the author names and a "" pdf url when there is none |
| OldScholarSearch.WrittenEntryRecord | search/search/semantic_scholar.py:36-48 | as written, building a record always raises |
| OldScholarSearch.WrittenEntryRaises | search/search/semantic_scholar.py:35-49 | as written, a reply whose first entry is well formed raises TypeError, while the intended record exists |
| OldDynamedSearch.RequestBody | search/search/dynamed.py:14-17 | the body holds only the query and the fields; `offset` and `limit` are never sent |
| OldDynamedSearch.Search | search/search/dynamed.py:13-41 | `search` gives the intended outcome for the reply to its body: on "Unauthorized" the corrected `Redo` (see Findings), otherwise the records |
| OldDynamedSearch.SearchOutcome | search/search/dynamed.py:21-41 | an "Unauthorized" reply asks for the same search again at the same offset and limit; any other reply succeeds iff every entry reads, with one record per entry in order |
| OldDynamedSearch.WrittenUnauthorizedRaises | search/search/dynamed.py:21-22 | as written, an "Unauthorized" reply raises TypeError where the intended search asks for itself again; on every other reply the two agree |
| OldDynamedSearch.EntryFields | search/search/dynamed.py:26-39 | a record has the older layout, with the swapped year and date, the title and abstract defaults, no keywords and no figures |

## Left out

- Network, file and database I/O are not modelled. The model takes as
  inputs the replies of:
  - the providers' HTTP endpoints;
  - the HEAD requests;
  - layout analysis and the chat completions;
  - figure cropping (pymupdf, PIL, base64) and blob upload.
  The Mongo client, aiofiles, the CLI arguments, logging and `uuid` are not
  modelled.
- Concurrency is not modelled. `asyncio.gather` waits for every call and
  passes on an exception that one of them raised. When several calls
  raise, Python passes on the first to happen in time. The model instead
  passes on the first in call order. This applies to the orchestrator's two
  gathers (Orchestrator.Gather) and to the PubMed article gather
  (PubMedSearch.ProcessArticles). Connection limits and timeouts are not
  modelled.
- Orchestrator.Search: the retry loop of `search` need not terminate,
  because a provider that keeps answering with `Partial`s never spends the
  budget. The model bounds the number of retry rounds by a `fuel`
  parameter. RunAllPartial shows that such a run uses up all of its fuel.
- ScholarSearch.Search: three things are taken as given.
  - app/searchlib/semantic_scholar.py defines a module-level
    `search(self, api_key, ...)`, not a `SemanticScholar` class, while
    app/app.py imports and instantiates one. The model takes `self` to be
    that client.
  - It calls `.get` on a `requests` Response, which has no such method.
    The model takes `response` to be the decoded JSON body, and
    `raise_for_status` to have passed.
  - Its callers do not match its signature. app/app.py:19 calls
    `await client.search(query)` and app/app.py:24 calls
    `await redo.client.search(redo.searchkey, redo.token)`, but `search`
    is a plain function taking `(self, api_key, searchkey, token=None)`.
    The key lands in `api_key`, `searchkey` is missing or receives the
    token, and the list it returns cannot be awaited; each raises
    TypeError. The model takes the call to bind the key to `searchkey` and
    the token to `token`.
- Processor.ExtractSections: the regular expression search is the `find`
  parameter. The case-insensitive pattern itself is not modelled.
- A chat reply whose content is None is not distinguished from a call that
  raised.
- The section prompt is not modelled either: `ask` stands for the chat call
  on the document text.
- A failed HEAD request's status reads "failed " and the exception's
  message. How `requests` formats its exceptions is not modelled.
- `urllib.parse.urlencode` is not modelled: parameters stay as a dict.
- FunctionApp.ParseInt covers only ASCII digits, whitespace, one sign and
  single underscores between digits. It does not cover Unicode digits or
  whitespace, nor values of non-string type from the environment.
- FunctionApp.SaveToDb omits `asyncio.sleep` and `insert_many`; it returns
  the chunks it would insert. The `Search` and `Delete` handlers are
  modelled only through their keyword step (SelectKeywords). The
  `ClearDatabase`, `Health` and `UpdateAI` handlers are not modelled. Nor
  is the 500 reply that `Search` gives when the orchestrator's search
  raises.
- `Search` in app/function_app.py passes environment values, which are
  strings when set, as the concurrency limits and the retry budget.
  Orchestrator.Search takes the budget as an int, so it does not cover
  comparing a string budget with 0.
- PyValue.Repr always quotes strings with single quotes and escapes
  nothing. Python switches to double quotes for a string holding a single
  quote, and escapes control characters. This only matters for the PMC url
  of a non-string id.
- OldScholarSearch.Exceeds only compares int operands. It takes any other
  operand types to raise TypeError, although Python compares bools and
  floats as numbers.
- OldScholarSearch.Search models the default `token={}` shared between
  calls by having the caller pass the same `DictRef`.
- search/search/semantic_scholar.py imports `Partial` from
  search/search/results.py (line 5), which does not define it. The import
  raises ImportError, so the module never loads as shipped. OldScholarSearch
  models the code as written after that line, and returns the `Partial` it
  builds as the `ScholarPage` outcome.
- The older `Redo(searchkey, client, limit)` is filled with the caller's
  token dict in the `limit` slot. That is what the model stores.
- Each provider's records have their own type:
  - DynamedSearch.DynamedRecord, for the arguments the app's Dynamed client
    passes;
  - OldScholarSearch.ScholarRecord and OldPubMedSearch.OldPubMedRecord, for
    the arguments of the older clients.
  The record constructors these clients call reject those arguments (see
  Findings). The rest of the model uses the intended records.
- The PubMed `_get_details` failure path builds
  `Redo(searchkey="id", token=token)` with no client, which raises
  TypeError. The enclosing `try` turns that into a `Redo` of the whole
  search, which is what the model gives.

## Findings

| source | as written | input that shows it | evidently intended | confidence | as-written member | corrected member |
|---|---|---|---|---|---|---|
| app/searchlib/dynamed.py:28-39 | `Success(...)` is called without `source`, `citations` and `pdf_url`, which the application's `Success` requires | any reply that is not "Unauthorized" and whose `data` has an entry with dict authors, e.g. `{"data": [{}]}` | one record per entry | high, not executed | DynamedSearch.WrittenEntryRaises | DynamedSearch.EntryDefaults |
| search/search/semantic_scholar.py:36-48 | `Success(...)` is called with `pdf_url`, which the older `Success` does not accept | any reply that is not rate limited and whose `data` has a well-formed entry, e.g. `{"data": [{}]}` | one record per entry, with its pdf url | high, not executed | OldScholarSearch.WrittenEntryRaises | OldScholarSearch.EntryDefaults |
| search/search/pubmed.py:116-130 | `Success(...)` is called with `source` and `pdf_url`, which the older `Success` does not accept | any fetched page whose articles form a list holding one that reads, e.g. `{"PubmedArticleSet": {"PubmedArticle": [{}]}}` with both fetches answering 200 | one record per article, with its source and pdf url | high, not executed | OldPubMedSearch.WrittenArticleRaises | OldPubMedSearch.ArticleFields |
| search/search/dynamed.py:21-22 | `Redo(searchkey, self, offset, limit)` passes four arguments to the `Redo` of search/search/results.py, which takes three | any reply `{"name": "Unauthorized"}` | a `Redo` of the same search, at the same offset and limit | high, not executed | OldDynamedSearch.WrittenUnauthorizedRaises | OldDynamedSearch.SearchOutcome |

=== FILE: dynamed.dfy ===
/** The Dynamed client of the application package (app/searchlib/dynamed.py):
    an "Unauthorized" reply asks for the same search again, any other reply
    gives one record per entry. Its records carry exactly the eleven fields
    the client passes, without source, citation count or pdf url. */
module DynamedSearch {
  import opened PyValue
  import opened Results
  import opened Papers

  /** The keyword arguments of one Dynamed record. */
  datatype DynamedRecord = DynamedRecord(searchkey: string, publishedYear: Value,
                                         publishedDate: Value, authors: seq<Value>,
                                         keywords: seq<Value>, title: Value, abstractText: Value,
                                         introduction: string, results: string,
                                         conclusion: string, figures: seq<Value>)

  /** What the client returns: its records, or a `Redo`. */
  datatype DynamedOutcome = DynamedRecords(records: seq<DynamedRecord>) | DynamedRedo(redo: Redo)

  /** The JSON body of the request: the key and the one field asked for. */
  function RequestBody(searchkey: string): (body: seq<(string, Value)>)
    ensures Keys(body) == ["query", "fields"]
    ensures body[0].1 == Str(searchkey)
  {
    [("query", Str(searchkey)), ("fields", List([Str("title")]))]
  }

  /** The record of one entry: no keywords, "NA" sections, no figures. */
  function EntryRecord(searchkey: string, data: Value): Result<DynamedRecord>
  {
    var p :- PaperOf(data);
    Ok(DynamedRecord(searchkey, p.publishedYear, p.publishedDate, p.authors, [], p.title,
                     p.abstractText, "NA", "NA", "NA", []))
  }

  function EntryFn(searchkey: string): Value -> Result<DynamedRecord>
  {
    data => EntryRecord(searchkey, data)
  }

  /** The call as written: the `Success` of app/searchlib/results.py also
      requires `source`, `citations` and `pdf_url`, which this client does
      not pass, so once its arguments are read the call raises TypeError. */
  function WrittenEntryRecord(searchkey: string, data: Value): (r: Result<DynamedRecord>)
    ensures r.Raise?
  {
    var p :- PaperOf(data);
    Raise(TypeError)
  }

  function WrittenEntryFn(searchkey: string): Value -> Result<DynamedRecord>
  {
    data => WrittenEntryRecord(searchkey, data)
  }

  /** As written, a reply whose first entry is well formed raises TypeError
      instead of returning records, while the intended mapping gives that
      entry its record. */
  lemma WrittenEntryRaises(searchkey: string, e: seq<(string, Value)>, authors: seq<Value>, rest: seq<Value>)
    requires Lookup(e, "authors").GetOr(EmptyList) == List(authors)
    requires forall k :: 0 <= k < |authors| ==> authors[k].Dict?
    ensures MapAll([Dict(e)] + rest, WrittenEntryFn(searchkey)) == Raise(TypeError)
    ensures EntryRecord(searchkey, Dict(e)).Ok?
  {
    PaperFields(e, authors);
    assert ([Dict(e)] + rest)[0] == Dict(e);
  }

  /** `response.get('name', '') == 'Unauthorized'`. */
  function Unauthorized(response: Value): Result<bool>
  {
    var name :- Get(response, "name", Str(""));
    Ok(name == Str("Unauthorized"))
  }

  function RecordsOf(searchkey: string, response: Value): Result<seq<DynamedRecord>>
  {
    DataRecords(response, EntryFn(searchkey))
  }

  /** `search(searchkey, token)` against the reply `get` gives for the
      request body. */
  function SearchSpec(searchkey: string, token: Value, get: seq<(string, Value)> -> Value)
    : Result<DynamedOutcome>
  {
    var response := get(RequestBody(searchkey));
    var denied :- Unauthorized(response);
    if denied then Ok(DynamedRedo(Redo(searchkey, Dynamed, token)))
    else
      var records :- RecordsOf(searchkey, response);
      Ok(DynamedRecords(records))
  }

  method Search(searchkey: string, token: Value, get: seq<(string, Value)> -> Value)
    returns (r: Result<DynamedOutcome>)
    ensures r == SearchSpec(searchkey, token, get)
  {
    var response := get(RequestBody(searchkey));
    var denied := Unauthorized(response);
    if denied.Raise? {
      return Raise(denied.exn);
    }
    if denied.value {
      return Ok(DynamedRedo(Redo(searchkey, Dynamed, token)));
    }
    var data := Get(response, "data", EmptyList);
    if data.Raise? {
      return Raise(data.exn);
    }
    var entries := Iter(data.value);
    if entries.Raise? {
      return Raise(entries.exn);
    }
    var result := MapEach(entries.value, EntryFn(searchkey));
    if result.Raise? {
      return Raise(result.exn);
    }
    return Ok(DynamedRecords(result.value));
  }

  /** An "Unauthorized" reply asks for the same search again with the
      incoming token unchanged, and yields no records. */
  lemma UnauthorizedRedo(searchkey: string, token: Value, get: seq<(string, Value)> -> Value,
                         e: seq<(string, Value)>)
    requires get(RequestBody(searchkey)) == Dict(e)
    ensures Lookup(e, "name") == Some(Str("Unauthorized")) ==>
              SearchSpec(searchkey, token, get) == Ok(DynamedRedo(Redo(searchkey, Dynamed, token)))
    ensures Lookup(e, "name").GetOr(Str("")) != Str("Unauthorized") ==>
              SearchSpec(searchkey, token, get) == (
                match RecordsOf(searchkey, Dict(e))
                case Ok(records) => Ok(DynamedRecords(records))
                case Raise(x) => Raise(x))
  {
  }

  /** Any other reply with a `data` list: one record per entry, in order,
      unless an entry raises. */
  lemma SearchRecords(searchkey: string, token: Value, get: seq<(string, Value)> -> Value,
                      e: seq<(string, Value)>, entries: seq<Value>)
    requires get(RequestBody(searchkey)) == Dict(e)
    requires Lookup(e, "name").GetOr(Str("")) != Str("Unauthorized")
    requires Lookup(e, "data").GetOr(EmptyList) == List(entries)
    ensures var r := SearchSpec(searchkey, token, get);
            && (r.Ok? <==> forall k :: 0 <= k < |entries| ==> EntryRecord(searchkey, entries[k]).Ok?)
            && (r.Ok? ==> r.value.DynamedRecords? && |r.value.records| == |entries| &&
                          forall k :: 0 <= k < |entries| ==>
                            r.value.records[k] == EntryRecord(searchkey, entries[k]).value)
  {
    var f := EntryFn(searchkey);
    MapAllMeans(entries, f);
    assert forall k :: 0 <= k < |entries| ==> f(entries[k]) == EntryRecord(searchkey, entries[k]);
  }

  /** The fields of a record: the year slot holds `publicationDate`, the
      date slot `year`, a missing title is "", a missing abstract "NA", and
      the keywords, sections and figures are constant. */
  lemma EntryDefaults(searchkey: string, e: seq<(string, Value)>, authors: seq<Value>)
    requires Lookup(e, "authors").GetOr(EmptyList) == List(authors)
    requires forall k :: 0 <= k < |authors| ==> authors[k].Dict?
    ensures EntryRecord(searchkey, Dict(e)).Ok?
    ensures var d := EntryRecord(searchkey, Dict(e)).value;
            && d.searchkey == searchkey
            && d.publishedYear == Lookup(e, "publicationDate").GetOr(Str(""))
            && d.publishedDate == Lookup(e, "year").GetOr(Str(""))
            && d.title == Lookup(e, "title").GetOr(Str(""))
            && d.abstractText == Lookup(e, "abstract").GetOr(Str("NA"))
            && |d.authors| == |authors|
            && (forall k :: 0 <= k < |authors| ==>
                  d.authors[k] == Lookup(authors[k].entries, "name").GetOr(Str("")))
            && d.keywords == [] && d.figures == []
            && d.introduction == "NA" && d.results == "NA" && d.conclusion == "NA"
  {
    PaperFields(e, authors);
  }
}

=== FILE: function_app.dfy ===
/** The HTTP entry points and the database writer (app/function_app.py):
    chunking of the records to insert, the batch size read from the
    environment, and the choice of the keyword list of a request. */
module FunctionApp {
  import opened Text
  import opened PyValue

  /* ---------- batched ---------- */

  function Min(a: int, b: int): int
  {
    if a <= b then a else b
  }

  /** The chunks `batched` yields for a non-negative size: consecutive
      slices of `size` elements, the last one possibly shorter; none at all
      for size 0. */
  function Chunks<T>(xs: seq<T>, size: nat): seq<seq<T>>
    decreases |xs|
  {
    if size == 0 || xs == [] then []
    else [xs[..Min(size, |xs|)]] + Chunks(xs[Min(size, |xs|)..], size)
  }

  /** `batched(iterable, chunk_size)`: each pass takes the next
      `chunk_size` elements from the shared iterator and stops at the first
      empty take; a negative size makes `islice` raise ValueError. */
  method Batched<T>(xs: seq<T>, chunkSize: int) returns (r: Result<seq<seq<T>>>)
    ensures chunkSize < 0 <==> r.Raise?
    ensures chunkSize < 0 ==> r == Raise(ValueError)
    ensures chunkSize >= 0 ==> r == Ok(Chunks(xs, chunkSize))
  {
    if chunkSize < 0 {
      return Raise(ValueError);
    }
    var chunks: seq<seq<T>> := [];
    var pos := 0;
    var chunk := xs[pos..Min(pos + chunkSize, |xs|)];
    while chunk != []
      invariant 0 <= pos <= |xs|
      invariant chunk == xs[pos..Min(pos + chunkSize, |xs|)]
      invariant chunks + Chunks(xs[pos..], chunkSize) == Chunks(xs, chunkSize)
      decreases |xs| - pos
    {
      assert xs[pos..][..Min(chunkSize, |xs| - pos)] == chunk;
      assert xs[pos..][Min(chunkSize, |xs| - pos)..] == xs[pos + |chunk|..];
      var rest := Chunks(xs[pos + |chunk|..], chunkSize);
      assert Chunks(xs[pos..], chunkSize) == [chunk] + rest;
      assert (chunks + [chunk]) + rest == chunks + ([chunk] + rest);
      chunks := chunks + [chunk];
      pos := pos + |chunk|;
      chunk := xs[pos..Min(pos + chunkSize, |xs|)];
    }
    if chunkSize > 0 {
      assert xs[pos..] == [];
    }
    assert Chunks(xs[pos..], chunkSize) == [];
    assert chunks == Chunks(xs, chunkSize);
    return Ok(chunks);
  }

  /** Writing the chunks one after the other writes every record once, in order. */
  lemma {:induction false} ChunksFlatten<T>(xs: seq<T>, size: nat)
    requires size > 0
    ensures Flatten(Chunks(xs, size)) == xs
    decreases |xs|
  {
    if xs != [] {
      var m := Min(size, |xs|);
      ChunksFlatten(xs[m..], size);
      assert xs[..m] + xs[m..] == xs;
    }
  }

  /** Every chunk is non-empty and holds at most `size` records; every chunk
      but the last holds exactly `size`. */
  lemma {:induction false} ChunksSizes<T>(xs: seq<T>, size: nat)
    ensures forall i :: 0 <= i < |Chunks(xs, size)| ==> 0 < |Chunks(xs, size)[i]| <= size
    ensures forall i :: 0 <= i < |Chunks(xs, size)| - 1 ==> |Chunks(xs, size)[i]| == size
    decreases |xs|
  {
    if size > 0 && xs != [] {
      var m := Min(size, |xs|);
      ChunksSizes(xs[m..], size);
      var cs := Chunks(xs, size);
      assert cs == [xs[..m]] + Chunks(xs[m..], size);
      if |Chunks(xs[m..], size)| > 0 {
        assert m == size;
      }
      forall i | 0 < i < |cs| ensures cs[i] == Chunks(xs[m..], size)[i - 1] {
      }
    }
  }

  /** There are ⌈n / size⌉ chunks: none for no record, otherwise just enough
      chunks of `size` to hold every record. */
  lemma {:induction false} ChunksCount<T>(xs: seq<T>, size: nat)
    requires size > 0
    ensures xs == [] ==> Chunks(xs, size) == []
    ensures xs != [] ==> size * (|Chunks(xs, size)| - 1) < |xs| <= size * |Chunks(xs, size)|
    decreases |xs|
  {
    if xs != [] {
      var m := Min(size, |xs|);
      var c := |Chunks(xs[m..], size)|;
      ChunksCount(xs[m..], size);
      assert |Chunks(xs, size)| == c + 1;
      assert size * (c + 1) == size * c + size;
      if m == |xs| {
        assert c == 0;
      }
    }
  }

  /* ---------- the batch size ---------- */

  predicate IsSpace(c: char)
  {
    c == ' ' || c == '\t' || c == '\n' || c == '\r' || c as int == 11 || c as int == 12
  }

  predicate IsDigit(c: char)
  {
    '0' <= c <= '9'
  }

  /** `s.lstrip()`. */
  function TrimLeft(s: string): (r: string)
    ensures |r| <= |s| && r == s[|s| - |r|..]
    ensures r == [] || !IsSpace(r[0])
  {
    if s != [] && IsSpace(s[0]) then TrimLeft(s[1..]) else s
  }

  /** `s.rstrip()`. */
  function TrimRight(s: string): (r: string)
    ensures |r| <= |s| && r == s[..|r|]
    ensures r == [] || !IsSpace(r[|r| - 1])
  {
    if s != [] && IsSpace(s[|s| - 1]) then TrimRight(s[..|s| - 1]) else s
  }

  function Strip(s: string): string
  {
    TrimRight(TrimLeft(s))
  }

  /** A decimal literal as `int()` accepts it: digits, with single
      underscores allowed between two digits. */
  predicate ValidDigits(s: string)
  {
    |s| > 0 && IsDigit(s[0]) && IsDigit(s[|s| - 1]) &&
    (forall k :: 0 <= k < |s| ==> IsDigit(s[k]) || s[k] == '_') &&
    (forall k :: 0 <= k < |s| - 1 ==> !(s[k] == '_' && s[k + 1] == '_'))
  }

  /** The value of the digits of `s`, underscores skipped. */
  function DigitsValue(s: string): nat
  {
    if s == [] then 0
    else if IsDigit(s[|s| - 1]) then 10 * DigitsValue(s[..|s| - 1]) + (s[|s| - 1] as int - '0' as int)
    else DigitsValue(s[..|s| - 1])
  }

  /** `int()` after the whitespace is stripped: one sign, then the digits. */
  function ParseStripped(t: string): (r: Result<int>)
    ensures r.Raise? ==> r.exn == ValueError
  {
    if t == [] then Raise(ValueError)
    else
      var body := if t[0] == '-' || t[0] == '+' then t[1..] else t;
      if !ValidDigits(body) then Raise(ValueError)
      else
        var v: int := DigitsValue(body);
        if t[0] == '-' then Ok(-v) else Ok(v)
  }

  /** `int(s)` for a string: surrounding whitespace is ignored, one sign is
      allowed; anything else raises ValueError. */
  function ParseInt(s: string): (r: Result<int>)
    ensures r.Raise? ==> r.exn == ValueError
    ensures Strip(s) == [] ==> r.Raise?
  {
    ParseStripped(Strip(s))
  }

  lemma DigitCharValue(d: nat)
    requires d < 10
    ensures IsDigit(DigitChar(d)) && DigitChar(d) as int - '0' as int == d
  {
    assert "0123456789"[d] == ['0', '1', '2', '3', '4', '5', '6', '7', '8', '9'][d];
  }

  lemma {:induction false} NatToStringValue(n: nat)
    ensures DigitsValue(NatToString(n)) == n
    decreases n
  {
    var s := NatToString(n);
    if n < 10 {
      DigitCharValue(n);
      assert s[..0] == [];
    } else {
      NatToStringValue(n / 10);
      DigitCharValue(n % 10);
      assert s[..|s| - 1] == NatToString(n / 10);
    }
  }

  lemma NatToStringValid(n: nat)
    ensures ValidDigits(NatToString(n))
  {
  }

  lemma StripNoSpace(s: string)
    requires s != [] && !IsSpace(s[0]) && !IsSpace(s[|s| - 1])
    ensures Strip(s) == s
  {
  }

  lemma ParseDigits(n: nat)
    ensures ParseStripped(NatToString(n)) == Ok(n)
  {
    var digits := NatToString(n);
    NatToStringValue(n);
    NatToStringValid(n);
    assert IsDigit(digits[0]);
    assert digits[0] != '-' && digits[0] != '+';
  }

  /** A minus sign before valid digits parses to the negated value. */
  lemma ParseMinus(digits: string)
    requires ValidDigits(digits)
    ensures ParseStripped("-" + digits) == Ok(-(DigitsValue(digits) as int))
  {
    var t := "-" + digits;
    assert t[0] == '-' && t[1..] == digits;
  }

  lemma ParseNegativeDigits(n: nat)
    ensures ParseStripped("-" + NatToString(n)) == Ok(-(n as int))
  {
    var digits := NatToString(n);
    assert DigitsValue(digits) == n && ValidDigits(digits) by {
      NatToStringValue(n);
      NatToStringValid(n);
    }
    ParseMinus(digits);
  }

  /** `int(str(i)) == i`: the parse reads back every integer Python prints. */
  lemma ParseIntRoundTrip(i: int)
    ensures ParseInt(IntToString(i)) == Ok(i)
  {
    var n: nat := if i < 0 then -i else i;
    if i < 0 {
      ParseNegativeDigits(n);
    } else {
      ParseDigits(n);
    }
    var s := IntToString(i);
    assert s[|s| - 1] == NatToString(n)[|NatToString(n)| - 1];
    StripNoSpace(s);
  }

  /** Surrounding whitespace never changes the parse. */
  lemma ParseIntIgnoresSpaces(s: string)
    ensures ParseInt(" " + s + "\n") == ParseInt(s)
  {
    StripPadding(s);
  }

  lemma StripPadding(s: string)
    ensures Strip(" " + s + "\n") == Strip(s)
  {
    var p := " " + s + "\n";
    assert p[0] == ' ' && p[1..] == s + "\n";
    assert TrimLeft(p) == TrimLeft(s + "\n");
    TrimLeftAppend(s, "\n");
  }

  lemma {:induction false} TrimLeftAppend(s: string, tail: string)
    requires forall k :: 0 <= k < |tail| ==> IsSpace(tail[k])
    ensures TrimRight(TrimLeft(s + tail)) == TrimRight(TrimLeft(s))
  {
    if s != [] && IsSpace(s[0]) {
      assert (s + tail)[1..] == s[1..] + tail;
      TrimLeftAppend(s[1..], tail);
    } else if s == [] {
      assert s + tail == tail;
      TrimAllSpace(tail);
    } else {
      assert (s + tail)[0] == s[0];
      TrimRightSpaces(s, tail);
    }
  }

  lemma {:induction false} TrimAllSpace(t: string)
    requires forall k :: 0 <= k < |t| ==> IsSpace(t[k])
    ensures TrimRight(TrimLeft(t)) == []
  {
    if t != [] {
      TrimAllSpace(t[1..]);
    }
  }

  lemma {:induction false} TrimRightSpaces(s: string, tail: string)
    requires forall k :: 0 <= k < |tail| ==> IsSpace(tail[k])
    ensures TrimRight(s + tail) == TrimRight(s)
    decreases |tail|
  {
    if tail != [] {
      var u := s + tail;
      assert u[..|u| - 1] == s + tail[..|tail| - 1];
      TrimRightSpaces(s, tail[..|tail| - 1]);
    } else {
      assert s + tail == s;
    }
  }

  /** The batch size of `save_to_db`: 1000 unless the environment gives a
      value; the parsed value when it parses, 1000 again when it does not. */
  function BatchSizeOf(env: Option<string>): int
  {
    match env
    case None => 1000
    case Some(text) =>
      match ParseInt(text)
      case Ok(n) => n
      case Raise(_) => 1000
  }

  /** The `try`/`except ValueError` around `int(BATCH_SIZE)`. */
  method BatchSize(env: Option<string>) returns (size: int)
    ensures size == BatchSizeOf(env)
    ensures env.None? ==> size == 1000
    ensures env.Some? && ParseInt(env.value).Ok? ==> size == ParseInt(env.value).value
    ensures env.Some? && ParseInt(env.value).Raise? ==> size == 1000
  {
    size := 1000;
    if env.Some? {
      var parsed := ParseInt(env.value);
      if parsed.Ok? {
        size := parsed.value;
      }
    }
  }

  /** The chunks `save_to_db` inserts, in order: the results in batches of
      the batch size, every batch but the last full; a negative batch size
      raises ValueError while the chunks are taken. */
  method SaveToDb(results: seq<Value>, env: Option<string>) returns (written: Result<seq<seq<Value>>>)
    ensures BatchSizeOf(env) < 0 <==> written.Raise?
    ensures BatchSizeOf(env) < 0 ==> written == Raise(ValueError)
    ensures BatchSizeOf(env) >= 0 ==> written == Ok(Chunks(results, BatchSizeOf(env)))
    ensures written.Ok? ==>
              && (forall i :: 0 <= i < |written.value| ==> 0 < |written.value[i]| <= BatchSizeOf(env))
              && (forall i :: 0 <= i < |written.value| - 1 ==> |written.value[i]| == BatchSizeOf(env))
    ensures written.Ok? ==> forall c :: c in written.value ==> c != []
    ensures env.None? ==> written.Ok? && Flatten(written.value) == results
    ensures written.Ok? && |written.value| > 0 ==> Flatten(written.value) == results
    ensures env.Some? && ParseInt(env.value) == Ok(0) ==> written == Ok([])
    ensures env.Some? && ParseInt(env.value).Ok? && ParseInt(env.value).value < 0 ==> written == Raise(ValueError)
  {
    var size := BatchSize(env);
    written := Batched(results, size);
    if size > 0 {
      ChunksFlatten(results, size);
    }
    if size >= 0 {
      ChunksSizes(results, size);
      assert forall c :: c in written.value ==> c != [] by {
        forall c | c in written.value ensures c != [] {
          var i :| 0 <= i < |written.value| && written.value[i] == c;
        }
      }
    }
  }

  /* ---------- keywords of a request ---------- */

  /** `s.split(sep)` for a one-character separator. */
  function Split(s: string, sep: char): (parts: seq<string>)
    ensures |parts| >= 1
    decreases |s|
  {
    if s == [] then [""]
    else
      var rest := Split(s[1..], sep);
      if s[0] == sep then [""] + rest else [[s[0]] + rest[0]] + rest[1..]
  }

  lemma {:induction false} JoinPrefixHead(sep: string, x: string, parts: seq<string>)
    requires |parts| >= 1
    ensures Join(sep, [x + parts[0]] + parts[1..]) == x + Join(sep, parts)
  {
    var q := [x + parts[0]] + parts[1..];
    assert q[1..] == parts[1..];
  }

  /** Joining the parts with the separator gives the string back. */
  lemma {:induction false} SplitJoin(s: string, sep: char)
    ensures Join([sep], Split(s, sep)) == s
    decreases |s|
  {
    if s != [] {
      var rest := Split(s[1..], sep);
      SplitJoin(s[1..], sep);
      if s[0] == sep {
        assert ([""] + rest)[1..] == rest;
      } else {
        JoinPrefixHead([sep], [s[0]], rest);
      }
    }
  }

  /** No part holds the separator. */
  lemma {:induction false} SplitPartsClean(s: string, sep: char)
    ensures forall i :: 0 <= i < |Split(s, sep)| ==> sep !in Split(s, sep)[i]
    decreases |s|
  {
    if s != [] {
      SplitPartsClean(s[1..], sep);
    }
  }

  /** What a request to `Search` or `Delete` carries: the `keywords` query
      parameter, if any, and what `req.get_json()` returns or raises. */
  datatype Request = Request(param: Option<string>, body: Result<Value>)

  /** The outcome of the keyword step of the handlers. */
  datatype Reply =
    | NoKeywords                  // status 400
    | Keywords(list: seq<string>) // the handler goes on with these keywords
    | SplitFailed                 // `keywords.split` raised inside the try: status 500
    | Crashed(exn: Exn)           // an exception outside any try

  /** The keyword step of `Search` and `Delete`. */
  method SelectKeywords(req: Request) returns (reply: Reply)
    ensures req.param.Some? && req.param.value != "" ==> reply == Keywords(Split(req.param.value, ','))
    ensures (req.param.None? || req.param.value == "") && req.body.Raise? ==>
              reply == (if req.body.exn == ValueError then NoKeywords else Crashed(req.body.exn))
    ensures (req.param.None? || req.param.value == "") && req.body.Ok? && !req.body.value.Dict? ==>
              reply == Crashed(AttributeError)
    ensures (req.param.None? || req.param.value == "") && req.body.Ok? && req.body.value.Dict? ==>
              var kw := Lookup(req.body.value.entries, "keywords").GetOr(Null);
              reply == (if !Truthy(kw) then NoKeywords
                        else if kw.Str? then Keywords(Split(kw.s, ','))
                        else SplitFailed)
  {
    var keywords: Value := if req.param.Some? then Str(req.param.value) else Null;
    if !Truthy(keywords) {
      match req.body {
        case Raise(e) =>
          if e != ValueError {
            return Crashed(e);
          }
        case Ok(body) =>
          var got := Get(body, "keywords", Null);
          if got.Raise? {
            return Crashed(got.exn);
          }
          keywords := got.value;
      }
    }
    if Truthy(keywords) {
      if keywords.Str? {
        reply := Keywords(Split(keywords.s, ','));
      } else {
        reply := SplitFailed;
      }
    } else {
      reply := NoKeywords;
    }
  }
}

=== FILE: old_dynamed.dfy ===
/** The Dynamed client of the older package (search/search/dynamed.py): its
    records fit the older `Success` exactly, but its "Unauthorized" branch
    builds a `Redo` with four arguments, which the three-slot `Redo` of
    search/search/results.py rejects with a `TypeError`. The model keeps
    that call as written apart and otherwise gives the intended outcome: the
    same search asked for again at the same offset and limit. */
module OldDynamedSearch {
  import opened PyValue
  import opened OldResults
  import opened Papers

  /** The JSON body: only the key and the field asked for; the `offset` and
      `limit` arguments are never sent. */
  function RequestBody(searchkey: string, offset: Value, limit: Value): (body: seq<(string, Value)>)
    ensures Keys(body) == ["query", "fields"]
    ensures body[0].1 == Str(searchkey)
  {
    [("query", Str(searchkey)), ("fields", List([Str("title")]))]
  }

  /** The older `Success(...)` of one entry: no keywords, "NA" sections,
      no figures. */
  function EntryRecord(searchkey: string, data: Value): Result<OldSuccess>
  {
    var p :- PaperOf(data);
    Ok(NewOldSuccess(Str(searchkey), p.publishedYear, p.publishedDate, List(p.authors), List([]),
                     p.title, p.abstractText, Str("NA"), Str("NA"), Str("NA"), List([])))
  }

  function EntryFn(searchkey: string): Value -> Result<OldSuccess>
  {
    data => EntryRecord(searchkey, data)
  }

  function RecordsOf(searchkey: string, response: Value): Result<seq<OldSuccess>>
  {
    DataRecords(response, EntryFn(searchkey))
  }

  /** What a search gives back: its records, or a request to run the same
      search again from the same page. */
  datatype OldDynamedOutcome =
    | DynamedRecords(records: seq<OldSuccess>)
    | DynamedRedo(searchkey: string, offset: Value, limit: Value)

  /** The records of a reply, or the exception of the first entry that raises. */
  function RecordsOutcome(searchkey: string, response: Value): Result<OldDynamedOutcome>
  {
    var records :- RecordsOf(searchkey, response);
    Ok(DynamedRecords(records))
  }

  /** `search(session, searchkey, offset, limit)` as written: the
      four-argument `Redo(searchkey, self, offset, limit)` of the
      "Unauthorized" branch raises TypeError. */
  function WrittenSearchSpec(searchkey: string, offset: Value, limit: Value,
                             get: seq<(string, Value)> -> Value): Result<OldDynamedOutcome>
  {
    var response := get(RequestBody(searchkey, offset, limit));
    var name :- Get(response, "name", Str(""));
    if name == Str("Unauthorized") then Raise(TypeError)
    else RecordsOutcome(searchkey, response)
  }

  /** `search(session, searchkey, offset, limit)` against the reply `get`
      gives for the body, with the intended "Unauthorized" branch: the same
      search again at the same offset and limit. */
  function SearchSpec(searchkey: string, offset: Value, limit: Value,
                      get: seq<(string, Value)> -> Value): Result<OldDynamedOutcome>
  {
    var response := get(RequestBody(searchkey, offset, limit));
    var name :- Get(response, "name", Str(""));
    if name == Str("Unauthorized") then Ok(DynamedRedo(searchkey, offset, limit))
    else RecordsOutcome(searchkey, response)
  }

  method Search(searchkey: string, offset: Value, limit: Value, get: seq<(string, Value)> -> Value)
    returns (r: Result<OldDynamedOutcome>)
    ensures r == SearchSpec(searchkey, offset, limit, get)
  {
    var response := get(RequestBody(searchkey, offset, limit));
    var name := Get(response, "name", Str(""));
    if name.Raise? {
      return Raise(name.exn);
    }
    if name.value == Str("Unauthorized") {
      return Ok(DynamedRedo(searchkey, offset, limit));
    }
    var data := Get(response, "data", EmptyList);
    if data.Raise? {
      return Raise(data.exn);
    }
    var entries := Iter(data.value);
    if entries.Raise? {
      return Raise(entries.exn);
    }
    var records := MapEach(entries.value, EntryFn(searchkey));
    if records.Raise? {
      return Raise(records.exn);
    }
    return Ok(DynamedRecords(records.value));
  }

  /** As written, an "Unauthorized" reply raises TypeError where the
      intended search asks for itself again at the same offset and limit;
      on every other reply the two agree. */
  lemma WrittenUnauthorizedRaises(searchkey: string, offset: Value, limit: Value,
                                  get: seq<(string, Value)> -> Value, e: seq<(string, Value)>)
    requires get(RequestBody(searchkey, offset, limit)) == Dict(e)
    ensures Lookup(e, "name") == Some(Str("Unauthorized")) ==>
              && WrittenSearchSpec(searchkey, offset, limit, get) == Raise(TypeError)
              && SearchSpec(searchkey, offset, limit, get) == Ok(DynamedRedo(searchkey, offset, limit))
    ensures Lookup(e, "name").GetOr(Str("")) != Str("Unauthorized") ==>
              WrittenSearchSpec(searchkey, offset, limit, get) == SearchSpec(searchkey, offset, limit, get)
  {
  }

  /** An "Unauthorized" reply never yields records: the search asks for
      itself again from the same page; any other reply with a `data` list
      gives one record per entry, in order, unless an entry raises. */
  lemma SearchOutcome(searchkey: string, offset: Value, limit: Value,
                      get: seq<(string, Value)> -> Value, e: seq<(string, Value)>, entries: seq<Value>)
    requires get(RequestBody(searchkey, offset, limit)) == Dict(e)
    requires Lookup(e, "data").GetOr(EmptyList) == List(entries)
    ensures Lookup(e, "name") == Some(Str("Unauthorized")) ==>
              SearchSpec(searchkey, offset, limit, get) == Ok(DynamedRedo(searchkey, offset, limit))
    ensures Lookup(e, "name").GetOr(Str("")) != Str("Unauthorized") ==>
              var r := SearchSpec(searchkey, offset, limit, get);
              && (r.Ok? <==> forall k :: 0 <= k < |entries| ==> EntryRecord(searchkey, entries[k]).Ok?)
              && (r.Ok? ==> r.value.DynamedRecords? && |r.value.records| == |entries| &&
                            forall k :: 0 <= k < |entries| ==>
                              r.value.records[k] == EntryRecord(searchkey, entries[k]).value)
  {
    var f := EntryFn(searchkey);
    MapAllMeans(entries, f);
    assert forall k :: 0 <= k < |entries| ==> f(entries[k]) == EntryRecord(searchkey, entries[k]);
  }

  /** The record of an entry with dict-shaped authors: the older layout
      with the year slot holding `publicationDate`, the date slot `year`,
      and the title and abstract defaults. */
  lemma EntryFields(searchkey: string, e: seq<(string, Value)>, authors: seq<Value>)
    requires Lookup(e, "authors").GetOr(EmptyList) == List(authors)
    requires forall k :: 0 <= k < |authors| ==> authors[k].Dict?
    ensures EntryRecord(searchkey, Dict(e)).Ok?
    ensures var s := EntryRecord(searchkey, Dict(e)).value;
            var p := PaperOf(Dict(e)).value;
            && Keys(s.data.entries) == OldSuccessKeys
            && OldField(s, "searchkey") == Some(Str(searchkey))
            && OldField(s, "title") == Some(Lookup(e, "title").GetOr(Str("")))
            && OldField(s, "abstract") == Some(Lookup(e, "abstract").GetOr(Str("NA")))
            && OldField(s, "keywords") == Some(List([]))
            && OldField(s, "figures") == Some(List([]))
            && OldField(s, "metadata") ==
                 Some(Dict([("published_year", Lookup(e, "publicationDate").GetOr(Str(""))),
                            ("published_date", Lookup(e, "year").GetOr(Str(""))),
                            ("authors", List(p.authors))]))
  {
    PaperFields(e, authors);
    var p := PaperOf(Dict(e)).value;
    NewOldSuccessFields(Str(searchkey), p.publishedYear, p.publishedDate, List(p.authors), List([]),
                        p.title, p.abstractText, Str("NA"), Str("NA"), Str("NA"), List([]),
                        EntryRecord(searchkey, Dict(e)).value);
  }
}

=== FILE: old_pubmed.dfy ===
/** The PubMed client of the older package (search/search/pubmed.py): the
    same per-article extraction and url choice as the application's client,
    done in a sequential loop, without the citation count, and with the
    caller's token dict passed back in every `Redo`. */
module OldPubMedSearch {
  import opened Text
  import opened PyValue
  import opened OldResults
  import opened PubMedSearch

  /** The keyword arguments of one record; unlike the older `Success` it
      carries a source and a pdf url. */
  datatype OldPubMedRecord = OldPubMedRecord(source: string, searchkey: string,
                                             publishedYear: Value, publishedDate: string,
                                             authors: seq<Value>, keywords: seq<Value>,
                                             title: Value, abstractText: Value,
                                             introduction: string, results: string,
                                             conclusion: string, figures: seq<Value>,
                                             pdfUrl: Value)

  datatype OldPubMedOutcome = PubMedRecords(records: seq<OldPubMedRecord>) | PubMedRedo(redo: OldRedo)

  /** The esearch parameters: the page starts at the token's `retstart`
      (0 by default) and the term is the quoted key in titles, within three
      words. */
  function IdsParams(searchkey: string, token: seq<(string, Value)>): (p: seq<(string, Value)>)
    ensures Keys(p) == IdsKeys
  {
    [("db", Str("pubmed")), ("retmode", Str("json")), ("retmax", Int(10000)),
     ("retstart", Lookup(token, "retstart").GetOr(Int(0))),
     ("term", Str("\"" + searchkey + "\"[Title:~3]"))]
  }

  /** The page starts at the token's `retstart`, 0 when it has none. */
  lemma IdsParamsPage(searchkey: string, token: seq<(string, Value)>)
    ensures Lookup(IdsParams(searchkey, token), "retstart") == Some(Lookup(token, "retstart").GetOr(Int(0)))
    ensures Lookup(IdsParams(searchkey, token), "term") == Some(Str("\"" + searchkey + "\"[Title:~3]"))
  {
    IdsKeysLookup(IdsParams(searchkey, token));
  }

  /** The record of one article: "PubMed" as source, "NA" sections, no
      figures, and the url `_get_url` chose. */
  function ArticleRecord(searchkey: string, entry: Value, head: string -> HeadResult)
    : Result<OldPubMedRecord>
  {
    var a :- ArticleOf(entry);
    Ok(OldPubMedRecord("PubMed", searchkey, a.publishedYear, a.publishedDate, a.authors,
                       a.keywords, a.title, a.abstractText, "NA", "NA", "NA", [],
                       FirstHit(a.pmcIds, head)))
  }

  function ArticleFn(searchkey: string, head: string -> HeadResult): Value -> Result<OldPubMedRecord>
  {
    entry => ArticleRecord(searchkey, entry, head)
  }

  /** The call as written: the older `Success` of search/search/results.py
      has no `source` or `pdf_url` parameter, so once its arguments are read
      (the url lookup included) the call raises TypeError. */
  function WrittenArticleRecord(searchkey: string, entry: Value): (r: Result<OldPubMedRecord>)
    ensures r.Raise?
  {
    var a :- ArticleOf(entry);
    Raise(TypeError)
  }

  function WrittenArticleFn(searchkey: string): Value -> Result<OldPubMedRecord>
  {
    entry => WrittenArticleRecord(searchkey, entry)
  }

  /** As written, a page whose first article reads raises TypeError instead
      of returning records, while the intended mapping gives that article
      its record. */
  lemma WrittenArticleRaises(searchkey: string, entry: Value, rest: seq<Value>, head: string -> HeadResult)
    requires ArticleOf(entry).Ok?
    ensures MapAll([entry] + rest, WrittenArticleFn(searchkey)) == Raise(TypeError)
    ensures ArticleRecord(searchkey, entry, head).Ok?
  {
    assert ([entry] + rest)[0] == entry;
  }

  /** `search(session, searchkey, token)` with `ref` the caller's token
      dict holding `token`, `ids` the esearch reply to the parameters and
      `details` the efetch reply: an esearch request that raises leaves
      `search`; a failed id lookup and any failure of the details fetch give
      a `Redo` with the same token dict; otherwise one record per article,
      in order. */
  function SearchSpec(searchkey: string, ref: DictRef, token: seq<(string, Value)>,
                      ids: seq<(string, Value)> -> IdsReply, details: DetailsReply,
                      head: string -> HeadResult): Result<OldPubMedOutcome>
  {
    var reply := ids(IdsParams(searchkey, token));
    if reply.IdsRaised? then Raise(reply.exn)
    else if reply.status != 200 then Ok(PubMedRedo(OldRedo(searchkey, OldPubMed, ref)))
    else
      var idlist :- Dig(reply.body, ["esearchresult", "idlist"], EmptyList);
      if !Joinable(idlist) || DetailsFailed(details) then
        Ok(PubMedRedo(OldRedo(searchkey, OldPubMed, ref)))
      else
        var articles :- Dig(details.parsed.value, ["PubmedArticleSet", "PubmedArticle"], EmptyList);
        var entries :- Iter(articles);
        var records :- MapAll(entries, ArticleFn(searchkey, head));
        Ok(PubMedRecords(records))
  }

  method Search(searchkey: string, token: DictRef, ids: seq<(string, Value)> -> IdsReply,
                details: DetailsReply, head: string -> HeadResult) returns (r: Result<OldPubMedOutcome>)
    ensures r == SearchSpec(searchkey, token, token.entries, ids, details, head)
  {
    var reply := ids(IdsParams(searchkey, token.entries));
    if reply.IdsRaised? {
      return Raise(reply.exn);
    }
    if reply.status != 200 {
      return Ok(PubMedRedo(OldRedo(searchkey, OldPubMed, token)));
    }
    var idlist := Dig(reply.body, ["esearchresult", "idlist"], EmptyList);
    if idlist.Raise? {
      return Raise(idlist.exn);
    }
    if !Joinable(idlist.value) || DetailsFailed(details) {
      return Ok(PubMedRedo(OldRedo(searchkey, OldPubMed, token)));
    }
    var articles := Dig(details.parsed.value, ["PubmedArticleSet", "PubmedArticle"], EmptyList);
    if articles.Raise? {
      return Raise(articles.exn);
    }
    var entries := Iter(articles.value);
    if entries.Raise? {
      return Raise(entries.exn);
    }
    var records := ProcessArticles(searchkey, entries.value, head);
    if records.Raise? {
      return Raise(records.exn);
    }
    return Ok(PubMedRecords(records.value));
  }

  /** The loop over the articles, appending one record each. */
  method ProcessArticles(searchkey: string, entries: seq<Value>, head: string -> HeadResult)
    returns (r: Result<seq<OldPubMedRecord>>)
    ensures r == MapAll(entries, ArticleFn(searchkey, head))
  {
    var result: seq<OldPubMedRecord> := [];
    for k := 0 to |entries|
      invariant MapAll(entries[..k], ArticleFn(searchkey, head)) == Ok(result)
    {
      TakeSnoc(entries, k);
      MapAllSnoc(entries[..k], entries[k], ArticleFn(searchkey, head));
      var a := ArticleOf(entries[k]);
      if a.Raise? {
        MapAllStops(entries, k, ArticleFn(searchkey, head));
        return Raise(a.exn);
      }
      var url := GetUrl(a.value.pmcIds, head);
      var record := OldPubMedRecord("PubMed", searchkey, a.value.publishedYear,
                                    a.value.publishedDate, a.value.authors, a.value.keywords,
                                    a.value.title, a.value.abstractText, "NA", "NA", "NA", [], url);
      result := result + [record];
    }
    assert entries[..|entries|] == entries;
    return Ok(result);
  }

  /** An esearch request that raises leaves `search`, while an efetch
      request that raises is caught and hands back a `Redo` holding the
      caller's own token dict. */
  lemma RequestFailures(searchkey: string, ref: DictRef, token: seq<(string, Value)>,
                        ids: seq<(string, Value)> -> IdsReply, details: DetailsReply,
                        head: string -> HeadResult, e: Exn)
    ensures ids(IdsParams(searchkey, token)) == IdsRaised(e) ==>
              SearchSpec(searchkey, ref, token, ids, details, head) == Raise(e)
    ensures var reply := ids(IdsParams(searchkey, token));
            reply.IdsReply? && reply.status == 200 &&
            Dig(reply.body, ["esearchresult", "idlist"], EmptyList).Ok? && details == DetailsRaised(e) ==>
              SearchSpec(searchkey, ref, token, ids, details, head) ==
                Ok(PubMedRedo(OldRedo(searchkey, OldPubMed, ref)))
  {
  }

  /** A failed id lookup, or a details fetch that raises, does not answer
      200 or does not decode, hands back a `Redo` holding the caller's own
      token dict. */
  lemma SearchRedo(searchkey: string, ref: DictRef, token: seq<(string, Value)>,
                   ids: seq<(string, Value)> -> IdsReply, details: DetailsReply,
                   head: string -> HeadResult)
    requires var reply := ids(IdsParams(searchkey, token));
             reply.IdsReply? &&
             (reply.status != 200 ||
              (Dig(reply.body, ["esearchresult", "idlist"], EmptyList).Ok? && DetailsFailed(details)))
    ensures SearchSpec(searchkey, ref, token, ids, details, head) ==
              Ok(PubMedRedo(OldRedo(searchkey, OldPubMed, ref)))
  {
  }

  /** Once the articles are fetched there is one record per article, in
      order, unless an article raises. */
  lemma SearchRecords(searchkey: string, ref: DictRef, token: seq<(string, Value)>,
                      ids: seq<(string, Value)> -> IdsReply, details: DetailsReply,
                      head: string -> HeadResult, articles: seq<Value>)
    requires Fetched(ids(IdsParams(searchkey, token)), details, List(articles))
    ensures var r := SearchSpec(searchkey, ref, token, ids, details, head);
            && (r.Ok? <==> forall k :: 0 <= k < |articles| ==> ArticleRecord(searchkey, articles[k], head).Ok?)
            && (r.Ok? ==> r.value.PubMedRecords? && |r.value.records| == |articles| &&
                          forall k :: 0 <= k < |articles| ==>
                            r.value.records[k] == ArticleRecord(searchkey, articles[k], head).value)
  {
    var f := ArticleFn(searchkey, head);
    MapAllMeans(articles, f);
    assert forall k :: 0 <= k < |articles| ==> f(articles[k]) == ArticleRecord(searchkey, articles[k], head);
  }

  /** The record of an article holds its extracted fields unchanged and the
      first candidate url that answers. */
  lemma ArticleFields(searchkey: string, entry: Value, head: string -> HeadResult)
    requires ArticleOf(entry).Ok?
    ensures var a := ArticleOf(entry).value;
            var d := ArticleRecord(searchkey, entry, head);
            && d.Ok? && d.value.source == "PubMed" && d.value.searchkey == searchkey
            && d.value.authors == a.authors && d.value.keywords == a.keywords
            && d.value.publishedDate == a.publishedDate && d.value.abstractText == a.abstractText
            && d.value.pdfUrl == FirstHit(a.pmcIds, head)
  {
  }
}

=== FILE: old_results.dfy ===
/** The record and retry types of the older search package
    (search/search/results.py). Its `Success` has no source, citation count,
    pdf url or processing flag, and its `Redo` names its third slot `limit`. */
module OldResults {
  import opened PyValue

  /** The provider clients of the older package. */
  datatype OldProvider = OldSemanticScholar | OldPubMed | OldDynamed

  /** A record of the older package: only its `data` dict is kept. */
  datatype OldSuccess = OldSuccess(data: Value)

  /** `Redo(searchkey, client, limit)`: the callers put their token dict,
      shared by reference, in the `limit` slot. */
  datatype OldRedo = OldRedo(searchkey: string, client: OldProvider, limit: DictRef)

  const OldSuccessKeys: seq<string> :=
    ["searchkey", "metadata", "keywords", "title", "abstract",
     "introduction", "results", "conclusion", "figures"]

  lemma OldSuccessKeysDistinct()
    ensures forall j, k :: 0 <= j < k < |OldSuccessKeys| ==> OldSuccessKeys[j] != OldSuccessKeys[k]
  {
    forall j, k | 0 <= j < k < |OldSuccessKeys| ensures OldSuccessKeys[j] != OldSuccessKeys[k] {
      assert || |OldSuccessKeys[j]| != |OldSuccessKeys[k]|
             || OldSuccessKeys[j][0] != OldSuccessKeys[k][0];
    }
  }

  function OldField(s: OldSuccess, key: string): Option<Value>
  {
    if s.data.Dict? then Lookup(s.data.entries, key) else None
  }

  lemma OldLayoutLookup(e: seq<(string, Value)>, k: nat)
    requires Keys(e) == OldSuccessKeys && k < |OldSuccessKeys|
    ensures Lookup(e, OldSuccessKeys[k]) == Some(e[k].1)
  {
    OldSuccessKeysDistinct();
    assert Keys(e)[k] == e[k].0;
    forall j | 0 <= j < k ensures e[j].0 != e[k].0 {
      assert Keys(e)[j] == e[j].0;
    }
    LookupFirst(e, k);
  }

  /** In a dict with the older record's key order, every key finds the value
      at its own position. */
  lemma OldLayoutFields(e: seq<(string, Value)>)
    requires Keys(e) == OldSuccessKeys
    ensures Lookup(e, "searchkey") == Some(e[0].1)
    ensures Lookup(e, "metadata") == Some(e[1].1)
    ensures Lookup(e, "keywords") == Some(e[2].1)
    ensures Lookup(e, "title") == Some(e[3].1)
    ensures Lookup(e, "abstract") == Some(e[4].1)
    ensures Lookup(e, "introduction") == Some(e[5].1)
    ensures Lookup(e, "results") == Some(e[6].1)
    ensures Lookup(e, "conclusion") == Some(e[7].1)
    ensures Lookup(e, "figures") == Some(e[8].1)
  {
    OldLayoutLookup(e, 0); OldLayoutLookup(e, 1); OldLayoutLookup(e, 2);
    OldLayoutLookup(e, 3); OldLayoutLookup(e, 4); OldLayoutLookup(e, 5);
    OldLayoutLookup(e, 6); OldLayoutLookup(e, 7); OldLayoutLookup(e, 8);
  }

  /** The data dict of the older `Success(...)`, in the order it is built. */
  function OldLayout(searchkey: Value, publishedYear: Value, publishedDate: Value,
                     authors: Value, keywords: Value, title: Value, abstractText: Value,
                     introduction: Value, results: Value, conclusion: Value,
                     figures: Value): seq<(string, Value)>
  {
    [("searchkey", searchkey),
     ("metadata", Dict([("published_year", publishedYear),
                        ("published_date", publishedDate),
                        ("authors", authors)])),
     ("keywords", keywords), ("title", title), ("abstract", abstractText),
     ("introduction", introduction), ("results", results),
     ("conclusion", conclusion), ("figures", figures)]
  }

  /** `Success(...)` of the older package: the data dict of its layout. */
  function NewOldSuccess(searchkey: Value, publishedYear: Value, publishedDate: Value,
                         authors: Value, keywords: Value, title: Value, abstractText: Value,
                         introduction: Value, results: Value, conclusion: Value,
                         figures: Value): (s: OldSuccess)
    ensures s.data.Dict?
  {
    OldSuccess(Dict(OldLayout(searchkey, publishedYear, publishedDate, authors, keywords, title,
                              abstractText, introduction, results, conclusion, figures)))
  }

  /** Pure placement of the eleven arguments, with year, date and authors
      under "metadata"; nothing is transformed. */
  lemma NewOldSuccessFields(searchkey: Value, publishedYear: Value, publishedDate: Value,
                            authors: Value, keywords: Value, title: Value, abstractText: Value,
                            introduction: Value, results: Value, conclusion: Value,
                            figures: Value, s: OldSuccess)
    requires s == NewOldSuccess(searchkey, publishedYear, publishedDate, authors, keywords, title,
                                abstractText, introduction, results, conclusion, figures)
    ensures Keys(s.data.entries) == OldSuccessKeys
    ensures OldField(s, "searchkey") == Some(searchkey)
    ensures OldField(s, "metadata") == Some(Dict([("published_year", publishedYear),
                                                  ("published_date", publishedDate),
                                                  ("authors", authors)]))
    ensures OldField(s, "keywords") == Some(keywords)
    ensures OldField(s, "title") == Some(title)
    ensures OldField(s, "abstract") == Some(abstractText)
    ensures OldField(s, "introduction") == Some(introduction)
    ensures OldField(s, "results") == Some(results)
    ensures OldField(s, "conclusion") == Some(conclusion)
    ensures OldField(s, "figures") == Some(figures)
  {
    var e := OldLayout(searchkey, publishedYear, publishedDate, authors, keywords, title,
                       abstractText, introduction, results, conclusion, figures);
    assert Keys(e) == OldSuccessKeys;
    OldLayoutFields(e);
  }

  /** The older record has none of the keys the application's record adds. */
  lemma OldSuccessLacksNewKeys(s: OldSuccess)
    requires s.data.Dict? && Keys(s.data.entries) == OldSuccessKeys
    ensures OldField(s, "source") == None
    ensures OldField(s, "citations") == None
    ensures OldField(s, "pdf_url") == None
    ensures OldField(s, "ai_processed") == None
  {
    forall k | 0 <= k < |OldSuccessKeys|
      ensures OldSuccessKeys[k] != "source" && OldSuccessKeys[k] != "citations"
      ensures OldSuccessKeys[k] != "pdf_url" && OldSuccessKeys[k] != "ai_processed"
    {
      assert OldSuccessKeys[k][0] != 's' || |OldSuccessKeys[k]| != 6;
      assert OldSuccessKeys[k][0] != 'c' || |OldSuccessKeys[k]| != 9;
      assert OldSuccessKeys[k][0] != 'p';
      assert OldSuccessKeys[k][0] != 'a' || |OldSuccessKeys[k]| != 12;
    }
  }
}

=== FILE: old_semantic_scholar.dfy ===
/** The Semantic Scholar client of the older package
    (search/search/semantic_scholar.py): offset/limit paging read from the
    caller's token dict, a "429" reply that asks for the same search again,
    and, when more results remain, the same token dict advanced in place
    and handed back inside the `Redo`. */
module OldScholarSearch {
  import opened PyValue
  import opened OldResults
  import opened Papers

  /** The keyword arguments of one record; unlike the older `Success` it
      carries a pdf url. */
  datatype ScholarRecord = ScholarRecord(searchkey: string, publishedYear: Value,
                                         publishedDate: Value, authors: seq<Value>,
                                         keywords: seq<Value>, title: Value, abstractText: Value,
                                         introduction: string, results: string,
                                         conclusion: string, figures: seq<Value>, pdfUrl: Value)

  /** What the client returns: its records, a `Redo`, or the records with
      the `Redo` for the next page (the `Partial(result, redo)` of the
      source). */
  datatype ScholarOutcome =
    | ScholarRecords(records: seq<ScholarRecord>)
    | ScholarRedo(redo: OldRedo)
    | ScholarPage(successes: seq<ScholarRecord>, next: OldRedo)

  const Fields: string :=
    "title,abstract,publicationDate,authors,year,influentialCitationCount,openAccessPdf,tldr," +
    "citationCount,publicationTypes,fieldsOfStudy,s2FieldsOfStudy"

  const ParamKeys: seq<string> := ["query", "fields", "year", "offset", "limit"]

  /** The page the token asks for: its `offset` (0 by default) and `limit`
      (100 by default), with the key unquoted and a fixed year range. */
  function Params(searchkey: string, token: seq<(string, Value)>): (p: seq<(string, Value)>)
    ensures Keys(p) == ParamKeys
  {
    [("query", Str(searchkey)), ("fields", Str(Fields)), ("year", Str("2014-2024")),
     ("offset", Lookup(token, "offset").GetOr(Int(0))),
     ("limit", Lookup(token, "limit").GetOr(Int(100)))]
  }

  /** In a dict with the parameters' key order, "offset" and "limit" find
      their own values. */
  lemma ParamKeysLookup(p: seq<(string, Value)>)
    requires Keys(p) == ParamKeys
    ensures Lookup(p, "offset") == Some(p[3].1)
    ensures Lookup(p, "limit") == Some(p[4].1)
  {
    forall k | 0 <= k < 5 ensures Keys(p)[k] == p[k].0 {}
    assert p[0].0[0] != 'o' && p[1].0[0] != 'o' && p[2].0[0] != 'o';
    LookupFirst(p, 3);
    assert p[0].0[0] != 'l' && p[1].0[0] != 'l' && p[2].0[0] != 'l' && p[3].0[0] != 'l';
    LookupFirst(p, 4);
  }

  /** The request asks for the token's offset and limit, 0 and 100 when
      the token lacks them. */
  lemma ParamsPage(searchkey: string, token: seq<(string, Value)>)
    ensures Lookup(Params(searchkey, token), "offset") == Some(Lookup(token, "offset").GetOr(Int(0)))
    ensures Lookup(Params(searchkey, token), "limit") == Some(Lookup(token, "limit").GetOr(Int(100)))
  {
    ParamKeysLookup(Params(searchkey, token));
  }

  function EntryRecord(searchkey: string, data: Value): Result<ScholarRecord>
  {
    var p :- PaperOf(data);
    var url :- PdfUrlOf(data);
    Ok(ScholarRecord(searchkey, p.publishedYear, p.publishedDate, p.authors, [], p.title,
                     p.abstractText, "NA", "NA", "NA", [], url))
  }

  function EntryFn(searchkey: string): Value -> Result<ScholarRecord>
  {
    data => EntryRecord(searchkey, data)
  }

  /** The call as written: the older `Success` of search/search/results.py
      has no `pdf_url` parameter, so once its arguments are read the call
      raises TypeError. */
  function WrittenEntryRecord(searchkey: string, data: Value): (r: Result<ScholarRecord>)
    ensures r.Raise?
  {
    var p :- PaperOf(data);
    var url :- PdfUrlOf(data);
    Raise(TypeError)
  }

  function WrittenEntryFn(searchkey: string): Value -> Result<ScholarRecord>
  {
    data => WrittenEntryRecord(searchkey, data)
  }

  /** As written, a reply whose first entry is well formed raises TypeError
      instead of returning records, while the intended mapping gives that
      entry its record. */
  lemma WrittenEntryRaises(searchkey: string, e: seq<(string, Value)>, authors: seq<Value>, rest: seq<Value>)
    requires Lookup(e, "authors").GetOr(EmptyList) == List(authors)
    requires forall k :: 0 <= k < |authors| ==> authors[k].Dict?
    requires Lookup(e, "openAccessPdf").GetOr(Null) == Null
    ensures MapAll([Dict(e)] + rest, WrittenEntryFn(searchkey)) == Raise(TypeError)
    ensures EntryRecord(searchkey, Dict(e)).Ok?
  {
    PaperFields(e, authors);
    PdfUrlCases(e);
    assert ([Dict(e)] + rest)[0] == Dict(e);
  }

  /** `response.get('code', 0) == '429'`: only the string "429" counts. */
  function RateLimited(response: Value): (r: Result<bool>)
    ensures r.Ok? <==> response.Dict?
  {
    var code :- Get(response, "code", Int(0));
    Ok(code == Str("429"))
  }

  function RecordsOf(searchkey: string, response: Value): Result<seq<ScholarRecord>>
  {
    DataRecords(response, EntryFn(searchkey))
  }

  /** `total > offset + limit` on integers; other operand types are taken
      to raise `TypeError`. */
  function Exceeds(total: Value, offset: Value, limit: Value): Result<bool>
  {
    if total.Int? && offset.Int? && limit.Int? then Ok(total.i > offset.i + limit.i)
    else Raise(TypeError)
  }

  /** `response.get('total', 0) > token.get('offset', 0) + token.get('limit', 100)`. */
  function More(response: Value, token: seq<(string, Value)>): Result<bool>
  {
    var total :- Get(response, "total", Int(0));
    Exceeds(total, Lookup(token, "offset").GetOr(Int(0)), Lookup(token, "limit").GetOr(Int(100)))
  }

  /** `token['offset'] = next` then `token['limit'] = token.get('limit', 100)`. */
  function Advance(token: seq<(string, Value)>, next: Value): seq<(string, Value)>
  {
    var moved := SetKey(token, "offset", next);
    SetKey(moved, "limit", Lookup(moved, "limit").GetOr(Int(100)))
  }

  /** The call reaches the token update: not rate limited, every entry
      read, and more results than the page covers. */
  predicate Continues(searchkey: string, token: seq<(string, Value)>, response: Value)
  {
    && RateLimited(response) == Ok(false)
    && RecordsOf(searchkey, response).Ok?
    && More(response, token) == Ok(true)
  }

  /** The token dict after the call: advanced to the reply's `next` (0 by
      default) when the call continues, untouched otherwise. */
  function TokenAfter(searchkey: string, token: seq<(string, Value)>, response: Value)
    : seq<(string, Value)>
  {
    if Continues(searchkey, token, response)
    then Advance(token, Lookup(response.entries, "next").GetOr(Int(0)))
    else token
  }

  /** The outcome, with `ref` the caller's token dict whose contents before
      the call are `token`. */
  function OutcomeOf(searchkey: string, ref: DictRef, token: seq<(string, Value)>, response: Value)
    : Result<ScholarOutcome>
  {
    var limited :- RateLimited(response);
    if limited then Ok(ScholarRedo(OldRedo(searchkey, OldSemanticScholar, ref)))
    else
      var records :- RecordsOf(searchkey, response);
      var more :- More(response, token);
      if more then Ok(ScholarPage(records, OldRedo(searchkey, OldSemanticScholar, ref)))
      else Ok(ScholarRecords(records))
  }

  /** `search(session, searchkey, token)` with `key` the client's API key
      and `get` the reply the request gets. */
  method Search(key: Value, searchkey: string, token: DictRef, get: Request -> Value)
    returns (r: Result<ScholarOutcome>)
    modifies token
    ensures var response := get(Request(Params(searchkey, old(token.entries)), Headers(key)));
            && r == OutcomeOf(searchkey, token, old(token.entries), response)
            && token.entries == TokenAfter(searchkey, old(token.entries), response)
  {
    var response := get(Request(Params(searchkey, token.entries), Headers(key)));
    var limited := RateLimited(response);
    if limited.Raise? {
      return Raise(limited.exn);
    }
    if limited.value {
      return Ok(ScholarRedo(OldRedo(searchkey, OldSemanticScholar, token)));
    }
    var result := ReadRecords(response, EntryFn(searchkey));
    if result.Raise? {
      return Raise(result.exn);
    }
    var more := More(response, token.entries);
    if more.Raise? {
      return Raise(more.exn);
    }
    if more.value {
      token.Set("offset", Lookup(response.entries, "next").GetOr(Int(0)));
      token.Set("limit", token.Get("limit", Int(100)));
      return Ok(ScholarPage(result.value, OldRedo(searchkey, OldSemanticScholar, token)));
    }
    return Ok(ScholarRecords(result.value));
  }

  /** The update moves the offset to `next`, keeps the limit (100 when
      there was none), and leaves every other key of the token as it was. */
  lemma AdvanceMeaning(token: seq<(string, Value)>, next: Value, other: string)
    ensures Lookup(Advance(token, next), "offset") == Some(next)
    ensures Lookup(Advance(token, next), "limit") == Some(Lookup(token, "limit").GetOr(Int(100)))
    ensures other != "offset" && other != "limit" ==>
              Lookup(Advance(token, next), other) == Lookup(token, other)
  {
    var moved := SetKey(token, "offset", next);
    var limit := Lookup(moved, "limit").GetOr(Int(100));
    assert "limit"[0] != "offset"[0];
    SetKeyLookup(token, "offset", next, "limit");
    SetKeyLookup(token, "offset", next, other);
    SetKeyLookup(moved, "limit", limit, "offset");
    SetKeyLookup(moved, "limit", limit, other);
  }

  /** A token that already has both keys keeps its keys and their order. */
  lemma AdvanceKeys(token: seq<(string, Value)>, next: Value)
    requires "offset" in Keys(token) && "limit" in Keys(token)
    ensures Keys(Advance(token, next)) == Keys(token)
  {
    var moved := SetKey(token, "offset", next);
    SetKeyKeys(token, "offset", next);
    SetKeyKeys(moved, "limit", Lookup(moved, "limit").GetOr(Int(100)));
  }

  /** Because the dict is shared, the caller's next request with the same
      token starts where this reply said the next page starts, with the
      same limit. */
  lemma NextRequestContinues(searchkey: string, token: seq<(string, Value)>, response: Value)
    requires Continues(searchkey, token, response)
    ensures var after := Params(searchkey, TokenAfter(searchkey, token, response));
            && Lookup(after, "offset") == Some(Lookup(response.entries, "next").GetOr(Int(0)))
            && Lookup(after, "limit") == Some(Lookup(token, "limit").GetOr(Int(100)))
  {
    var next := Lookup(response.entries, "next").GetOr(Int(0));
    AdvanceMeaning(token, next, "");
    ParamsPage(searchkey, Advance(token, next));
  }

  /** The decision for a dict reply whose `data` entries all read: a "429"
      string code asks again with the same token dict; otherwise the
      records come back as a page with a `Redo` holding the same token dict
      exactly when `total > offset + limit`, and the token is advanced only
      then. */
  lemma Decision(searchkey: string, ref: DictRef, token: seq<(string, Value)>,
                 e: seq<(string, Value)>, total: int, offset: int, limit: int)
    requires RecordsOf(searchkey, Dict(e)).Ok?
    requires Lookup(e, "total").GetOr(Int(0)) == Int(total)
    requires Lookup(token, "offset").GetOr(Int(0)) == Int(offset)
    requires Lookup(token, "limit").GetOr(Int(100)) == Int(limit)
    ensures var r := OutcomeOf(searchkey, ref, token, Dict(e));
            && (Lookup(e, "code") == Some(Str("429")) ==>
                  r == Ok(ScholarRedo(OldRedo(searchkey, OldSemanticScholar, ref))) &&
                  TokenAfter(searchkey, token, Dict(e)) == token)
            && (Lookup(e, "code").GetOr(Int(0)) != Str("429") ==>
                  r.Ok? &&
                  (r.value.ScholarPage? <==> total > offset + limit) &&
                  (r.value.ScholarPage? ==>
                     r.value.successes == RecordsOf(searchkey, Dict(e)).value &&
                     r.value.next == OldRedo(searchkey, OldSemanticScholar, ref)) &&
                  (r.value.ScholarRecords? ==> r.value.records == RecordsOf(searchkey, Dict(e)).value) &&
                  (TokenAfter(searchkey, token, Dict(e)) != token ==> total > offset + limit))
  {
  }

  /** A numeric 429 code is not recognised as rate limiting. */
  lemma NumericCodeIgnored(e: seq<(string, Value)>)
    requires Lookup(e, "code") == Some(Int(429))
    ensures RateLimited(Dict(e)) == Ok(false)
  {
  }

  /** An entry with dict-shaped authors and no open-access pdf yields its
      record with an empty pdf url and the shared defaults. */
  lemma EntryDefaults(searchkey: string, e: seq<(string, Value)>, authors: seq<Value>)
    requires Lookup(e, "authors").GetOr(EmptyList) == List(authors)
    requires forall k :: 0 <= k < |authors| ==> authors[k].Dict?
    requires Lookup(e, "openAccessPdf").GetOr(Null) == Null
    ensures EntryRecord(searchkey, Dict(e)).Ok?
    ensures var d := EntryRecord(searchkey, Dict(e)).value;
            && d.pdfUrl == Str("")
            && d.publishedYear == Lookup(e, "publicationDate").GetOr(Str(""))
            && d.publishedDate == Lookup(e, "year").GetOr(Str(""))
            && d.title == Lookup(e, "title").GetOr(Str(""))
            && d.abstractText == Lookup(e, "abstract").GetOr(Str("NA"))
            && d.keywords == [] && d.figures == []
  {
    PaperFields(e, authors);
    PdfUrlCases(e);
  }
}

=== FILE: orchestrator.dfy ===
/** The fan-out and retry loop of the application (app/app.py): one round of
    provider outcomes is sorted into the searches to run again, the record
    payloads and a progress flag; rounds repeat while searches remain and the
    retry budget lasts, and the budget is spent only by rounds in which every
    outcome was a `Redo`. */
module Orchestrator {
  import opened Text
  import opened PyValue
  import opened Results

  /* ---------- sorting one round ---------- */

  /** The `Redo` outcomes of a round, in order. */
  function RedosOf(results: seq<Outcome>): seq<Redo>
  {
    if results == [] then []
    else if results[0].OfRedo? then [results[0].redo] + RedosOf(results[1..])
    else RedosOf(results[1..])
  }

  /** The record lists of the plain outcomes (neither `Redo` nor `Partial`), in order. */
  function PlainsOf(results: seq<Outcome>): seq<seq<Success>>
  {
    if results == [] then []
    else if results[0].OfRecords? then [results[0].records] + PlainsOf(results[1..])
    else PlainsOf(results[1..])
  }

  /** The `Partial` outcomes of a round, in order. */
  function PartialsOf(results: seq<Outcome>): seq<Partial>
  {
    if results == [] then []
    else if results[0].OfPartial? then [results[0].partial] + PartialsOf(results[1..])
    else PartialsOf(results[1..])
  }

  /** The continuation of every `Partial`, in order. */
  function ContinuationsOf(partials: seq<Partial>): (r: seq<Redo>)
    ensures |r| == |partials|
  {
    if partials == [] then [] else [partials[0].redo] + ContinuationsOf(partials[1..])
  }

  /** The record list of every `Partial`, in order. */
  function PagesOf(partials: seq<Partial>): (r: seq<seq<Success>>)
    ensures |r| == |partials|
  {
    if partials == [] then [] else [partials[0].successes] + PagesOf(partials[1..])
  }

  /** `[d.data for d in s]`. */
  function DataOf(records: seq<Success>): (r: seq<Value>)
    ensures |r| == |records|
  {
    if records == [] then [] else [records[0].data] + DataOf(records[1..])
  }

  /** The payloads of a list of record lists, list after list. */
  function Payloads(lists: seq<seq<Success>>): seq<Value>
  {
    if lists == [] then [] else DataOf(lists[0]) + Payloads(lists[1..])
  }

  /** The classification of one round, as `process_results` returns it. */
  datatype Classified = Classified(redo: seq<Redo>, success: seq<Value>, progress: bool)

  /** What a round contributes: first every `Redo` and then every `Partial`
      continuation to the next round; first the payloads of the plain lists
      and then those of the `Partial` pages to the successes; and progress
      when at least one list or `Partial` came back (`ProgressIff`: when at
      least one outcome was not a `Redo`). */
  function Classify(results: seq<Outcome>): Classified
  {
    Classified(RedosOf(results) + ContinuationsOf(PartialsOf(results)),
               Payloads(PlainsOf(results)) + Payloads(PagesOf(PartialsOf(results))),
               |PlainsOf(results)| + |PartialsOf(results)| > 0)
  }

  lemma {:induction false} RedosOfAppend(a: seq<Outcome>, b: seq<Outcome>)
    ensures RedosOf(a + b) == RedosOf(a) + RedosOf(b)
  {
    if a == [] {
      assert a + b == b;
    } else {
      assert (a + b)[1..] == a[1..] + b;
      RedosOfAppend(a[1..], b);
    }
  }

  lemma {:induction false} PlainsOfAppend(a: seq<Outcome>, b: seq<Outcome>)
    ensures PlainsOf(a + b) == PlainsOf(a) + PlainsOf(b)
  {
    if a == [] {
      assert a + b == b;
    } else {
      assert (a + b)[1..] == a[1..] + b;
      PlainsOfAppend(a[1..], b);
    }
  }

  lemma {:induction false} PartialsOfAppend(a: seq<Outcome>, b: seq<Outcome>)
    ensures PartialsOf(a + b) == PartialsOf(a) + PartialsOf(b)
  {
    if a == [] {
      assert a + b == b;
    } else {
      assert (a + b)[1..] == a[1..] + b;
      PartialsOfAppend(a[1..], b);
    }
  }

  lemma {:induction false} PayloadsAppend(a: seq<seq<Success>>, b: seq<seq<Success>>)
    ensures Payloads(a + b) == Payloads(a) + Payloads(b)
  {
    if a == [] {
      assert a + b == b;
    } else {
      assert (a + b)[1..] == a[1..] + b;
      PayloadsAppend(a[1..], b);
    }
  }

  /** Every outcome lands in exactly one of the three groups. */
  lemma {:induction false} Partition(results: seq<Outcome>)
    ensures |RedosOf(results)| + |PlainsOf(results)| + |PartialsOf(results)| == |results|
  {
    if results != [] {
      Partition(results[1..]);
    }
  }

  /** No plain list and no `Partial` means every outcome was a `Redo`. */
  lemma {:induction false} NoProgressMeansAllRedo(results: seq<Outcome>)
    ensures |PlainsOf(results)| + |PartialsOf(results)| == 0
        <==> forall k :: 0 <= k < |results| ==> results[k].OfRedo?
  {
    if results != [] {
      NoProgressMeansAllRedo(results[1..]);
      if results[0].OfRedo? {
        forall k | 0 <= k < |results| && results[k].OfRedo? == false ensures k >= 1 {
        }
      }
      assert forall k :: 1 <= k < |results| ==> results[k] == results[1..][k - 1];
    }
  }

  /** A round made progress exactly when some outcome was not a `Redo`. */
  lemma ProgressIff(results: seq<Outcome>)
    ensures |PlainsOf(results)| + |PartialsOf(results)| > 0
        <==> exists k :: 0 <= k < |results| && !results[k].OfRedo?
  {
    NoProgressMeansAllRedo(results);
  }

  /** A provider that answers with an empty list has still answered: the
      round counts as progress even though it brought no record. */
  lemma EmptyListCountsAsProgress(results: seq<Outcome>)
    requires OfRecords([]) in results
    ensures Classify(results).progress
  {
    ProgressIff(results);
    var k :| 0 <= k < |results| && results[k] == OfRecords([]);
    assert !results[k].OfRedo?;
  }

  /** A `Redo` is kept exactly when it was an outcome of the round. */
  lemma {:induction false} RedosOfMembers(results: seq<Outcome>, r: Redo)
    ensures r in RedosOf(results) <==> OfRedo(r) in results
  {
    if results != [] {
      RedosOfMembers(results[1..], r);
      assert results == [results[0]] + results[1..];
    }
  }

  lemma {:induction false} ContinuationsSnoc(partials: seq<Partial>, i: nat)
    requires i < |partials|
    ensures ContinuationsOf(partials[..i + 1]) == ContinuationsOf(partials[..i]) + [partials[i].redo]
    ensures PagesOf(partials[..i + 1]) == PagesOf(partials[..i]) + [partials[i].successes]
  {
    if i > 0 {
      ContinuationsSnoc(partials[1..], i - 1);
      assert partials[1..][..i] == partials[..i + 1][1..];
      assert partials[1..][..i - 1] == partials[..i][1..];
    }
  }

  lemma PayloadsSnoc(lists: seq<seq<Success>>, i: nat)
    requires i < |lists|
    ensures Payloads(lists[..i + 1]) == Payloads(lists[..i]) + DataOf(lists[i])
  {
    assert lists[..i + 1] == lists[..i] + [lists[i]];
    PayloadsAppend(lists[..i], [lists[i]]);
  }

  /** `process_results`: sorts one round of outcomes. */
  method ProcessResults(results: seq<Outcome>) returns (redo: seq<Redo>, success: seq<Value>, anySucceeded: bool)
    ensures redo == RedosOf(results) + ContinuationsOf(PartialsOf(results))
    ensures success == Payloads(PlainsOf(results)) + Payloads(PagesOf(PartialsOf(results)))
    ensures anySucceeded <==> exists k :: 0 <= k < |results| && !results[k].OfRedo?
    ensures Classified(redo, success, anySucceeded) == Classify(results)
  {
    redo := RedosOf(results);
    var successes := PlainsOf(results);
    var partials := PartialsOf(results);
    for i := 0 to |partials|
      invariant redo == RedosOf(results) + ContinuationsOf(partials[..i])
      invariant successes == PlainsOf(results) + PagesOf(partials[..i])
    {
      ContinuationsSnoc(partials, i);
      successes := successes + [partials[i].successes];
      redo := redo + [partials[i].redo];
    }
    assert partials[..|partials|] == partials;
    success := [];
    for i := 0 to |successes|
      invariant success == Payloads(successes[..i])
    {
      PayloadsSnoc(successes, i);
      success := success + DataOf(successes[i]);
    }
    assert successes[..|successes|] == successes;
    PayloadsAppend(PlainsOf(results), PagesOf(partials));
    anySucceeded := |successes| > 0;
    ProgressIff(results);
  }

  /** How many records a round returned: `result_len`. */
  function Size(results: seq<Outcome>): nat
  {
    if results == [] then 0
    else (if results[0].OfRecords? then |results[0].records| else 1) + Size(results[1..])
  }

  lemma {:induction false} SizeSplit(results: seq<Outcome>)
    ensures Size(results) == TotalLength(PlainsOf(results)) + |RedosOf(results)| + |PartialsOf(results)|
  {
    if results != [] {
      SizeSplit(results[1..]);
      var plains := PlainsOf(results);
      if results[0].OfRecords? {
        assert plains == [results[0].records] + PlainsOf(results[1..]);
        assert plains[1..] == PlainsOf(results[1..]);
      } else {
        assert plains == PlainsOf(results[1..]);
      }
    }
  }

  lemma {:induction false} SizeAppend(a: seq<Outcome>, b: seq<Outcome>)
    ensures Size(a + b) == Size(a) + Size(b)
  {
    if a == [] {
      assert a + b == b;
    } else {
      assert (a + b)[1..] == a[1..] + b;
      SizeAppend(a[1..], b);
    }
  }

  /** `result_len`: the lengths of the plain lists plus one for every other outcome. */
  method ResultLen(results: seq<Outcome>) returns (n: nat)
    ensures n == TotalLength(PlainsOf(results)) + |RedosOf(results)| + |PartialsOf(results)|
  {
    n := 0;
    for i := 0 to |results|
      invariant n == Size(results[..i])
    {
      assert results[..i + 1] == results[..i] + [results[i]];
      SizeAppend(results[..i], [results[i]]);
      if results[i].OfRecords? {
        n := n + |results[i].records|;
      } else {
        n := n + 1;
      }
    }
    assert results[..|results|] == results;
    SizeSplit(results);
  }

  /* ---------- the rounds ---------- */

  /** A provider call as the loop sees it: client, keyword, the token (None
      when the call leaves it at the provider's default) and the round number
      (0 for the initial round) give the outcome, or the exception the call
      raises (neither `query` nor `query_redo` catches anything). */
  type Oracle = (Provider, string, Option<Value>, nat) -> Result<Outcome>

  /** `asyncio.gather` without `return_exceptions`: every outcome, in call
      order, when no call raised; otherwise the exception of a call that
      raised, which leaves `search` (here the first in call order). */
  function Gather(calls: seq<Result<Outcome>>): (r: Result<seq<Outcome>>)
    ensures r.Ok? ==> |r.value| == |calls|
  {
    if calls == [] then Ok([])
    else
      match calls[0]
      case Raise(e) => Raise(e)
      case Ok(o) =>
        match Gather(calls[1..])
        case Raise(e) => Raise(e)
        case Ok(os) => Ok([o] + os)
  }

  /** The gather succeeds exactly when every call does, and then holds each
      call's outcome at its position; otherwise it carries the exception of
      the first call that raised. */
  lemma {:induction false} GatherMeans(calls: seq<Result<Outcome>>)
    ensures Gather(calls).Ok? <==> forall k :: 0 <= k < |calls| ==> calls[k].Ok?
    ensures Gather(calls).Ok? ==> forall k :: 0 <= k < |calls| ==> Gather(calls).value[k] == calls[k].value
    ensures Gather(calls).Raise? ==>
              exists k :: 0 <= k < |calls| && calls[k] == Raise(Gather(calls).exn) &&
                          forall j :: 0 <= j < k ==> calls[j].Ok?
  {
    if calls != [] {
      GatherMeans(calls[1..]);
      assert forall j :: 1 <= j < |calls| ==> calls[j] == calls[1..][j - 1];
      if calls[0].Ok? && Gather(calls[1..]).Raise? {
        var k :| 0 <= k < |calls[1..]| && calls[1..][k] == Raise(Gather(calls[1..]).exn) &&
                 forall j :: 0 <= j < k ==> calls[1..][j].Ok?;
        assert calls[k + 1] == Raise(Gather(calls).exn);
        assert forall j :: 0 <= j < k + 1 ==> calls[j].Ok?;
      }
    }
  }

  /** One client paired with every keyword, in keyword order. */
  function Queries(client: Provider, keywords: seq<string>): (r: seq<(Provider, string)>)
    ensures |r| == |keywords|
  {
    if keywords == [] then [] else [(client, keywords[0])] + Queries(client, keywords[1..])
  }

  lemma {:induction false} QueriesAt(client: Provider, keywords: seq<string>)
    ensures forall i :: 0 <= i < |keywords| ==> Queries(client, keywords)[i] == (client, keywords[i])
  {
    if keywords != [] {
      QueriesAt(client, keywords[1..]);
    }
  }

  /** The initial round's calls: every keyword with the Semantic Scholar
      client, then every keyword with the PubMed client. */
  function InitialQueries(keywords: seq<string>): seq<(Provider, string)>
  {
    Queries(SemanticScholar, keywords) + Queries(PubMed, keywords)
  }

  /** One query per (client, keyword) pair, Semantic Scholar's first: two
      clients, so twice as many queries as keywords. */
  lemma InitialQueriesOrder(keywords: seq<string>)
    ensures |InitialQueries(keywords)| == 2 * |keywords|
    ensures forall i :: 0 <= i < |keywords| ==>
      InitialQueries(keywords)[i] == (SemanticScholar, keywords[i]) &&
      InitialQueries(keywords)[|keywords| + i] == (PubMed, keywords[i])
  {
    QueriesAt(SemanticScholar, keywords);
    QueriesAt(PubMed, keywords);
  }

  /** The provider calls for a list of queries, token left at its default. */
  function Calls(queries: seq<(Provider, string)>, oracle: Oracle): (r: seq<Result<Outcome>>)
    ensures |r| == |queries|
  {
    if queries == [] then [] else [oracle(queries[0].0, queries[0].1, None, 0)] + Calls(queries[1..], oracle)
  }

  function InitialRound(keywords: seq<string>, oracle: Oracle): (r: seq<Result<Outcome>>)
    ensures |r| == 2 * |keywords|
  {
    Calls(InitialQueries(keywords), oracle)
  }

  /** A retry round: every pending search is run again with its own token. */
  function RetryRound(pending: seq<Redo>, oracle: Oracle, round: nat): (r: seq<Result<Outcome>>)
    ensures |r| == |pending|
  {
    if pending == [] then []
    else [oracle(pending[0].client, pending[0].searchkey, Some(pending[0].token), round)]
         + RetryRound(pending[1..], oracle, round)
  }

  /** The loop variables of `search`. */
  datatype State = State(redo: seq<Redo>, success: seq<Value>, retries: int)

  /** The loop condition `redo and retries > 0`. */
  predicate Continues(s: State)
  {
    |s.redo| > 0 && s.retries > 0
  }

  /** The initial round, gathered and sorted. */
  function FirstRound(keywords: seq<string>, oracle: Oracle): Result<Classified>
  {
    var results :- Gather(InitialRound(keywords, oracle));
    Ok(Classify(results))
  }

  /** The state after the initial round; its progress flag is discarded. */
  function Start(keywords: seq<string>, retries: int, oracle: Oracle): Result<State>
  {
    var c :- FirstRound(keywords, oracle);
    Ok(State(c.redo, c.success, retries))
  }

  /** The retry round run from `s`, gathered and sorted. */
  function Round(s: State, oracle: Oracle, round: nat): Result<Classified>
  {
    var results :- Gather(RetryRound(s.redo, oracle, round));
    Ok(Classify(results))
  }

  /** The state after a retry round that sorted into `c`. */
  function Next(s: State, c: Classified): State
  {
    State(c.redo, s.success + c.success, if c.progress then s.retries else s.retries - 1)
  }

  /** The state the loop stopped in, the progress flag of every completed
      retry round, and the exception of the round that raised, if one did. */
  datatype Trace = Trace(final: State, progress: seq<bool>, error: Option<Exn>)

  /** The retry loop from state `s`, the next round being `round`, with at
      most `fuel` more rounds. */
  function Run(s: State, oracle: Oracle, round: nat, fuel: nat): Trace
    decreases fuel
  {
    if fuel == 0 || !Continues(s) then Trace(s, [], None)
    else
      match Round(s, oracle, round)
      case Raise(e) => Trace(s, [], Some(e))
      case Ok(c) =>
        var t := Run(Next(s, c), oracle, round + 1, fuel - 1);
        Trace(t.final, [c.progress] + t.progress, t.error)
  }

  /** What `search` returns: the payloads of the whole run, or the exception
      that left it, from the initial round or from a retry round. */
  function SearchResult(keywords: seq<string>, retries: int, oracle: Oracle, fuel: nat): Result<seq<Value>>
  {
    var s :- Start(keywords, retries, oracle);
    var t := Run(s, oracle, 1, fuel);
    if t.error.Some? then Raise(t.error.value) else Ok(t.final.success)
  }

  /** The number of rounds without progress. */
  function Failures(progress: seq<bool>): nat
  {
    if progress == [] then 0 else (if progress[0] then 0 else 1) + Failures(progress[1..])
  }

  /** One pass of the `while` loop of `search`: the pending searches are run
      again and, unless one of them raised, their outcomes sorted, the
      records appended and one unit of budget spent when nothing came back. */
  method RetryOnce(redo: seq<Redo>, success: seq<Value>, left: int, oracle: Oracle, round: nat)
    returns (raised: Option<Exn>, redo': seq<Redo>, success': seq<Value>, left': int)
    ensures var r := Round(State(redo, success, left), oracle, round);
            && (r.Raise? <==> raised.Some?)
            && (r.Raise? ==> raised == Some(r.exn))
            && (r.Ok? ==> State(redo', success', left') == Next(State(redo, success, left), r.value))
    ensures raised.None? ==> success <= success' && (left' == left || left' == left - 1)
  {
    var results := Gather(RetryRound(redo, oracle, round));
    if results.Raise? {
      return Some(results.exn), redo, success, left;
    }
    var newSuccess, anySucceeded;
    redo', newSuccess, anySucceeded := ProcessResults(results.value);
    raised := None;
    success' := success + newSuccess;
    left' := left;
    if !anySucceeded {
      left' := left - 1;
    }
  }

  /** The initial round of `search`: every (client, keyword) pair is queried
      once and, unless a call raised, the outcomes sorted; the progress flag
      is dropped. */
  method GatherFirst(keywords: seq<string>, oracle: Oracle) returns (r: Result<(seq<Redo>, seq<Value>)>)
    ensures FirstRound(keywords, oracle).Raise? ==> r == Raise(FirstRound(keywords, oracle).exn)
    ensures FirstRound(keywords, oracle).Ok? ==>
              r == Ok((FirstRound(keywords, oracle).value.redo, FirstRound(keywords, oracle).value.success))
  {
    var results := Gather(InitialRound(keywords, oracle));
    if results.Raise? {
      return Raise(results.exn);
    }
    var redo, success, progress := ProcessResults(results.value);
    return Ok((redo, success));
  }

  /** `search`, lines 65-81, with the provider calls given by `oracle` and at
      most `fuel` retry rounds. */
  method Search(keywords: seq<string>, retries: int, oracle: Oracle, fuel: nat)
    returns (result: Result<seq<Value>>, rounds: nat)
    ensures result == SearchResult(keywords, retries, oracle, fuel)
    ensures Start(keywords, retries, oracle).Ok? ==>
              rounds == |Run(Start(keywords, retries, oracle).value, oracle, 1, fuel).progress|
    ensures rounds <= fuel
  {
    rounds := 0;
    var first := GatherFirst(keywords, oracle);
    if first.Raise? {
      return Raise(first.exn), 0;
    }
    ghost var start := Start(keywords, retries, oracle).value;
    ghost var target := Run(start, oracle, 1, fuel);
    var redo, success := first.value.0, first.value.1;
    var left := retries;
    assert State(redo, success, left) == start;
    ghost var remaining: nat := fuel;
    while |redo| > 0 && left > 0 && rounds < fuel
      invariant rounds <= fuel && remaining == fuel - rounds && rounds <= |target.progress|
      invariant Run(State(redo, success, left), oracle, rounds + 1, remaining)
                == Trace(target.final, target.progress[rounds..], target.error)
      decreases fuel - rounds
    {
      var s := State(redo, success, left);
      var raised;
      raised, redo, success, left := RetryOnce(redo, success, left, oracle, rounds + 1);
      if raised.Some? {
        assert target.error == raised;
        return Raise(raised.value), rounds;
      }
      RunUnfold(s, oracle, rounds + 1, remaining, target, rounds);
      remaining := remaining - 1;
      rounds := rounds + 1;
    }
    result := Ok(success);
  }

  /** One round of the loop, taken out of `Run`: the rest of the run from
      the next state is the rest of the run from this one, one round shorter. */
  lemma RunUnfold(s: State, oracle: Oracle, round: nat, fuel: nat, target: Trace, done: nat)
    requires fuel > 0 && Continues(s) && Round(s, oracle, round).Ok? && done <= |target.progress|
    requires Run(s, oracle, round, fuel) == Trace(target.final, target.progress[done..], target.error)
    ensures done + 1 <= |target.progress|
    ensures Run(Next(s, Round(s, oracle, round).value), oracle, round + 1, fuel - 1)
            == Trace(target.final, target.progress[done + 1..], target.error)
  {
    assert target.progress[done..][1..] == target.progress[done + 1..];
  }

  /* ---------- what the loop guarantees ---------- */

  /** The budget only pays for completed rounds without progress, and never
      goes below zero when it starts at zero or above. */
  lemma {:induction false} RunBudget(s: State, oracle: Oracle, round: nat, fuel: nat)
    ensures s.retries - Run(s, oracle, round, fuel).final.retries == Failures(Run(s, oracle, round, fuel).progress)
    ensures s.retries >= 0 ==> Run(s, oracle, round, fuel).final.retries >= 0
    decreases fuel
  {
    if fuel > 0 && Continues(s) && Round(s, oracle, round).Ok? {
      RunBudget(Next(s, Round(s, oracle, round).value), oracle, round + 1, fuel - 1);
    }
  }

  /** The loop stops because the work or the budget ran out, because a call
      raised, or because the fuel did; a call can only raise in a round the
      loop condition let run. */
  lemma {:induction false} RunStops(s: State, oracle: Oracle, round: nat, fuel: nat)
    ensures |Run(s, oracle, round, fuel).progress| <= fuel
    ensures |Run(s, oracle, round, fuel).progress| < fuel ==>
              !Continues(Run(s, oracle, round, fuel).final) || Run(s, oracle, round, fuel).error.Some?
    ensures Run(s, oracle, round, fuel).error.Some? ==> Continues(Run(s, oracle, round, fuel).final)
    decreases fuel
  {
    if fuel > 0 && Continues(s) && Round(s, oracle, round).Ok? {
      RunStops(Next(s, Round(s, oracle, round).value), oracle, round + 1, fuel - 1);
    }
  }

  /** Records only accumulate: the records held before the loop stay in
      place at the front of the result. */
  lemma {:induction false} RunAccumulates(s: State, oracle: Oracle, round: nat, fuel: nat)
    ensures s.success <= Run(s, oracle, round, fuel).final.success
    decreases fuel
  {
    if fuel > 0 && Continues(s) && Round(s, oracle, round).Ok? {
      RunAccumulates(Next(s, Round(s, oracle, round).value), oracle, round + 1, fuel - 1);
    }
  }

  /** Every call of a retry round is the oracle's answer for one pending search. */
  lemma {:induction false} RetryRoundCalls(pending: seq<Redo>, oracle: Oracle, round: nat)
    ensures forall i :: 0 <= i < |pending| ==>
      RetryRound(pending, oracle, round)[i]
        == oracle(pending[i].client, pending[i].searchkey, Some(pending[i].token), round)
  {
    if pending != [] {
      RetryRoundCalls(pending[1..], oracle, round);
    }
  }

  lemma {:induction false} CallsAt(queries: seq<(Provider, string)>, oracle: Oracle)
    ensures forall i :: 0 <= i < |queries| ==> Calls(queries, oracle)[i] == oracle(queries[i].0, queries[i].1, None, 0)
  {
    if queries != [] {
      CallsAt(queries[1..], oracle);
    }
  }

  /* ---------- exceptions ---------- */

  ghost predicate NeverRaises(oracle: Oracle)
  {
    forall p, k, t, r :: oracle(p, k, t, r).Ok?
  }

  /** A provider call of the initial round that raises ends the search with
      the exception of the first such call, in the order the calls are made. */
  lemma InitialRaise(keywords: seq<string>, retries: int, oracle: Oracle, fuel: nat, i: nat)
    requires i < |InitialRound(keywords, oracle)| && InitialRound(keywords, oracle)[i].Raise?
    ensures SearchResult(keywords, retries, oracle, fuel).Raise?
    ensures exists k :: 0 <= k <= i && InitialRound(keywords, oracle)[k] == Raise(SearchResult(keywords, retries, oracle, fuel).exn) &&
                        forall j :: 0 <= j < k ==> InitialRound(keywords, oracle)[j].Ok?
  {
    GatherMeans(InitialRound(keywords, oracle));
  }

  /** A call that raises in a retry round the loop runs ends the run with the
      exception of the first raising call of that round; the state is the
      one the round started from. */
  lemma RetryRaise(s: State, oracle: Oracle, round: nat, fuel: nat, i: nat)
    requires fuel > 0 && Continues(s)
    requires i < |s.redo| && RetryRound(s.redo, oracle, round)[i].Raise?
    ensures Run(s, oracle, round, fuel).error.Some?
    ensures Run(s, oracle, round, fuel).final == s && Run(s, oracle, round, fuel).progress == []
    ensures exists k :: 0 <= k <= i && RetryRound(s.redo, oracle, round)[k] == Raise(Run(s, oracle, round, fuel).error.value) &&
                        forall j :: 0 <= j < k ==> RetryRound(s.redo, oracle, round)[j].Ok?
  {
    GatherMeans(RetryRound(s.redo, oracle, round));
  }

  /** With providers that never raise, every round gathers and the run ends
      without an exception. */
  lemma {:induction false} RunNeverRaises(s: State, oracle: Oracle, round: nat, fuel: nat)
    requires NeverRaises(oracle)
    ensures Run(s, oracle, round, fuel).error.None?
    decreases fuel
  {
    if fuel > 0 && Continues(s) {
      var calls := RetryRound(s.redo, oracle, round);
      RetryRoundCalls(s.redo, oracle, round);
      GatherMeans(calls);
      RunNeverRaises(Next(s, Round(s, oracle, round).value), oracle, round + 1, fuel - 1);
    }
  }

  /** With providers that never raise, `search` returns its payloads. */
  lemma SearchNeverRaises(keywords: seq<string>, retries: int, oracle: Oracle, fuel: nat)
    requires NeverRaises(oracle)
    ensures SearchResult(keywords, retries, oracle, fuel).Ok?
  {
    var calls := InitialRound(keywords, oracle);
    CallsAt(InitialQueries(keywords), oracle);
    GatherMeans(calls);
    RunNeverRaises(Start(keywords, retries, oracle).value, oracle, 1, fuel);
  }

  /* ---------- whole runs ---------- */

  /** A round made only of `Redo` outcomes runs every search again and
      brings no records. */
  lemma {:induction false} AllRedoRound(results: seq<Outcome>)
    requires forall k :: 0 <= k < |results| ==> results[k].OfRedo?
    ensures |Classify(results).redo| == |results|
    ensures Classify(results).success == []
    ensures !Classify(results).progress
  {
    Partition(results);
    NoProgressMeansAllRedo(results);
  }

  ghost predicate AlwaysRedo(oracle: Oracle)
  {
    forall p, k, t, r :: oracle(p, k, t, r).Ok? && oracle(p, k, t, r).value.OfRedo?
  }

  ghost predicate AlwaysPartial(oracle: Oracle)
  {
    forall p, k, t, r :: oracle(p, k, t, r).Ok? && oracle(p, k, t, r).value.OfPartial?
  }

  /** A retry round of an oracle that always answers: the gather holds
      each answer at its pending search's position. */
  lemma AnsweredRound(s: State, oracle: Oracle, round: nat)
    requires NeverRaises(oracle)
    ensures Gather(RetryRound(s.redo, oracle, round)).Ok?
    ensures forall k :: 0 <= k < |s.redo| ==>
              Gather(RetryRound(s.redo, oracle, round)).value[k]
                == oracle(s.redo[k].client, s.redo[k].searchkey, Some(s.redo[k].token), round).value
  {
    RetryRoundCalls(s.redo, oracle, round);
    GatherMeans(RetryRound(s.redo, oracle, round));
  }

  /** When every call asks to be redone, each retry round costs one unit of
      budget: exactly `retries` rounds run, no record is added and nothing
      raises. */
  lemma {:induction false} RunAllRedo(s: State, oracle: Oracle, round: nat, fuel: nat)
    requires AlwaysRedo(oracle)
    requires |s.redo| > 0 && 0 <= s.retries <= fuel
    ensures |Run(s, oracle, round, fuel).progress| == s.retries
    ensures Run(s, oracle, round, fuel).final.success == s.success
    ensures Run(s, oracle, round, fuel).final.retries == 0
    ensures Run(s, oracle, round, fuel).error.None?
    decreases fuel
  {
    if s.retries > 0 {
      AnsweredRound(s, oracle, round);
      var results := Gather(RetryRound(s.redo, oracle, round)).value;
      AllRedoRound(results);
      var next := Next(s, Classify(results));
      assert next.success == s.success;
      RunAllRedo(next, oracle, round + 1, fuel - 1);
    }
  }

  /** A round made only of `Partial` outcomes makes progress and carries
      every continuation to the next round. */
  lemma {:induction false} AllPartialRound(results: seq<Outcome>)
    requires forall k :: 0 <= k < |results| ==> results[k].OfPartial?
    ensures |Classify(results).redo| == |results|
    ensures |results| > 0 ==> Classify(results).progress
  {
    if results != [] {
      AllPartialRound(results[1..]);
      assert forall k :: 1 <= k < |results| ==> results[1..][k - 1] == results[k];
      assert !results[0].OfRedo?;
    }
  }

  /** Pagination never spends the budget: when every call returns a
      `Partial`, the loop runs until the fuel is gone with the budget intact. */
  lemma {:induction false} RunAllPartial(s: State, oracle: Oracle, round: nat, fuel: nat)
    requires AlwaysPartial(oracle)
    requires Continues(s)
    ensures |Run(s, oracle, round, fuel).progress| == fuel
    ensures Run(s, oracle, round, fuel).final.retries == s.retries
    decreases fuel
  {
    if fuel > 0 {
      AnsweredRound(s, oracle, round);
      var results := Gather(RetryRound(s.redo, oracle, round)).value;
      AllPartialRound(results);
      RunAllPartial(Next(s, Classify(results)), oracle, round + 1, fuel - 1);
    }
  }

  /** The whole search when every call asks to be redone: with at least one
      keyword, exactly `retries` retry rounds after the initial one, and no
      record at all; with a budget of zero or less, no retry round. */
  lemma SearchAllRedo(keywords: seq<string>, retries: int, oracle: Oracle, fuel: nat)
    requires AlwaysRedo(oracle)
    requires |keywords| > 0 && retries <= fuel
    ensures SearchResult(keywords, retries, oracle, fuel) == Ok([])
    ensures |Run(Start(keywords, retries, oracle).value, oracle, 1, fuel).progress| == if retries < 0 then 0 else retries
  {
    var calls := InitialRound(keywords, oracle);
    CallsAt(InitialQueries(keywords), oracle);
    GatherMeans(calls);
    var results := Gather(calls).value;
    AllRedoRound(results);
    var s := Start(keywords, retries, oracle).value;
    if retries >= 0 {
      RunAllRedo(s, oracle, 1, fuel);
    }
  }
}

=== FILE: papers.dfy ===
/** The entry shape shared by the Semantic Scholar and Dynamed clients of
    both packages (app/searchlib/semantic_scholar.py,
    app/searchlib/dynamed.py, search/search/semantic_scholar.py,
    search/search/dynamed.py): each reads the same keys of one `data` entry
    with the same defaults, the publication date going to the year slot and
    the year to the date slot, and each turns the `data` list of a reply
    into one record per entry. The Semantic Scholar clients also share the
    request they send: query parameters, and the API key header only when a
    key is set. */
module Papers {
  import opened PyValue

  /** The query parameters and headers of a GET request, as dicts. */
  datatype Request = Request(params: seq<(string, Value)>, headers: seq<(string, Value)>)

  /** `headers['X-API-KEY'] = key` only when a key is given. */
  function Headers(apiKey: Value): seq<(string, Value)>
  {
    if Truthy(apiKey) then [("X-API-KEY", apiKey)] else []
  }

  /** The API key is sent exactly when one is given. */
  lemma HeadersMeaning(apiKey: Value)
    ensures "X-API-KEY" in Keys(Headers(apiKey)) <==> Truthy(apiKey)
    ensures Truthy(apiKey) ==> Lookup(Headers(apiKey), "X-API-KEY") == Some(apiKey)
  {
    if Truthy(apiKey) {
      assert Keys(Headers(apiKey))[0] == "X-API-KEY";
    }
  }

  /** What every client reads from an entry: `publicationDate`, `year`,
      the author names, `title` and `abstract`. */
  datatype Paper = Paper(publishedYear: Value, publishedDate: Value, authors: seq<Value>,
                         title: Value, abstractText: Value)

  /** `[author.get('name', '') for author in data.get('authors', [])]`. */
  function AuthorNames(data: Value): Result<seq<Value>>
  {
    var list :- Get(data, "authors", EmptyList);
    var authors :- Iter(list);
    MapGet(authors, "name", Str(""))
  }

  /** The keyword arguments in the order Python evaluates them: an entry
      that is not a dict raises at the first `.get`, an author list that is
      not iterable or holds a non-dict raises in the comprehension. */
  function PaperOf(data: Value): Result<Paper>
  {
    var year :- Get(data, "publicationDate", Str(""));
    var date :- Get(data, "year", Str(""));
    var authors :- AuthorNames(data);
    var title :- Get(data, "title", Str(""));
    var abstractText :- Get(data, "abstract", Str("NA"));
    Ok(Paper(year, date, authors, title, abstractText))
  }

  /** The swap and the defaults: the year slot holds `publicationDate`, the
      date slot `year`, a missing title is "" and a missing abstract "NA";
      an entry without authors has none, and each listed author gives its
      name or "". */
  lemma PaperFields(e: seq<(string, Value)>, authors: seq<Value>)
    requires Lookup(e, "authors").GetOr(EmptyList) == List(authors)
    requires forall k :: 0 <= k < |authors| ==> authors[k].Dict?
    ensures PaperOf(Dict(e)).Ok?
    ensures var p := PaperOf(Dict(e)).value;
            && p.publishedYear == Lookup(e, "publicationDate").GetOr(Str(""))
            && p.publishedDate == Lookup(e, "year").GetOr(Str(""))
            && p.title == Lookup(e, "title").GetOr(Str(""))
            && p.abstractText == Lookup(e, "abstract").GetOr(Str("NA"))
            && |p.authors| == |authors|
            && (forall k :: 0 <= k < |authors| ==>
                  p.authors[k] == Lookup(authors[k].entries, "name").GetOr(Str("")))
  {
    assert AuthorNames(Dict(e)) == MapGet(authors, "name", Str(""));
  }

  /** An entry without any of the keys reads as the defaults. */
  lemma EmptyPaper()
    ensures PaperOf(EmptyDict) == Ok(Paper(Str(""), Str(""), [], Str(""), Str("NA")))
  {
    assert AuthorNames(EmptyDict) == Ok([]);
  }

  /** The ways an entry fails: not a dict, or an author that is not a dict. */
  lemma PaperRaises(data: Value, e: seq<(string, Value)>, authors: seq<Value>, k: nat)
    ensures !data.Dict? ==> PaperOf(data) == Raise(AttributeError)
    ensures Lookup(e, "authors") == Some(List(authors)) && k < |authors| && !authors[k].Dict? ==>
              PaperOf(Dict(e)) == Raise(AttributeError)
  {
    if Lookup(e, "authors") == Some(List(authors)) && k < |authors| && !authors[k].Dict? {
      var r := MapGet(authors, "name", Str(""));
      assert r.Raise?;
      assert AuthorNames(Dict(e)) == r;
      assert r.exn == AttributeError by { MapGetRaises(authors, "name", Str("")); }
    }
  }

  /** `MapGet` can only fail with the `AttributeError` of a non-dict element. */
  lemma {:induction false} MapGetRaises(xs: seq<Value>, key: string, default: Value)
    ensures MapGet(xs, key, default).Raise? ==> MapGet(xs, key, default).exn == AttributeError
  {
    if xs != [] {
      MapGetRaises(xs[1..], key, default);
    }
  }

  /** `(data.get('openAccessPdf', {}) or {}).get('url', '')`. */
  function PdfUrlOf(data: Value): Result<Value>
  {
    var access :- Get(data, "openAccessPdf", EmptyDict);
    Get(if Truthy(access) then access else EmptyDict, "url", Str(""))
  }

  /** The pdf url is the `url` of `openAccessPdf`, "" when that is absent,
      null or empty (or has no `url`); a truthy non-dict raises. */
  lemma PdfUrlCases(e: seq<(string, Value)>)
    ensures Lookup(e, "openAccessPdf").GetOr(Null) == Null ==> PdfUrlOf(Dict(e)) == Ok(Str(""))
    ensures Lookup(e, "openAccessPdf").Some? && Lookup(e, "openAccessPdf").value.Dict? ==>
              PdfUrlOf(Dict(e)) ==
              Ok(Lookup(Lookup(e, "openAccessPdf").value.entries, "url").GetOr(Str("")))
    ensures Lookup(e, "openAccessPdf").Some? && Truthy(Lookup(e, "openAccessPdf").value) &&
            !Lookup(e, "openAccessPdf").value.Dict? ==>
              PdfUrlOf(Dict(e)) == Raise(AttributeError)
  {
  }

  /** The records of a reply: `f` of every entry of its `data` (none when it
      has no `data`), in order; the first entry that raises decides. */
  function DataRecords<T>(response: Value, f: Value -> Result<T>): Result<seq<T>>
  {
    var data :- Get(response, "data", EmptyList);
    var entries :- Iter(data);
    MapAll(entries, f)
  }

  /** The loop over `data`, appending one record per entry. */
  method ReadRecords<T>(response: Value, f: Value -> Result<T>) returns (r: Result<seq<T>>)
    ensures r == DataRecords(response, f)
  {
    var data := Get(response, "data", EmptyList);
    if data.Raise? {
      return Raise(data.exn);
    }
    var entries := Iter(data.value);
    if entries.Raise? {
      return Raise(entries.exn);
    }
    r := MapEach(entries.value, f);
  }

  /** For a dict reply whose `data` is a list (or which has none): the
      records exist exactly when every entry reads, one per entry in order;
      otherwise the first entry that raises decides. */
  lemma DataRecordsMeans<T>(e: seq<(string, Value)>, items: seq<Value>, f: Value -> Result<T>)
    requires Lookup(e, "data").GetOr(EmptyList) == List(items)
    ensures DataRecords(Dict(e), f).Ok? <==> forall k :: 0 <= k < |items| ==> f(items[k]).Ok?
    ensures DataRecords(Dict(e), f).Ok? ==>
              |DataRecords(Dict(e), f).value| == |items| &&
              forall k :: 0 <= k < |items| ==> DataRecords(Dict(e), f).value[k] == f(items[k]).value
    ensures DataRecords(Dict(e), f).Raise? ==>
              exists k :: 0 <= k < |items| && f(items[k]) == Raise(DataRecords(Dict(e), f).exn)
  {
    MapAllMeans(items, f);
  }

  /** A reply that is not a dict has no `get`. */
  lemma NonDictReplyRaises<T>(response: Value, f: Value -> Result<T>)
    requires !response.Dict?
    ensures DataRecords(response, f) == Raise(AttributeError)
  {
  }
}

=== FILE: process_ai.dfy ===
/** `process_ai` of the command-line app (app/app.py): run the PDF processor
    on a record's `pdf_url` and merge what it returns into the record. */
module AiStep {
  import opened PyValue
  import opened Processor

  /** The sections the app asks the processor for. */
  const Sections: seq<string> := ["introduction", "results", "conclusion"]

  /** The keys `process_ai` writes, in the order it writes them. */
  const NewKeys: seq<string> :=
    ["markdown_sections", "introduction", "results", "conclusion", "figures", "tables", "status"]

  /** The `status` dict: the analysis is left "" and the processor's status
      is copied into `ai_processing`. */
  function StatusDict(status: string): Value
  {
    Dict([("analysis", Str("")), ("ai_processing", Str(status))])
  }

  /** `new_values`: the processor's fields under the record's key names, the
      images under "figures". */
  function NewValues(r: Report): (e: seq<(string, Value)>)
    ensures Keys(e) == NewKeys
  {
    [("markdown_sections", Str(r.markdownSections)),
     ("introduction", Str(r.introduction)),
     ("results", Str(r.results)),
     ("conclusion", Str(r.conclusion)),
     ("figures", r.images),
     ("tables", Str(r.tables)),
     ("status", StatusDict(r.status))]
  }

  lemma NewKeysDistinct()
    ensures forall j, k :: 0 <= j < k < |NewKeys| ==> NewKeys[j] != NewKeys[k]
  {
    forall j, k | 0 <= j < k < |NewKeys| ensures NewKeys[j] != NewKeys[k] {
      assert || |NewKeys[j]| != |NewKeys[k]|
             || NewKeys[j][0] != NewKeys[k][0];
    }
  }

  lemma NewValuesUnique(r: Report)
    ensures UniqueKeys(NewValues(r))
  {
    NewKeysDistinct();
    var e := NewValues(r);
    forall j, k | 0 <= j < k < |e| ensures e[j].0 != e[k].0 {
      assert Keys(e)[j] == e[j].0 && Keys(e)[k] == e[k].0;
    }
  }

  /** `{**doc, **new_values}` for the processor's report `rep`. */
  function Merged(entries: seq<(string, Value)>, rep: Report): seq<(string, Value)>
  {
    Merge(entries, NewValues(rep))
  }

  /** `process_ai(processor, doc)`: `doc["pdf_url"]` raises for a record
      without one, otherwise the record merged with the processor's report. */
  function ProcessAi(doc: Value, io: Services): (r: Result<Value>)
    ensures r.Ok? <==> doc.Dict? && "pdf_url" in Keys(doc.entries)
    ensures doc.Dict? && "pdf_url" !in Keys(doc.entries) ==> r == Raise(KeyError)
    ensures r.Ok? ==> r == Ok(Dict(Merged(doc.entries, PdfSpec(Lookup(doc.entries, "pdf_url").value, Sections, io))))
  {
    match doc
    case Dict(entries) =>
      (match Lookup(entries, "pdf_url")
       case None => Raise(KeyError)
       case Some(url) => Ok(Dict(Merged(entries, PdfSpec(url, Sections, io)))))
    case _ => Raise(TypeError)
  }

  /** The merged record: every key `process_ai` writes holds the report's
      field, every other key keeps the record's value, and a record without
      repeated keys stays so. */
  lemma MergedFields(entries: seq<(string, Value)>, rep: Report, key: string)
    ensures var out := Merged(entries, rep);
            && (key in NewKeys ==> Lookup(out, key) == Lookup(NewValues(rep), key))
            && (key !in NewKeys ==> Lookup(out, key) == Lookup(entries, key))
            && (UniqueKeys(entries) ==> UniqueKeys(out))
  {
    var nv := NewValues(rep);
    NewValuesUnique(rep);
    MergeLookup(entries, nv, key);
    if UniqueKeys(entries) {
      MergeUnique(entries, nv);
    }
  }

  /** The report's sections, figures, tables and status under the record's
      key names. */
  lemma MergedReport(entries: seq<(string, Value)>, rep: Report)
    ensures var out := Merged(entries, rep);
            && Lookup(out, "markdown_sections") == Some(Str(rep.markdownSections))
            && Lookup(out, "introduction") == Some(Str(rep.introduction))
            && Lookup(out, "figures") == Some(rep.images)
            && Lookup(out, "tables") == Some(Str(rep.tables))
            && Lookup(out, "status") == Some(StatusDict(rep.status))
  {
    var nv := NewValues(rep);
    NewValuesUnique(rep);
    assert Lookup(nv, "markdown_sections") == Some(nv[0].1) by { LookupAt(nv, 0); }
    assert Lookup(nv, "introduction") == Some(nv[1].1) by { LookupAt(nv, 1); }
    assert Lookup(nv, "figures") == Some(nv[4].1) by { LookupAt(nv, 4); }
    assert Lookup(nv, "tables") == Some(nv[5].1) by { LookupAt(nv, 5); }
    assert Lookup(nv, "status") == Some(nv[6].1) by { LookupAt(nv, 6); }
    MergeLookup(entries, nv, "markdown_sections");
    MergeLookup(entries, nv, "introduction");
    MergeLookup(entries, nv, "figures");
    MergeLookup(entries, nv, "tables");
    MergeLookup(entries, nv, "status");
  }

  /** A record whose url is falsy comes back marked "unsupported (no URL)"
      with empty sections and figures, its other keys untouched. */
  lemma NoUrlRecord(doc: Value, io: Services, key: string)
    requires doc.Dict? && Lookup(doc.entries, "pdf_url") == Some(Str(""))
    ensures ProcessAi(doc, io).Ok?
    ensures var out := ProcessAi(doc, io).value.entries;
            && Lookup(out, "status") == Some(StatusDict(NoUrlStatus))
            && Lookup(out, "introduction") == Some(Str(""))
            && Lookup(out, "figures") == Some(Str(""))
            && (key !in NewKeys ==> Lookup(out, key) == Lookup(doc.entries, key))
  {
    assert PdfSpec(Str(""), Sections, io) == Blank(NoUrlStatus);
    MergedFields(doc.entries, Blank(NoUrlStatus), key);
    MergedReport(doc.entries, Blank(NoUrlStatus));
  }
}

=== FILE: processor.dfy ===
/** The PDF processor of the application package (app/ai/processor.py): text
    extraction, figure selection, the section fallback and the status
    decision of `process_pdf`. Every external service (Document Intelligence,
    the chat model, the PDF cropper, Blob Storage, the HEAD request) is an
    input: a reply value, or a function from what the processor sends to what
    comes back, None standing for a call that raised. */
module Processor {
  import opened Text
  import opened PyValue
  import opened Tables

  // ---------------------------------------------------------------------------
  // Text: `line.content + " "` for every line of every page

  function LinesText(lines: seq<string>): string
  {
    if lines == [] then "" else lines[0] + " " + LinesText(lines[1..])
  }

  function PagesText(pages: seq<seq<string>>): string
  {
    if pages == [] then "" else LinesText(pages[0]) + PagesText(pages[1..])
  }

  lemma {:induction false} LinesTextSnoc(lines: seq<string>, line: string)
    ensures LinesText(lines + [line]) == LinesText(lines) + line + " "
  {
    if lines == [] {
      assert lines + [line] == [line];
      assert [line][1..] == [];
    } else {
      assert (lines + [line])[0] == lines[0];
      assert (lines + [line])[1..] == lines[1..] + [line];
      LinesTextSnoc(lines[1..], line);
    }
  }

  lemma {:induction false} PagesTextSnoc(pages: seq<seq<string>>, page: seq<string>)
    ensures PagesText(pages + [page]) == PagesText(pages) + LinesText(page)
  {
    if pages == [] {
      assert pages + [page] == [page];
      assert [page][1..] == [];
    } else {
      assert (pages + [page])[0] == pages[0];
      assert (pages + [page])[1..] == pages[1..] + [page];
      PagesTextSnoc(pages[1..], page);
    }
  }

  /** The text is empty exactly when no page has a line: every line adds at
      least its trailing space. */
  lemma {:induction false} NoTextIff(pages: seq<seq<string>>)
    ensures PagesText(pages) == "" <==> forall p :: 0 <= p < |pages| ==> pages[p] == []
  {
    if pages != [] {
      NoTextIff(pages[1..]);
      if pages[0] != [] {
        assert |LinesText(pages[0])| > 0;
      } else {
        assert forall p :: 1 <= p < |pages| ==> pages[p] == pages[1..][p - 1];
      }
    }
  }

  /** `extract_text_from_pdf`: the analysis is None when the service raised,
      and then the text is "". */
  method ExtractText(analysis: Option<Analysis>) returns (text: string, result: Option<Analysis>)
    ensures result == analysis
    ensures text == if analysis.None? then "" else PagesText(analysis.value.pages)
  {
    if analysis.None? {
      return "", None;
    }
    var pages := analysis.value.pages;
    text := "";
    for p := 0 to |pages|
      invariant text == PagesText(pages[..p])
    {
      var lines := pages[p];
      var page := "";
      for l := 0 to |lines|
        invariant page == LinesText(lines[..l])
      {
        LinesTextSnoc(lines[..l], lines[l]);
        assert lines[..l + 1] == lines[..l] + [lines[l]];
        page := page + lines[l] + " ";
      }
      assert lines[..|lines|] == lines;
      PagesTextSnoc(pages[..p], pages[p]);
      assert pages[..p + 1] == pages[..p] + [pages[p]];
      text := text + page;
    }
    assert pages[..|pages|] == pages;
    result := analysis;
  }

  // ---------------------------------------------------------------------------
  // Figures

  /** `v[i]` on a list or a string; anything else, or an index out of range, raises. */
  function ItemAt(v: Value, i: int): (r: Option<Value>)
    ensures v.List? && 0 <= i < |v.items| ==> r == Some(v.items[i])
  {
    match v
    case List(items) => if ValidIdx(i, |items|) then Some(items[PyIndex(i, |items|)]) else None
    case Str(s) => if ValidIdx(i, |s|) then Some(Str([s[PyIndex(i, |s|)]])) else None
    case _ => None
  }

  /** What the loop hands the cropper for one figure: the page
      (`pageNumber - 1`) and the box (polygon points 0, 1, 4 and 5 of the
      first bounding region), or None when reading the figure raises. */
  function CropRequest(figure: Value): Option<(int, seq<Value>)>
  {
    match Index(figure, "boundingRegions")
    case Raise(_) => None
    case Ok(regions) =>
      match ItemAt(regions, 0)
      case None => None
      case Some(first) =>
        match Index(first, "polygon")
        case Raise(_) => None
        case Ok(polygon) =>
          var x0, y0, x1, y1 := ItemAt(polygon, 0), ItemAt(polygon, 1), ItemAt(polygon, 4), ItemAt(polygon, 5);
          if x0.None? || y0.None? || x1.None? || y1.None? then None
          else
            match Index(first, "pageNumber")
            case Raise(_) => None
            case Ok(pageNumber) =>
              if AsInt(pageNumber).None? then None
              else Some((AsInt(pageNumber).value - 1, [x0.value, y0.value, x1.value, y1.value]))
  }

  /** A figure whose first region has a polygon of at least six points and an
      integer page number asks for page `pageNumber - 1` and points 0, 1, 4, 5. */
  lemma FigureBox(points: seq<Value>, pageNumber: int, otherRegions: seq<Value>)
    requires |points| >= 6
    ensures CropRequest(Dict([("boundingRegions",
              List([Dict([("polygon", List(points)), ("pageNumber", Int(pageNumber))])] + otherRegions))]))
            == Some((pageNumber - 1, [points[0], points[1], points[4], points[5]]))
  {
    var first := Dict([("polygon", List(points)), ("pageNumber", Int(pageNumber))]);
    assert ([first] + otherRegions)[0] == first;
    assert Lookup(first.entries, "pageNumber") == Some(Int(pageNumber));
  }

  /** A polygon with fewer than six points makes the figure raise, and so does
      a figure without bounding regions. */
  lemma FigureTooSmall(points: seq<Value>, pageNumber: Value)
    requires |points| < 6
    ensures CropRequest(Dict([("boundingRegions",
              List([Dict([("polygon", List(points)), ("pageNumber", pageNumber)])]))])) == None
    ensures CropRequest(Dict([("boundingRegions", List([]))])) == None
  {
  }

  /** The image kept for one figure: the cropper's result when the figure
      reads without raising and the result is truthy. */
  function FigureImage(figure: Value, crop: (int, seq<Value>) -> Option<string>): Option<string>
  {
    match CropRequest(figure)
    case None => None
    case Some(request) =>
      match crop(request.0, request.1)
      case Some(image) => if image != "" then Some(image) else None
      case None => None
  }

  /** The images of the figure loop, in figure order. */
  function Images(figures: seq<Value>, crop: (int, seq<Value>) -> Option<string>): (r: seq<string>)
    ensures |r| <= |figures|
    ensures forall k :: 0 <= k < |r| ==> r[k] != ""
  {
    if figures == [] then []
    else if FigureImage(figures[0], crop).Some? then [FigureImage(figures[0], crop).value] + Images(figures[1..], crop)
    else Images(figures[1..], crop)
  }

  lemma {:induction false} ImagesAppend(a: seq<Value>, b: seq<Value>, crop: (int, seq<Value>) -> Option<string>)
    ensures Images(a + b, crop) == Images(a, crop) + Images(b, crop)
  {
    if a == [] {
      assert a + b == b;
    } else {
      assert (a + b)[0] == a[0];
      assert (a + b)[1..] == a[1..] + b;
      ImagesAppend(a[1..], b, crop);
    }
  }

  /** A figure that raises, or whose crop fails, adds nothing. */
  lemma SkippedFigure(before: seq<Value>, bad: Value, after: seq<Value>, crop: (int, seq<Value>) -> Option<string>)
    requires FigureImage(bad, crop).None?
    ensures Images(before + [bad] + after, crop) == Images(before + after, crop)
  {
    ImagesAppend(before + [bad], after, crop);
    ImagesAppend(before, [bad], crop);
    ImagesAppend(before, after, crop);
    assert [bad][0] == bad && [bad][1..] == [];
  }

  /** `extract_images_from_pdf`; `downloaded` says whether the download
      returned the PDF bytes. */
  method ExtractImages(downloaded: bool, result: Option<Analysis>, crop: (int, seq<Value>) -> Option<string>)
    returns (images: seq<string>)
    ensures images == ImagesOf(downloaded, result, crop)
  {
    if !downloaded || result.None? || result.value.figures.None? || result.value.figures.value == [] {
      return [];
    }
    var figures := result.value.figures.value;
    images := [];
    for k := 0 to |figures|
      invariant images == Images(figures[..k], crop)
    {
      ImagesAppend(figures[..k], [figures[k]], crop);
      assert figures[..k + 1] == figures[..k] + [figures[k]];
      assert [figures[k]][0] == figures[k] && [figures[k]][1..] == [];
      var request := CropRequest(figures[k]);
      if request.Some? {
        var image := crop(request.value.0, request.value.1);
        if image.Some? && image.value != "" {
          images := images + [image.value];
        }
      }
    }
    assert figures[..|figures|] == figures;
  }

  /** The images of a document: none without the PDF bytes, an analysis or figures. */
  function ImagesOf(downloaded: bool, result: Option<Analysis>, crop: (int, seq<Value>) -> Option<string>): seq<string>
  {
    if !downloaded || result.None? || result.value.figures.None? then []
    else Images(result.value.figures.value, crop)
  }

  // ---------------------------------------------------------------------------
  // Blob upload

  /** The urls of the images whose upload did not raise, in order. */
  function Uploaded(images: seq<string>, upload: string -> Option<string>): (r: seq<string>)
    ensures |r| <= |images|
  {
    if images == [] then []
    else if upload(images[0]).Some? then [upload(images[0]).value] + Uploaded(images[1..], upload)
    else Uploaded(images[1..], upload)
  }

  lemma {:induction false} UploadedAppend(a: seq<string>, b: seq<string>, upload: string -> Option<string>)
    ensures Uploaded(a + b, upload) == Uploaded(a, upload) + Uploaded(b, upload)
  {
    if a == [] {
      assert a + b == b;
    } else {
      assert (a + b)[0] == a[0];
      assert (a + b)[1..] == a[1..] + b;
      UploadedAppend(a[1..], b, upload);
    }
  }

  /** When no upload raises, there is one url per image, in image order. */
  lemma {:induction false} UploadedAll(images: seq<string>, upload: string -> Option<string>)
    requires forall k :: 0 <= k < |images| ==> upload(images[k]).Some?
    ensures |Uploaded(images, upload)| == |images|
    ensures forall k :: 0 <= k < |images| ==> Uploaded(images, upload)[k] == upload(images[k]).value
  {
    if images != [] {
      assert forall k :: 1 <= k < |images| ==> images[1..][k - 1] == images[k];
      UploadedAll(images[1..], upload);
    }
  }

  /** `save_images_to_blob`. */
  method SaveImages(images: seq<string>, upload: string -> Option<string>) returns (urls: seq<string>)
    ensures urls == Uploaded(images, upload)
  {
    urls := [];
    for k := 0 to |images|
      invariant urls == Uploaded(images[..k], upload)
    {
      UploadedAppend(images[..k], [images[k]], upload);
      assert images[..k + 1] == images[..k] + [images[k]];
      assert [images[k]][0] == images[k] && [images[k]][1..] == [];
      var url := upload(images[k]);
      if url.Some? {
        urls := urls + [url.value];
      }
    }
    assert images[..|images|] == images;
  }

  // ---------------------------------------------------------------------------
  // Sections

  /** The content found for `sections[k]` in the reply, "" when none was found. */
  function Slot(sections: seq<string>, markdown: string, find: (string, string) -> Option<string>, k: nat): string
  {
    if k < |sections| && find(sections[k], markdown).Some? then find(sections[k], markdown).value else ""
  }

  /** Some section past the third is found: storing it raises IndexError. */
  predicate Overflows(sections: seq<string>, markdown: string, find: (string, string) -> Option<string>)
  {
    exists k :: 3 <= k < |sections| && find(sections[k], markdown).Some?
  }

  /** `extract_sections`. `reply` is the chat reply (None when the call
      raised) and `find(section, markdown)` the stripped text the pattern
      captures for a section, if it matches. The three slots hold what the
      first three sections found; a match for a later section raises inside
      the `try`, and the fallback returns the slots filled so far with "" for
      the Markdown. */
  method ExtractSections(sections: seq<string>, reply: Option<string>, find: (string, string) -> Option<string>)
    returns (introduction: string, results: string, conclusion: string, markdown: string)
    ensures reply.None? ==> introduction == "" && results == "" && conclusion == "" && markdown == ""
    ensures reply.Some? ==>
      && introduction == Slot(sections, reply.value, find, 0)
      && results == Slot(sections, reply.value, find, 1)
      && conclusion == Slot(sections, reply.value, find, 2)
      && markdown == if Overflows(sections, reply.value, find) then "" else reply.value
  {
    var extracted := ["", "", ""];
    if reply.None? {
      return extracted[0], extracted[1], extracted[2], "";
    }
    var md := reply.value;
    for index := 0 to |sections|
      invariant |extracted| == 3
      invariant forall k :: 0 <= k < 3 ==>
        extracted[k] == if k < index then Slot(sections, md, find, k) else ""
      invariant forall k :: 3 <= k < index ==> find(sections[k], md).None?
    {
      var found := find(sections[index], md);
      if found.Some? {
        if index >= 3 {
          assert Overflows(sections, md, find);
          return extracted[0], extracted[1], extracted[2], "";
        }
        extracted := extracted[index := found.value];
      }
    }
    assert !Overflows(sections, md, find);
    introduction, results, conclusion, markdown := extracted[0], extracted[1], extracted[2], md;
  }

  // ---------------------------------------------------------------------------
  // process_pdf

  /** The HEAD request: it raised a RequestException with a message, or it
      answered with a Content-Type header (None when absent). */
  datatype HeadReply = HeadFailed(message: string) | Headers(contentType: Option<string>)

  /** The services one call of `process_pdf` talks to, as inputs. */
  datatype Services = Services(
    head: HeadReply,
    analysis: Option<Analysis>,
    ask: string -> Option<string>,
    find: (string, string) -> Option<string>,
    downloaded: bool,
    crop: (int, seq<Value>) -> Option<string>,
    summarize: string -> Option<string>,
    upload: string -> Option<string>)

  /** The dict `process_pdf` returns. */
  datatype Report = Report(markdownSections: string, introduction: string, results: string,
                           conclusion: string, images: Value, tables: string, status: string)

  const NoUrlStatus := "unsupported (no URL)"
  const NotPdfStatus := "unsupported (not a PDF)"
  const NoTextStatus := "failed (no text extracted)"
  const SuccessStatus := "successful"

  /** A report with every field but the status "". */
  function Blank(status: string): Report
  {
    Report("", "", "", "", Str(""), "", status)
  }

  /** The Markdown `extract_tables` returns for an analysis. */
  function TablesOf(result: Analysis, summarize: string -> Option<string>): string
  {
    if result.tables.None? then ""
    else
      var md := AllTables(result.tables.value);
      if md == "" then "" else summarize(md).GetOr("")
  }

  /** What `process_pdf` returns for `url`, given what the services answer. */
  function PdfSpec(url: Value, sections: seq<string>, io: Services): Report
  {
    if !Truthy(url) then Blank(NoUrlStatus)
    else match io.head
      case HeadFailed(message) => Blank("failed " + message)
      case Headers(contentType) =>
        if contentType.None? || !Contains(contentType.value, "pdf") then Blank(NotPdfStatus)
        else if io.analysis.None? || PagesText(io.analysis.value.pages) == "" then Blank(NoTextStatus)
        else
          var result := io.analysis.value;
          var reply := io.ask(PagesText(result.pages));
          var urls := Uploaded(ImagesOf(io.downloaded, io.analysis, io.crop), io.upload);
          Report(
            if reply.None? || Overflows(sections, reply.value, io.find) then "" else reply.value,
            if reply.None? then "" else Slot(sections, reply.value, io.find, 0),
            if reply.None? then "" else Slot(sections, reply.value, io.find, 1),
            if reply.None? then "" else Slot(sections, reply.value, io.find, 2),
            List(seq(|urls|, k requires 0 <= k < |urls| => Str(urls[k]))),
            TablesOf(result, io.summarize),
            SuccessStatus)
  }

  /** The status decision of `process_pdf`: every outcome but success leaves
      every other field "", and success needs a truthy url, a HEAD answer
      whose Content-Type mentions "pdf", and some extracted text. */
  lemma PdfDecision(url: Value, sections: seq<string>, io: Services)
    ensures var r := PdfSpec(url, sections, io);
            && (r.status == SuccessStatus || r == Blank(r.status))
            && (!Truthy(url) ==> r.status == NoUrlStatus)
            && (Truthy(url) && io.head.HeadFailed? ==> r.status == "failed " + io.head.message)
            && (Truthy(url) && io.head.Headers? &&
                (io.head.contentType.None? || !Contains(io.head.contentType.value, "pdf"))
                ==> r.status == NotPdfStatus)
            && (r.status == SuccessStatus <==>
                  Truthy(url) && io.head.Headers? && io.head.contentType.Some? &&
                  Contains(io.head.contentType.value, "pdf") && io.analysis.Some? &&
                  exists p :: 0 <= p < |io.analysis.value.pages| && io.analysis.value.pages[p] != [])
  {
    if io.analysis.Some? {
      NoTextIff(io.analysis.value.pages);
    }
    if Truthy(url) && io.head.HeadFailed? {
      assert SuccessStatus[0] != ("failed " + io.head.message)[0];
    }
  }

  /** `process_pdf`. */
  method ProcessPdf(url: Value, sections: seq<string>, io: Services) returns (r: Report)
    ensures r == PdfSpec(url, sections, io)
  {
    if !Truthy(url) {
      return Blank(NoUrlStatus);
    }
    if io.head.HeadFailed? {
      return Blank("failed " + io.head.message);
    }
    var contentType := io.head.contentType;
    if contentType.None? || !Contains(contentType.value, "pdf") {
      return Blank(NotPdfStatus);
    }
    var text, result := ExtractText(io.analysis);
    if text == "" || result.None? {
      return Blank(NoTextStatus);
    }
    var introduction, results, conclusion, markdownSections := ExtractSections(sections, io.ask(text), io.find);
    var images := ExtractImages(io.downloaded, result, io.crop);
    var tables := ExtractTables(result, io.summarize);
    var urls := SaveImages(images, io.upload);
    r := Report(markdownSections, introduction, results, conclusion,
                List(seq(|urls|, k requires 0 <= k < |urls| => Str(urls[k]))), tables, SuccessStatus);
  }
}

=== FILE: pubmed.dfy ===
/** The PubMed client of the application package (app/searchlib/pubmed.py):
    flattening one `PubmedArticle` of the efetch XML (already decoded into a
    tree) into a record, choosing its pdf url from HEAD answers, and the
    branching of `search` over the two E-utilities replies. */
module PubMedSearch {
  import opened Text
  import opened PyValue
  import opened Results

  // ---------------------------------------------------------------------------
  // Chained lookups

  /** `v.get(p0, {}).get(p1, {}) ... .get(pn, default)`: every step but the
      last defaults to an empty dict; a step on a non-dict raises. */
  function Dig(v: Value, path: seq<string>, default: Value): Result<Value>
    decreases |path|
  {
    if path == [] then Ok(v)
    else
      match Get(v, path[0], if |path| == 1 then default else EmptyDict)
      case Raise(e) => Raise(e)
      case Ok(next) => Dig(next, path[1..], default)
  }

  /** The tree that holds `leaf` at the end of `path`. */
  function Nest(path: seq<string>, leaf: Value): Value
    decreases |path|
  {
    if path == [] then leaf else Dict([(path[0], Nest(path[1..], leaf))])
  }

  lemma {:induction false} DigEmpty(path: seq<string>, default: Value)
    requires path != []
    ensures Dig(EmptyDict, path, default) == Ok(default)
  {
    if |path| > 1 {
      DigEmpty(path[1..], default);
    }
  }

  /** Along a path that is there the chain reads its leaf; where the first
      key is missing it yields the default. */
  lemma {:induction false} DigFinds(path: seq<string>, leaf: Value, default: Value)
    ensures Dig(Nest(path, leaf), path, default) == Ok(leaf)
  {
    if path != [] {
      var inner := Nest(path[1..], leaf);
      assert Lookup([(path[0], inner)], path[0]) == Some(inner);
      if |path| == 1 {
        assert path[1..] == [];
      }
      DigFinds(path[1..], leaf, default);
    }
  }

  lemma {:induction false} DigMissing(entries: seq<(string, Value)>, path: seq<string>, default: Value)
    requires path != [] && path[0] !in Keys(entries)
    ensures Dig(Dict(entries), path, default) == Ok(default)
  {
    if |path| > 1 {
      DigEmpty(path[1..], default);
    } else {
      assert path[1..] == [];
    }
  }

  /** The `ArticleId` and `Author` normalisation: a single dict is wrapped
      into a one-element list; anything else is iterated as it is. */
  function Items(v: Value): (r: Result<seq<Value>>)
    ensures v.Dict? ==> r == Ok([v])
    ensures v.List? ==> r == Ok(v.items)
  {
    if v.Dict? then Ok([v]) else Iter(v)
  }

  // ---------------------------------------------------------------------------
  // pmc_ids

  predicate IsPmc(id: Value)
    requires id.Dict?
  {
    Lookup(id.entries, "@IdType") == Some(Str("pmc"))
  }

  /** What one `ArticleId` contributes: its text when its type is pmc,
      nothing otherwise; `.get` on a non-dict raises. */
  function PmcOf(id: Value): Result<seq<Value>>
  {
    if !id.Dict? then Raise(AttributeError)
    else if IsPmc(id) then Ok([Lookup(id.entries, "#text").GetOr(Str(""))])
    else Ok([])
  }

  /** `[id.get('#text', '') for id in ids if id.get('@IdType') == 'pmc']`:
      it raises exactly when some id is not a dict, and then only
      `AttributeError`; it is no longer than `ids`. */
  function PmcTexts(ids: seq<Value>): (r: Result<seq<Value>>)
    ensures r.Raise? <==> exists k :: 0 <= k < |ids| && !ids[k].Dict?
    ensures r.Raise? ==> r.exn == AttributeError
    ensures r.Ok? ==> |r.value| <= |ids|
  {
    CollectOk(ids, PmcOf);
    CollectRaises(ids, PmcOf, AttributeError);
    CollectBound(ids, PmcOf);
    Collect(ids, PmcOf)
  }

  /** One id contributes its text exactly when its type is pmc. */
  lemma PmcTextsOne(id: Value)
    requires id.Dict?
    ensures PmcTexts([id]) == Ok(if IsPmc(id) then [Lookup(id.entries, "#text").GetOr(Str(""))] else [])
  {
    CollectOne(id, PmcOf);
  }

  /** The filter keeps order: the texts of a concatenation are the
      concatenation of the texts. */
  lemma PmcTextsAppend(a: seq<Value>, b: seq<Value>)
    requires PmcTexts(a).Ok? && PmcTexts(b).Ok?
    ensures PmcTexts(a + b) == Ok(PmcTexts(a).value + PmcTexts(b).value)
  {
    CollectAppend(a, b, PmcOf);
  }

  /** `[pmc_id] + [...]`: the PMID text first, then the pmc-typed ids. */
  function PmcIds(pmid: Value, articleIds: Value): (r: Result<seq<Value>>)
    ensures r.Ok? ==> |r.value| >= 1 && r.value[0] == pmid
  {
    var ids :- Items(articleIds);
    var texts :- PmcTexts(ids);
    Ok([pmid] + texts)
  }

  /** A single `ArticleId` dict reads as the one-element list holding it. */
  lemma SingleIdWrapped(pmid: Value, id: Value)
    requires id.Dict?
    ensures PmcIds(pmid, id) == PmcIds(pmid, List([id]))
    ensures PmcIds(pmid, id) == Ok([pmid] + if IsPmc(id) then [Lookup(id.entries, "#text").GetOr(Str(""))] else [])
  {
    PmcTextsOne(id);
  }

  // ---------------------------------------------------------------------------
  // Date, authors, keywords, abstract

  /** `f'{Year}-{Month}-{Day}'` of the PubDate dict, missing parts "". */
  function PublishedDate(pubDate: Value): (r: Result<string>)
    ensures r.Ok? <==> pubDate.Dict?
  {
    match pubDate
    case Dict(e) =>
      Ok(Format(Lookup(e, "Year").GetOr(Str(""))) + "-" + Format(Lookup(e, "Month").GetOr(Str(""))) + "-" +
         Format(Lookup(e, "Day").GetOr(Str(""))))
    case _ => Raise(AttributeError)
  }

  /** The date reads `Year-Month-Day`; a missing part reads "". */
  lemma DateOfParts(e: seq<(string, Value)>, year: string, month: string, day: string)
    requires Lookup(e, "Year").GetOr(Str("")) == Str(year)
    requires Lookup(e, "Month").GetOr(Str("")) == Str(month)
    requires Lookup(e, "Day").GetOr(Str("")) == Str(day)
    ensures PublishedDate(Dict(e)) == Ok(year + "-" + month + "-" + day)
    ensures "Month" !in Keys(e) ==> month == ""
  {
  }

  /** `f"{author.get('ForeName', '')} {author.get('LastName', '')}"`. */
  function AuthorName(author: Value): Result<Value>
  {
    match author
    case Dict(e) =>
      Ok(Str(Format(Lookup(e, "ForeName").GetOr(Str(""))) + " " + Format(Lookup(e, "LastName").GetOr(Str("")))))
    case _ => Raise(AttributeError)
  }

  /** One author string per author, in order; a single author dict is
      wrapped first. */
  function AuthorNames(authorList: Value): Result<seq<Value>>
  {
    var authors :- Items(authorList);
    MapAll(authors, AuthorName)
  }

  lemma AuthorsInOrder(authors: seq<Value>)
    requires forall k :: 0 <= k < |authors| ==> authors[k].Dict?
    ensures AuthorNames(List(authors)).Ok?
    ensures |AuthorNames(List(authors)).value| == |authors|
    ensures forall k :: 0 <= k < |authors| ==>
              AuthorNames(List(authors)).value[k] == AuthorName(authors[k]).value
  {
    MapAllMeans(authors, AuthorName);
  }

  /** A lone author dict gives the one string "ForeName LastName". */
  lemma SingleAuthorWrapped(author: Value, forename: string, lastname: string)
    requires author.Dict?
    requires Lookup(author.entries, "ForeName").GetOr(Str("")) == Str(forename)
    requires Lookup(author.entries, "LastName").GetOr(Str("")) == Str(lastname)
    ensures AuthorNames(author) == AuthorNames(List([author])) == Ok([Str(forename + " " + lastname)])
  {
    var r := MapAll([author], AuthorName);
    MapAllMeans([author], AuthorName);
    assert r.Ok? && |r.value| == 1 && r.value[0] == Str(forename + " " + lastname);
    assert r.value == [Str(forename + " " + lastname)];
  }

  /** `[keyword.get('#text', '') for keyword in KeywordList]`. */
  function KeywordTexts(keywordList: Value): Result<seq<Value>>
  {
    var keywords :- Iter(keywordList);
    MapGet(keywords, "#text", Str(""))
  }

  /** A list of keyword dicts gives their texts in order. A `KeywordList`
      that is itself a dict (the shape the XML decoder produces for
      `<KeywordList><Keyword>...`) is iterated over its key strings, and
      `.get` on a string raises. */
  lemma KeywordShapes(keywords: seq<Value>, entries: seq<(string, Value)>)
    requires forall k :: 0 <= k < |keywords| ==> keywords[k].Dict?
    requires entries != []
    ensures KeywordTexts(List(keywords)).Ok? && |KeywordTexts(List(keywords)).value| == |keywords|
    ensures forall k :: 0 <= k < |keywords| ==>
              KeywordTexts(List(keywords)).value[k] == Lookup(keywords[k].entries, "#text").GetOr(Str(""))
    ensures KeywordTexts(Dict(entries)) == Raise(AttributeError)
  {
    var ks := Iter(Dict(entries)).value;
    assert ks[0] == Str(entries[0].0);
  }

  /** `f"{a.get('@Label', '')}\n{a.get('#text', '')}"`. */
  function LabelledPart(part: Value): Result<string>
  {
    match part
    case Dict(e) => Ok(Format(Lookup(e, "@Label").GetOr(Str(""))) + "\n" + Format(Lookup(e, "#text").GetOr(Str(""))))
    case _ => Raise(AttributeError)
  }

  /** The abstract: absent stays None, a list of labelled parts is joined by
      spaces, anything else is kept as it is. */
  function AbstractOf(abstractText: Value): (r: Result<Value>)
    ensures !abstractText.List? ==> r == Ok(abstractText)
    ensures abstractText.List? && r.Ok? ==> r.value.Str?
  {
    match abstractText
    case List(items) =>
      var parts :- MapAll(items, LabelledPart);
      Ok(Str(Join(" ", parts)))
    case _ => Ok(abstractText)
  }

  /** A two-part abstract reads `"Label1\ntext1 Label2\ntext2"`. */
  lemma TwoPartAbstract(p1: Value, p2: Value, label1: string, text1: string, label2: string, text2: string)
    requires p1.Dict? && p2.Dict?
    requires Lookup(p1.entries, "@Label").GetOr(Str("")) == Str(label1)
    requires Lookup(p1.entries, "#text").GetOr(Str("")) == Str(text1)
    requires Lookup(p2.entries, "@Label").GetOr(Str("")) == Str(label2)
    requires Lookup(p2.entries, "#text").GetOr(Str("")) == Str(text2)
    ensures AbstractOf(List([p1, p2])) == Ok(Str((label1 + "\n" + text1) + " " + (label2 + "\n" + text2)))
  {
    var x, y := label1 + "\n" + text1, label2 + "\n" + text2;
    assert LabelledPart(p1) == Ok(x);
    assert LabelledPart(p2) == Ok(y);
    assert [p1, p2][0] == p1 && [p1, p2][1..] == [p2];
    assert [p2][0] == p2 && [p2][1..] == [];
    assert MapAll([p2][1..], LabelledPart) == Ok([]);
    assert [y] + [] == [y];
    assert MapAll([p2], LabelledPart) == Ok([y]);
    assert [x] + [y] == [x, y];
    assert MapAll([p1, p2], LabelledPart) == Ok([x, y]);
    assert Join(" ", [x, y]) == x + " " + y;
    assert AbstractOf(List([p1, p2])) == Ok(Str(Join(" ", [x, y])));
  }

  // ---------------------------------------------------------------------------
  // Citations

  /** The non-None `Reference` of one entry of a reference list; `.get`
      on a non-dict raises. */
  function ReferenceOf(ref: Value): Result<seq<Value>>
  {
    if !ref.Dict? then Raise(AttributeError)
    else
      var r := Lookup(ref.entries, "Reference").GetOr(Null);
      if r != Null then Ok([r]) else Ok([])
  }

  /** `len([r for r in (ref.get('Reference') for ref in refs) if r is not None])`:
      it raises exactly when some entry is not a dict, and then only
      `AttributeError`; the count is at most `|refs|`. */
  function ReferenceCount(refs: seq<Value>): (r: Result<nat>)
    ensures r.Raise? <==> exists k :: 0 <= k < |refs| && !refs[k].Dict?
    ensures r.Raise? ==> r.exn == AttributeError
    ensures r.Ok? ==> r.value <= |refs|
  {
    CollectOk(refs, ReferenceOf);
    CollectRaises(refs, ReferenceOf, AttributeError);
    CollectBound(refs, ReferenceOf);
    var found :- Collect(refs, ReferenceOf);
    Ok(|found|)
  }

  /** Counts add up over a concatenation of reference lists. */
  lemma ReferenceCountAppend(a: seq<Value>, b: seq<Value>)
    requires ReferenceCount(a).Ok? && ReferenceCount(b).Ok?
    ensures ReferenceCount(a + b) == Ok(ReferenceCount(a).value + ReferenceCount(b).value)
  {
    CollectAppend(a, b, ReferenceOf);
  }

  /** The citation count from `ReferenceList`: a dict counts its
      `Reference` value, a list counts its entries that carry one. */
  function Citations(refList: Value): Result<nat>
  {
    match refList
    case Dict(e) => Len(Lookup(e, "Reference").GetOr(EmptyList))
    case List(items) => ReferenceCount(items)
    case _ => Len(refList)
  }

  /** The count in the usual shapes: a list of references counts them, a
      list-shaped `ReferenceList` counts only the entries with a
      `Reference`, and no `ReferenceList` counts 0. A lone `Reference` dict
      is measured with `len` of a dict, its number of keys. */
  lemma CitationShapes(refs: seq<Value>, entry: Value, single: seq<(string, Value)>)
    requires entry.Dict?
    ensures Citations(Dict([("Reference", List(refs))])) == Ok(|refs|)
    ensures Citations(EmptyDict) == Ok(0)
    ensures Citations(List([entry])) ==
              Ok(if Lookup(entry.entries, "Reference").GetOr(Null) != Null then 1 else 0)
    ensures Citations(Dict([("Reference", Dict(single))])) == Ok(|single|)
  {
    CollectOne(entry, ReferenceOf);
  }

  // ---------------------------------------------------------------------------
  // pdf url: `_get_url`

  /** What a HEAD request for a candidate url gives: it raised, or it
      answered with a status and the `location` header (None when absent). */
  datatype HeadResult = HeadRaised | HeadStatus(status: int, location: Value)

  function CandidateUrl(pmcId: Value): string
  {
    "https://www.ncbi.nlm.nih.gov/pmc/articles/" + Format(pmcId) + "/pdf/"
  }

  /** The url one candidate settles on: itself on 200, its redirect target
      on 303, nothing on any other status or when the request raises. */
  function Hit(pmcId: Value, head: string -> HeadResult): Option<Value>
  {
    match head(CandidateUrl(pmcId))
    case HeadRaised => None
    case HeadStatus(status, location) =>
      if status == 200 then Some(Str(CandidateUrl(pmcId)))
      else if status == 303 then Some(location)
      else None
  }

  function FirstHit(pmcIds: seq<Value>, head: string -> HeadResult): Value
  {
    if pmcIds == [] then Str("")
    else if Hit(pmcIds[0], head).Some? then Hit(pmcIds[0], head).value
    else FirstHit(pmcIds[1..], head)
  }

  /** The url is the first candidate's hit, or "" when no candidate hits. */
  lemma {:induction false} FirstHitIs(pmcIds: seq<Value>, head: string -> HeadResult, k: nat)
    requires forall j :: 0 <= j < k && j < |pmcIds| ==> Hit(pmcIds[j], head).None?
    ensures k < |pmcIds| && Hit(pmcIds[k], head).Some? ==> FirstHit(pmcIds, head) == Hit(pmcIds[k], head).value
    ensures k >= |pmcIds| ==> FirstHit(pmcIds, head) == Str("")
  {
    if pmcIds != [] && k > 0 {
      assert forall j :: 0 <= j < k - 1 && j < |pmcIds[1..]| ==> pmcIds[1..][j] == pmcIds[j + 1];
      FirstHitIs(pmcIds[1..], head, k - 1);
    }
  }

  /** `_get_url`: try the candidates in order, stop at the first hit. */
  method GetUrl(pmcIds: seq<Value>, head: string -> HeadResult) returns (url: Value)
    ensures url == FirstHit(pmcIds, head)
  {
    for k := 0 to |pmcIds|
      invariant FirstHit(pmcIds, head) == FirstHit(pmcIds[k..], head)
    {
      var candidate := CandidateUrl(pmcIds[k]);
      var answer := head(candidate);
      assert pmcIds[k..][1..] == pmcIds[k + 1..];
      if answer.HeadStatus? && answer.status == 200 {
        return Str(candidate);
      } else if answer.HeadStatus? && answer.status == 303 {
        return answer.location;
      }
    }
    return Str("");
  }

  // ---------------------------------------------------------------------------
  // One article

  /** The fields `_process_article` reads from a `PubmedArticle`. */
  datatype Article = Article(pmcIds: seq<Value>, publishedYear: Value, publishedDate: string,
                             authors: seq<Value>, keywords: seq<Value>, title: Value,
                             abstractText: Value)

  /** The field extraction, in the order the code performs it. */
  function ArticleOf(entry: Value): Result<Article>
  {
    var data :- Get(entry, "MedlineCitation", EmptyDict);
    var pmid :- Dig(data, ["PMID", "#text"], Str(""));
    var articleIds :- Dig(entry, ["PubmedData", "ArticleIdList", "ArticleId"], EmptyList);
    var pmcIds :- PmcIds(pmid, articleIds);
    var article :- Get(data, "Article", EmptyDict);
    var year :- Dig(data, ["Article", "Journal", "JournalIssue", "PubDate", "Year"], Str(""));
    var pubDate :- Dig(data, ["Article", "Journal", "JournalIssue", "PubDate"], EmptyDict);
    var date :- PublishedDate(pubDate);
    var authorList :- Dig(article, ["AuthorList", "Author"], EmptyList);
    var authors :- AuthorNames(authorList);
    var keywordList :- Get(article, "KeywordList", EmptyList);
    var keywords :- KeywordTexts(keywordList);
    var title :- Get(article, "ArticleTitle", Str(""));
    var abstractText :- Dig(article, ["Abstract", "AbstractText"], Null);
    var abstractValue :- AbstractOf(abstractText);
    Ok(Article(pmcIds, year, date, authors, keywords, title, abstractValue))
  }

  /** The record of one article: "PubMed" as source, "NA" sections, no
      figures, and the url `_get_url` chose. */
  function PubMedRecord(searchkey: string, a: Article, citations: nat, url: Value): Success
  {
    NewSuccess(Str(ClassName(PubMed)), Str(searchkey), a.publishedYear, Str(a.publishedDate),
               List(a.authors), List(a.keywords), Int(citations), a.title, a.abstractText,
               Str("NA"), Str("NA"), Str("NA"), List([]), url)
  }

  lemma PubMedRecordFields(searchkey: string, a: Article, citations: nat, url: Value)
    ensures var s := PubMedRecord(searchkey, a, citations, url);
      && Field(s, "source") == Some(Str("PubMed"))
      && Field(s, "searchkey") == Some(Str(searchkey))
      && Field(s, "citations") == Some(Int(citations))
      && Field(s, "keywords") == Some(List(a.keywords))
      && Field(s, "title") == Some(a.title)
      && Field(s, "abstract") == Some(a.abstractText)
      && Field(s, "introduction") == Some(Str("NA")) && Field(s, "results") == Some(Str("NA"))
      && Field(s, "conclusion") == Some(Str("NA")) && Field(s, "figures") == Some(List([]))
      && Field(s, "pdf_url") == Some(url)
      && Field(s, "metadata") == Some(Dict([("published_year", a.publishedYear),
                                            ("published_date", Str(a.publishedDate)),
                                            ("authors", List(a.authors))]))
  {
    NewSuccessFields(Str(ClassName(PubMed)), Str(searchkey), a.publishedYear, Str(a.publishedDate),
                     List(a.authors), List(a.keywords), Int(citations), a.title, a.abstractText,
                     Str("NA"), Str("NA"), Str("NA"), List([]), url, PubMedRecord(searchkey, a, citations, url));
  }

  /** `_process_article`. */
  function ArticleRecord(searchkey: string, entry: Value, head: string -> HeadResult): Result<Success>
  {
    var a :- ArticleOf(entry);
    var refList :- Dig(entry, ["PubmedData", "ReferenceList"], EmptyDict);
    var citations :- Citations(refList);
    Ok(PubMedRecord(searchkey, a, citations, FirstHit(a.pmcIds, head)))
  }

  function ArticleFn(searchkey: string, head: string -> HeadResult): Value -> Result<Success>
  {
    entry => ArticleRecord(searchkey, entry, head)
  }

  method ProcessArticle(searchkey: string, entry: Value, head: string -> HeadResult) returns (r: Result<Success>)
    ensures r == ArticleRecord(searchkey, entry, head)
  {
    var a := ArticleOf(entry);
    if a.Raise? {
      return Raise(a.exn);
    }
    var refList := Dig(entry, ["PubmedData", "ReferenceList"], EmptyDict);
    if refList.Raise? {
      return Raise(refList.exn);
    }
    var citations := Citations(refList.value);
    if citations.Raise? {
      return Raise(citations.exn);
    }
    var url := GetUrl(a.value.pmcIds, head);
    return Ok(PubMedRecord(searchkey, a.value, citations.value, url));
  }

  // ---------------------------------------------------------------------------
  // search

  /** The esearch reply: its status, and its decoded JSON body when 200; or
      the exception the request or the JSON decoding raised. */
  datatype IdsReply = IdsReply(status: int, body: Value) | IdsRaised(exn: Exn)

  /** The efetch reply: its status, and the decoded XML tree (None when the
      decoder raised); or the exception the request raised. */
  datatype DetailsReply = DetailsReply(status: int, parsed: Option<Value>) | DetailsRaised(exn: Exn)

  /** The details fetch did not give a decoded tree: the request raised, it
      did not answer 200, or its body did not decode. */
  predicate DetailsFailed(details: DetailsReply)
  {
    details.DetailsRaised? || details.status != 200 || details.parsed.None?
  }

  /** The esearch parameter names, in the order `_get_ids` writes them. */
  const IdsKeys: seq<string> := ["db", "retmode", "retmax", "retstart", "term"]

  /** The esearch parameters of `_get_ids`: the page starts at the token's
      `retstart` (0 by default) and the term is the quoted key in titles,
      within three words, among free full texts. A token that is not a dict
      has no `.get`. */
  function IdsParams(searchkey: string, token: Value): (r: Result<seq<(string, Value)>>)
    ensures r.Ok? <==> token.Dict?
    ensures r.Ok? ==> Keys(r.value) == IdsKeys
  {
    match token
    case Dict(entries) =>
      Ok([("db", Str("pubmed")), ("retmode", Str("json")), ("retmax", Int(10000)),
          ("retstart", Lookup(entries, "retstart").GetOr(Int(0))),
          ("term", Str("\"" + searchkey + "\"[Title:~3] AND free full text[sb]"))])
    case _ => Raise(AttributeError)
  }

  /** In a dict with the esearch key order, "retstart" and "term" find their
      own values. */
  lemma IdsKeysLookup(p: seq<(string, Value)>)
    requires Keys(p) == IdsKeys
    ensures Lookup(p, "retstart") == Some(p[3].1)
    ensures Lookup(p, "term") == Some(p[4].1)
  {
    forall k | 0 <= k < 5 ensures Keys(p)[k] == p[k].0 {}
    assert |p[0].0| != 8 && |p[1].0| != 8 && |p[2].0| != 8;
    LookupFirst(p, 3);
    assert |p[0].0| != 4 && |p[1].0| != 4 && |p[2].0| != 4 && |p[3].0| != 4;
    LookupFirst(p, 4);
  }

  /** For a dict token, the page starts at its `retstart`, 0 when it has
      none, and the term asks for free full texts with the key in the title. */
  lemma IdsParamsPage(searchkey: string, token: seq<(string, Value)>)
    ensures IdsParams(searchkey, Dict(token)).Ok?
    ensures Lookup(IdsParams(searchkey, Dict(token)).value, "retstart") == Some(Lookup(token, "retstart").GetOr(Int(0)))
    ensures Lookup(IdsParams(searchkey, Dict(token)).value, "term")
            == Some(Str("\"" + searchkey + "\"[Title:~3] AND free full text[sb]"))
  {
    IdsKeysLookup(IdsParams(searchkey, Dict(token)).value);
  }

  /** `','.join(ids)` succeeds: the ids iterate to strings. */
  predicate Joinable(ids: Value)
  {
    Iter(ids).Ok? && forall k :: 0 <= k < |Iter(ids).value| ==> Iter(ids).value[k].Str?
  }

  /** `search`, with `ids` the esearch reply to the parameters and `details`
      the efetch reply: building the parameters from a token that is not a
      dict raises, outside the `try`; a failed id lookup and any failure of
      the details fetch (an unjoinable id list, a non-200 status, whose
      `Redo(searchkey="id", token=token)` itself raises for want of a
      client, or an undecodable body) become a `Redo` of the same search;
      otherwise one record per `PubmedArticle`, in order. */
  function SearchSpec(searchkey: string, token: Value, ids: seq<(string, Value)> -> IdsReply,
                      details: DetailsReply, head: string -> HeadResult): Result<Outcome>
  {
    var params :- IdsParams(searchkey, token);
    var reply := ids(params);
    if reply.IdsRaised? then Raise(reply.exn)
    else if reply.status != 200 then Ok(OfRedo(Redo(searchkey, PubMed, token)))
    else
      var idlist :- Dig(reply.body, ["esearchresult", "idlist"], EmptyList);
      if !Joinable(idlist) || DetailsFailed(details) then
        Ok(OfRedo(Redo(searchkey, PubMed, token)))
      else
        var articles :- Dig(details.parsed.value, ["PubmedArticleSet", "PubmedArticle"], EmptyList);
        var entries :- Iter(articles);
        var records :- MapAll(entries, ArticleFn(searchkey, head));
        Ok(OfRecords(records))
  }

  method Search(searchkey: string, token: Value, ids: seq<(string, Value)> -> IdsReply,
                details: DetailsReply, head: string -> HeadResult) returns (r: Result<Outcome>)
    ensures r == SearchSpec(searchkey, token, ids, details, head)
  {
    var params := IdsParams(searchkey, token);
    if params.Raise? {
      return Raise(params.exn);
    }
    var reply := ids(params.value);
    if reply.IdsRaised? {
      return Raise(reply.exn);
    }
    if reply.status != 200 {
      return Ok(OfRedo(Redo(searchkey, PubMed, token)));
    }
    var idlist := Dig(reply.body, ["esearchresult", "idlist"], EmptyList);
    if idlist.Raise? {
      return Raise(idlist.exn);
    }
    if !Joinable(idlist.value) || DetailsFailed(details) {
      return Ok(OfRedo(Redo(searchkey, PubMed, token)));
    }
    var articles := Dig(details.parsed.value, ["PubmedArticleSet", "PubmedArticle"], EmptyList);
    if articles.Raise? {
      return Raise(articles.exn);
    }
    var iterated := Iter(articles.value);
    if iterated.Raise? {
      return Raise(iterated.exn);
    }
    var records := ProcessArticles(searchkey, iterated.value, head);
    if records.Raise? {
      return Raise(records.exn);
    }
    return Ok(OfRecords(records.value));
  }

  /** The articles one after another; the first one that raises ends the search. */
  method ProcessArticles(searchkey: string, entries: seq<Value>, head: string -> HeadResult)
    returns (r: Result<seq<Success>>)
    ensures r == MapAll(entries, ArticleFn(searchkey, head))
  {
    var records: seq<Success> := [];
    for k := 0 to |entries|
      invariant MapAll(entries[..k], ArticleFn(searchkey, head)) == Ok(records)
    {
      TakeSnoc(entries, k);
      MapAllSnoc(entries[..k], entries[k], ArticleFn(searchkey, head));
      var record := ProcessArticle(searchkey, entries[k], head);
      assert record == ArticleFn(searchkey, head)(entries[k]);
      if record.Raise? {
        MapAllStops(entries, k, ArticleFn(searchkey, head));
        return Raise(record.exn);
      }
      records := records + [record.value];
    }
    assert entries[..|entries|] == entries;
    return Ok(records);
  }

  /** The id lookup and the details fetch reached the articles. */
  predicate Fetched(ids: IdsReply, details: DetailsReply, articles: Value)
  {
    && ids.IdsReply? && ids.status == 200
    && Dig(ids.body, ["esearchresult", "idlist"], EmptyList).Ok?
    && Joinable(Dig(ids.body, ["esearchresult", "idlist"], EmptyList).value)
    && !DetailsFailed(details)
    && Dig(details.parsed.value, ["PubmedArticleSet", "PubmedArticle"], EmptyList) == Ok(articles)
  }

  /** A token that is not a dict makes `search` raise AttributeError before
      any request is made. */
  lemma NonDictTokenRaises(searchkey: string, token: Value, ids: seq<(string, Value)> -> IdsReply,
                           details: DetailsReply, head: string -> HeadResult)
    requires !token.Dict?
    ensures SearchSpec(searchkey, token, ids, details, head) == Raise(AttributeError)
  {
  }

  /** The two requests fail differently: an esearch request that raises
      (or a 200 body that is not JSON) leaves `search`, no `try` being around
      it, while an efetch request that raises is caught and asks for the
      same search again with the same token. */
  lemma RequestFailures(searchkey: string, token: Value, ids: seq<(string, Value)> -> IdsReply,
                        details: DetailsReply, head: string -> HeadResult, e: Exn)
    requires token.Dict?
    ensures ids(IdsParams(searchkey, token).value) == IdsRaised(e) ==>
              SearchSpec(searchkey, token, ids, details, head) == Raise(e)
    ensures var reply := ids(IdsParams(searchkey, token).value);
            reply.IdsReply? && reply.status == 200 &&
            Dig(reply.body, ["esearchresult", "idlist"], EmptyList).Ok? && details == DetailsRaised(e) ==>
              SearchSpec(searchkey, token, ids, details, head) == Ok(OfRedo(Redo(searchkey, PubMed, token)))
  {
  }

  /** For a dict token, a failed id lookup, or a details fetch that raises,
      does not answer 200 or does not decode, asks for the same search again
      with the same token. */
  lemma SearchRedo(searchkey: string, token: Value, ids: seq<(string, Value)> -> IdsReply,
                   details: DetailsReply, head: string -> HeadResult)
    requires token.Dict?
    requires var reply := ids(IdsParams(searchkey, token).value);
             reply.IdsReply? &&
             (reply.status != 200 ||
              (Dig(reply.body, ["esearchresult", "idlist"], EmptyList).Ok? && DetailsFailed(details)))
    ensures SearchSpec(searchkey, token, ids, details, head) == Ok(OfRedo(Redo(searchkey, PubMed, token)))
  {
  }

  /** Once the articles are fetched there is one record per article, in
      order, unless an article raises; then the first one that does decides. */
  lemma SearchRecords(searchkey: string, token: Value, ids: seq<(string, Value)> -> IdsReply,
                      details: DetailsReply, head: string -> HeadResult, articles: seq<Value>)
    requires token.Dict? && Fetched(ids(IdsParams(searchkey, token).value), details, List(articles))
    ensures var r := SearchSpec(searchkey, token, ids, details, head);
            && (r.Ok? <==> forall k :: 0 <= k < |articles| ==> ArticleRecord(searchkey, articles[k], head).Ok?)
            && (r.Ok? ==> r.value.OfRecords? && |r.value.records| == |articles| &&
                          forall k :: 0 <= k < |articles| ==>
                            r.value.records[k] == ArticleRecord(searchkey, articles[k], head).value)
  {
    var f := ArticleFn(searchkey, head);
    MapAllMeans(articles, f);
    assert forall k :: 0 <= k < |articles| ==> f(articles[k]) == ArticleRecord(searchkey, articles[k], head);
  }

  /** A lone `PubmedArticle` is not wrapped into a list here: iterating the
      dict visits its key strings, and reading an article from a string
      raises. */
  lemma SingleArticleRaises(searchkey: string, token: Value, ids: seq<(string, Value)> -> IdsReply,
                            details: DetailsReply, head: string -> HeadResult, entries: seq<(string, Value)>)
    requires token.Dict? && entries != [] && Fetched(ids(IdsParams(searchkey, token).value), details, Dict(entries))
    ensures SearchSpec(searchkey, token, ids, details, head) == Raise(AttributeError)
  {
    var items := Iter(Dict(entries)).value;
    assert items[0] == Str(entries[0].0);
    assert ArticleFn(searchkey, head)(items[0]) == Raise(AttributeError);
    assert items[..0] == [];
    MapAllStops(items, 0, ArticleFn(searchkey, head));
  }
}

=== FILE: results.dfy ===
/** The three kinds of provider outcome of the application package
    (app/searchlib/results.py): a `Success` record, a `Partial` page with its
    continuation, and a `Redo` that asks for the same search again. */
module Results {
  import opened PyValue

  /** The provider clients; `self.__class__.__name__` is their name. */
  datatype Provider = SemanticScholar | PubMed | Dynamed

  function ClassName(p: Provider): string
  {
    match p
    case SemanticScholar => "SemanticScholar"
    case PubMed => "PubMed"
    case Dynamed => "Dynamed"
  }

  /** A canonical record: only its `data` dict is kept. */
  datatype Success = Success(data: Value)

  /** The same search (keyword, client, continuation token) to run again. */
  datatype Redo = Redo(searchkey: string, client: Provider, token: Value)

  /** The records of one page and the request for the next page. */
  datatype Partial = Partial(successes: seq<Success>, redo: Redo)

  /** What one provider call returns: a plain list of records, a `Partial`
      or a `Redo`. */
  datatype Outcome =
    | OfRecords(records: seq<Success>)
    | OfPartial(partial: Partial)
    | OfRedo(redo: Redo)

  const NoUrl := "unsupported (no URL)"

  /** The value of `key` in a record's data, if present. */
  function Field(s: Success, key: string): Option<Value>
  {
    if s.data.Dict? then Lookup(s.data.entries, key) else None
  }

  /** The key order of the data dict built by `Success(...)`. */
  const SuccessKeys: seq<string> :=
    ["source", "searchkey", "metadata", "keywords", "citations", "title", "abstract",
     "introduction", "results", "conclusion", "figures", "pdf_url", "ai_processed"]

  const MetadataKeys: seq<string> := ["published_year", "published_date", "authors"]

  /** The data dict of `Success(...)`, in the order the constructor builds it. */
  function Layout(source: Value, searchkey: Value, publishedYear: Value,
                  publishedDate: Value, authors: Value, keywords: Value,
                  citations: Value, title: Value, abstractText: Value,
                  introduction: Value, results: Value, conclusion: Value,
                  figures: Value, pdfUrl: Value, flag: Value): seq<(string, Value)>
  {
    [("source", source), ("searchkey", searchkey),
     ("metadata", Dict([("published_year", publishedYear),
                        ("published_date", publishedDate),
                        ("authors", authors)])),
     ("keywords", keywords), ("citations", citations), ("title", title),
     ("abstract", abstractText), ("introduction", introduction),
     ("results", results), ("conclusion", conclusion),
     ("figures", figures), ("pdf_url", pdfUrl), ("ai_processed", flag)]
  }

  lemma SuccessKeysDistinct()
    ensures forall j, k :: 0 <= j < k < |SuccessKeys| ==> SuccessKeys[j] != SuccessKeys[k]
  {
    forall j, k | 0 <= j < k < |SuccessKeys| ensures SuccessKeys[j] != SuccessKeys[k] {
      assert || |SuccessKeys[j]| != |SuccessKeys[k]|
             || SuccessKeys[j][0] != SuccessKeys[k][0];
    }
  }

  /** Each key of the layout finds the value stored beside it. */
  lemma LayoutLookup(e: seq<(string, Value)>, k: nat)
    requires Keys(e) == SuccessKeys && k < 13
    ensures Lookup(e, SuccessKeys[k]) == Some(e[k].1)
  {
    SuccessKeysDistinct();
    assert Keys(e)[k] == e[k].0;
    forall j | 0 <= j < k ensures e[j].0 != e[k].0 {
      assert Keys(e)[j] == e[j].0;
    }
    LookupFirst(e, k);
  }

  /** In a dict with the record's key order, every key finds the value at
      its own position. */
  lemma LayoutFields(e: seq<(string, Value)>)
    requires Keys(e) == SuccessKeys
    ensures Lookup(e, "source") == Some(e[0].1)
    ensures Lookup(e, "searchkey") == Some(e[1].1)
    ensures Lookup(e, "metadata") == Some(e[2].1)
    ensures Lookup(e, "keywords") == Some(e[3].1)
    ensures Lookup(e, "citations") == Some(e[4].1)
    ensures Lookup(e, "title") == Some(e[5].1)
    ensures Lookup(e, "abstract") == Some(e[6].1)
    ensures Lookup(e, "introduction") == Some(e[7].1)
    ensures Lookup(e, "results") == Some(e[8].1)
    ensures Lookup(e, "conclusion") == Some(e[9].1)
    ensures Lookup(e, "figures") == Some(e[10].1)
    ensures Lookup(e, "pdf_url") == Some(e[11].1)
    ensures Lookup(e, "ai_processed") == Some(e[12].1)
  {
    LayoutLookup(e, 0); LayoutLookup(e, 1); LayoutLookup(e, 2); LayoutLookup(e, 3);
    LayoutLookup(e, 4); LayoutLookup(e, 5); LayoutLookup(e, 6); LayoutLookup(e, 7);
    LayoutLookup(e, 8); LayoutLookup(e, 9); LayoutLookup(e, 10); LayoutLookup(e, 11);
    LayoutLookup(e, 12);
  }

  /** `Success(...)`: the data dict of the layout, with "ai_processed"
      False when the pdf url is truthy and "unsupported (no URL)" otherwise. */
  function NewSuccess(source: Value, searchkey: Value, publishedYear: Value,
                      publishedDate: Value, authors: Value, keywords: Value,
                      citations: Value, title: Value, abstractText: Value,
                      introduction: Value, results: Value, conclusion: Value,
                      figures: Value, pdfUrl: Value): (s: Success)
    ensures s.data.Dict?
  {
    Success(Dict(Layout(source, searchkey, publishedYear, publishedDate, authors, keywords,
                        citations, title, abstractText, introduction, results, conclusion,
                        figures, pdfUrl, if Truthy(pdfUrl) then Bool(false) else Str(NoUrl))))
  }

  /** Every argument is stored unchanged under its own key, the year, date
      and authors under "metadata"; "ai_processed" starts False when the pdf
      url is truthy and is "unsupported (no URL)" otherwise. */
  lemma NewSuccessFields(source: Value, searchkey: Value, publishedYear: Value,
                         publishedDate: Value, authors: Value, keywords: Value,
                         citations: Value, title: Value, abstractText: Value,
                         introduction: Value, results: Value, conclusion: Value,
                         figures: Value, pdfUrl: Value, s: Success)
    requires s == NewSuccess(source, searchkey, publishedYear, publishedDate, authors, keywords,
                             citations, title, abstractText, introduction, results, conclusion,
                             figures, pdfUrl)
    ensures Keys(s.data.entries) == SuccessKeys
    ensures Field(s, "source") == Some(source)
    ensures Field(s, "searchkey") == Some(searchkey)
    ensures Field(s, "keywords") == Some(keywords)
    ensures Field(s, "citations") == Some(citations)
    ensures Field(s, "title") == Some(title)
    ensures Field(s, "abstract") == Some(abstractText)
    ensures Field(s, "introduction") == Some(introduction)
    ensures Field(s, "results") == Some(results)
    ensures Field(s, "conclusion") == Some(conclusion)
    ensures Field(s, "figures") == Some(figures)
    ensures Field(s, "pdf_url") == Some(pdfUrl)
    ensures Field(s, "metadata") == Some(Dict([("published_year", publishedYear),
                                               ("published_date", publishedDate),
                                               ("authors", authors)]))
    ensures Field(s, "ai_processed") == Some(if Truthy(pdfUrl) then Bool(false) else Str(NoUrl))
  {
    var flag := if Truthy(pdfUrl) then Bool(false) else Str(NoUrl);
    var e := Layout(source, searchkey, publishedYear, publishedDate, authors, keywords,
                    citations, title, abstractText, introduction, results, conclusion,
                    figures, pdfUrl, flag);
    assert Keys(e) == SuccessKeys;
    LayoutFields(e);
  }

  /** Whatever the pdf url, the flag is the only field the check touches:
      two records built from the same arguments but for the url differ only
      in "pdf_url" and "ai_processed". */
  lemma UrlCheckTouchesOnlyFlag(source: Value, searchkey: Value, publishedYear: Value,
                                publishedDate: Value, authors: Value, keywords: Value,
                                citations: Value, title: Value, abstractText: Value,
                                introduction: Value, results: Value, conclusion: Value,
                                figures: Value, url1: Value, url2: Value, key: string)
    requires key != "pdf_url" && key != "ai_processed"
    ensures Field(NewSuccess(source, searchkey, publishedYear, publishedDate, authors, keywords,
                             citations, title, abstractText, introduction, results, conclusion,
                             figures, url1), key)
         == Field(NewSuccess(source, searchkey, publishedYear, publishedDate, authors, keywords,
                             citations, title, abstractText, introduction, results, conclusion,
                             figures, url2), key)
  {
    var f1 := if Truthy(url1) then Bool(false) else Str(NoUrl);
    var f2 := if Truthy(url2) then Bool(false) else Str(NoUrl);
    var e1 := Layout(source, searchkey, publishedYear, publishedDate, authors, keywords,
                     citations, title, abstractText, introduction, results, conclusion,
                     figures, url1, f1);
    var e2 := Layout(source, searchkey, publishedYear, publishedDate, authors, keywords,
                     citations, title, abstractText, introduction, results, conclusion,
                     figures, url2, f2);
    assert e1[..11] == e2[..11];
    forall k | 0 <= k < 13 ensures e1[k].0 == e2[k].0 && (e1[k].0 == key ==> e1[k].1 == e2[k].1) {
      if k < 11 {
        assert e1[k] == e1[..11][k];
      }
    }
    LookupAgree(e1, e2, key);
  }
}

=== FILE: semantic_scholar.dfy ===
/** The Semantic Scholar client of the application package
    (app/searchlib/semantic_scholar.py): one bulk-search request, one record
    per returned entry, and a `Partial` when the reply carries a
    continuation token. */
module ScholarSearch {
  import opened PyValue
  import opened Results
  import opened Papers

  const Fields: string :=
    "title,abstract,publicationDate,authors,year,influentialCitationCount,openAccessPdf," +
    "citationCount,publicationTypes,fieldsOfStudy,s2FieldsOfStudy"

  /** `f'{current_year-10}-{current_year}'`. */
  function YearRange(currentYear: int): string
  {
    IntToString(currentYear - 10) + "-" + IntToString(currentYear)
  }

  /** The parameters before the token: the quoted key, the fields, the last
      ten years and the citation order. */
  function BaseParams(searchkey: string, currentYear: int): seq<(string, Value)>
  {
    [("query", Str("\"" + searchkey + "\"")), ("fields", Str(Fields)),
     ("year", Str(YearRange(currentYear))), ("sort", Str("citationCount:desc"))]
  }

  /** `params['token'] = token` only when the incoming token is truthy. */
  function Params(searchkey: string, currentYear: int, token: Value): seq<(string, Value)>
  {
    var base := BaseParams(searchkey, currentYear);
    if Truthy(token) then SetKey(base, "token", token) else base
  }

  const ParamKeys: seq<string> := ["query", "fields", "year", "sort"]

  /** In a dict with the parameters' key order, "query" and "year" find
      their own values and no "token" is present. */
  lemma ParamKeysLookup(base: seq<(string, Value)>)
    requires Keys(base) == ParamKeys
    ensures Lookup(base, "query") == Some(base[0].1)
    ensures Lookup(base, "year") == Some(base[2].1)
    ensures "token" !in Keys(base)
  {
    assert Keys(base)[0] == base[0].0 && Keys(base)[1] == base[1].0 && Keys(base)[2] == base[2].0;
    LookupFirst(base, 0);
    assert base[0].0[0] != 'y' && base[1].0[0] != 'y';
    LookupFirst(base, 2);
    forall k | 0 <= k < 4 ensures Keys(base)[k] != "token" {
      assert Keys(base)[k][0] != 't';
    }
  }

  /** The request carries the token exactly when it is truthy, and then
      unchanged; the query is the key in double quotes and the year range
      ends at the current year and starts ten years before. */
  lemma ParamsMeaning(searchkey: string, currentYear: int, token: Value)
    ensures var p := Params(searchkey, currentYear, token);
            && ("token" in Keys(p) <==> Truthy(token))
            && (Truthy(token) ==> Lookup(p, "token") == Some(token))
            && Lookup(p, "query") == Some(Str("\"" + searchkey + "\""))
            && Lookup(p, "year") == Some(Str(IntToString(currentYear - 10) + "-" + IntToString(currentYear)))
  {
    var base := BaseParams(searchkey, currentYear);
    assert Keys(base) == ParamKeys;
    ParamKeysLookup(base);
    if Truthy(token) {
      SetKeyKeys(base, "token", token);
      SetKeyLookup(base, "token", token, "query");
      SetKeyLookup(base, "token", token, "year");
    }
  }

  /** The record of one entry: "SemanticScholar" as source, no keywords,
      "NA" sections, no figures. */
  function ScholarRecord(searchkey: string, p: Paper, citations: Value, url: Value): Success
  {
    NewSuccess(Str(ClassName(SemanticScholar)), Str(searchkey), p.publishedYear, p.publishedDate,
               List(p.authors), List([]), citations, p.title, p.abstractText,
               Str("NA"), Str("NA"), Str("NA"), List([]), url)
  }

  lemma ScholarRecordFields(searchkey: string, p: Paper, citations: Value, url: Value)
    ensures var s := ScholarRecord(searchkey, p, citations, url);
      && Field(s, "source") == Some(Str("SemanticScholar"))
      && Field(s, "searchkey") == Some(Str(searchkey))
      && Field(s, "keywords") == Some(List([]))
      && Field(s, "citations") == Some(citations)
      && Field(s, "title") == Some(p.title)
      && Field(s, "abstract") == Some(p.abstractText)
      && Field(s, "introduction") == Some(Str("NA")) && Field(s, "results") == Some(Str("NA"))
      && Field(s, "conclusion") == Some(Str("NA")) && Field(s, "figures") == Some(List([]))
      && Field(s, "pdf_url") == Some(url)
      && Field(s, "metadata") == Some(Dict([("published_year", p.publishedYear),
                                            ("published_date", p.publishedDate),
                                            ("authors", List(p.authors))]))
  {
    NewSuccessFields(Str(ClassName(SemanticScholar)), Str(searchkey), p.publishedYear, p.publishedDate,
                     List(p.authors), List([]), citations, p.title, p.abstractText,
                     Str("NA"), Str("NA"), Str("NA"), List([]), url,
                     ScholarRecord(searchkey, p, citations, url));
  }

  /** One `Success(...)` of the loop, its arguments evaluated in order. */
  function EntryRecord(searchkey: string, data: Value): Result<Success>
  {
    var p :- PaperOf(data);
    var citations :- Get(data, "citationCount", Int(0));
    var url :- PdfUrlOf(data);
    Ok(ScholarRecord(searchkey, p, citations, url))
  }

  function EntryFn(searchkey: string): Value -> Result<Success>
  {
    data => EntryRecord(searchkey, data)
  }

  /** The records of a reply: one per entry of its `data`, in order. */
  function RecordsOf(searchkey: string, response: Value): Result<seq<Success>>
  {
    DataRecords(response, EntryFn(searchkey))
  }

  /** The records, wrapped in a `Partial` that continues with the reply's
      token when that is truthy. */
  function OutcomeOf(searchkey: string, response: Value): Result<Outcome>
  {
    var records :- RecordsOf(searchkey, response);
    var next :- Get(response, "token", Null);
    if Truthy(next) then Ok(OfPartial(Partial(records, Redo(searchkey, SemanticScholar, next))))
    else Ok(OfRecords(records))
  }

  /** `search(self, api_key, searchkey, token)` against the reply `get`
      gives for the request. */
  function SearchSpec(apiKey: Value, searchkey: string, currentYear: int, token: Value,
                      get: Request -> Value): Result<Outcome>
  {
    OutcomeOf(searchkey, get(Request(Params(searchkey, currentYear, token), Headers(apiKey))))
  }

  method Search(apiKey: Value, searchkey: string, currentYear: int, token: Value,
                get: Request -> Value) returns (r: Result<Outcome>)
    ensures r == SearchSpec(apiKey, searchkey, currentYear, token, get)
  {
    var params := BaseParams(searchkey, currentYear);
    if Truthy(token) {
      params := SetKey(params, "token", token);
    }
    var headers: seq<(string, Value)> := [];
    if Truthy(apiKey) {
      headers := SetKey(headers, "X-API-KEY", apiKey);
    }
    assert params == Params(searchkey, currentYear, token);
    assert headers == Headers(apiKey);
    var response := get(Request(params, headers));
    var result := ReadRecords(response, EntryFn(searchkey));
    if result.Raise? {
      return Raise(result.exn);
    }
    var next := Get(response, "token", Null);
    if next.Raise? {
      return Raise(next.exn);
    }
    if Truthy(next.value) {
      return Ok(OfPartial(Partial(result.value, Redo(searchkey, SemanticScholar, next.value))));
    }
    return Ok(OfRecords(result.value));
  }

  /** The reply as a dict `e` whose `data` is a list: a truthy token gives a
      `Partial` that asks for this search again with that token, anything
      else the plain list; either way one record per entry, in order, unless
      an entry raises. */
  lemma SearchPages(apiKey: Value, searchkey: string, currentYear: int, token: Value,
                    get: Request -> Value, e: seq<(string, Value)>, entries: seq<Value>)
    requires get(Request(Params(searchkey, currentYear, token), Headers(apiKey))) == Dict(e)
    requires Lookup(e, "data").GetOr(EmptyList) == List(entries)
    ensures var r := SearchSpec(apiKey, searchkey, currentYear, token, get);
            var next := Lookup(e, "token").GetOr(Null);
            && (r.Ok? <==> forall k :: 0 <= k < |entries| ==> EntryRecord(searchkey, entries[k]).Ok?)
            && (r.Ok? && Truthy(next) ==>
                  r.value.OfPartial? && r.value.partial.redo == Redo(searchkey, SemanticScholar, next))
            && (r.Ok? && !Truthy(next) ==> r.value.OfRecords?)
            && (r.Ok? ==>
                  var records := if r.value.OfPartial? then r.value.partial.successes else r.value.records;
                  |records| == |entries| &&
                  forall k :: 0 <= k < |entries| ==> records[k] == EntryRecord(searchkey, entries[k]).value)
  {
    var f := EntryFn(searchkey);
    MapAllMeans(entries, f);
    assert forall k :: 0 <= k < |entries| ==> f(entries[k]) == EntryRecord(searchkey, entries[k]);
  }

  /** An entry with authors of dict shape yields its record with the
      documented defaults: no citation count reads 0, no open-access pdf
      reads "". */
  lemma EntryDefaults(searchkey: string, e: seq<(string, Value)>, authors: seq<Value>)
    requires Lookup(e, "authors").GetOr(EmptyList) == List(authors)
    requires forall k :: 0 <= k < |authors| ==> authors[k].Dict?
    requires Lookup(e, "openAccessPdf").GetOr(Null) == Null
    ensures EntryRecord(searchkey, Dict(e)).Ok?
    ensures EntryRecord(searchkey, Dict(e)).value ==
              ScholarRecord(searchkey, PaperOf(Dict(e)).value,
                            Lookup(e, "citationCount").GetOr(Int(0)), Str(""))
  {
    PaperFields(e, authors);
    PdfUrlCases(e);
  }
}

=== FILE: tables.dfy ===
/** The table half of the PDF processor (app/ai/processor.py, `extract_tables`):
    each table of the layout analysis becomes a grid of strings, every cell is
    copied over its row and column span, and the grid is rendered as Markdown
    rows with a separator after the first one. A table that raises anywhere is
    skipped as a whole. */
module Tables {
  import opened Text
  import opened PyValue

  /** A table being filled: a list of rows, each a list of cell values. */
  type Grid = seq<seq<Value>>

  /** Every row has `width` cells. */
  predicate Rect(g: Grid, width: nat)
  {
    forall r :: 0 <= r < |g| ==> |g[r]| == width
  }

  /** A value usable as a list index or a `range` bound (Python's bool is an int). */
  function AsInt(v: Value): (r: Option<int>)
    ensures r.Some? <==> v.Int? || v.Bool?
    ensures v.Int? ==> r == Some(v.i)
  {
    match v
    case Int(i) => Some(i)
    case Bool(b) => Some(if b then 1 else 0)
    case _ => None
  }

  /** `xs[i]` exists for a list of length n: negative indexes count from the end. */
  predicate ValidIdx(i: int, n: nat)
  {
    -(n as int) <= i < n
  }

  /** The position `xs[i]` designates. */
  function PyIndex(i: int, n: nat): (p: nat)
    requires ValidIdx(i, n)
    ensures p < n
    ensures p == i || p == i + n
  {
    if i >= 0 then i else i + n
  }

  /** `[['' for _ in range(columns)] for _ in range(rows)]`. */
  function NewGrid(rows: int, columns: int): (g: Grid)
    ensures |g| == (if rows < 0 then 0 else rows)
    ensures Rect(g, if columns < 0 then 0 else columns)
    ensures forall r, c :: 0 <= r < |g| && 0 <= c < |g[r]| ==> g[r][c] == Str("")
  {
    Repeat(Repeat(Str(""), columns), rows)
  }

  /** `g[r][c] = v` at positions already resolved. */
  function Write(g: Grid, r: nat, c: nat, v: Value): Grid
    requires r < |g| && c < |g[r]|
  {
    g[r := g[r][c := v]]
  }

  // ---------------------------------------------------------------------------
  // Which positions a cell reaches

  /** Position x of a dimension of length n is the one `start + k` designates. */
  predicate At(start: int, k: int, n: int, x: int)
  {
    x == start + k || x == start + k + n
  }

  /** Position x is designated by `start + k` for some `0 <= k < len`. */
  predicate Covers(start: int, len: int, n: int, x: int)
  {
    0 <= x - start < len || 0 <= x - start - n < len
  }

  lemma CoversMeans(start: int, len: int, n: int, x: int)
    ensures Covers(start, len, n, x) <==> exists k :: 0 <= k < len && At(start, k, n, x)
  {
    if Covers(start, len, n, x) {
      if 0 <= x - start < len {
        assert At(start, x - start, n, x);
      } else {
        assert At(start, x - start - n, n, x);
      }
    }
  }

  /** A cell anchored at (row, col) with spans rs and cs reaches (r, c): the
      anchor itself, or a position of its span block. */
  predicate Hit(row: int, col: int, nr: nat, nc: nat, rs: int, cs: int, r: int, c: int)
  {
    (At(row, 0, nr, r) && At(col, 0, nc, c)) || (Covers(row, rs, nr, r) && Covers(col, cs, nc, c))
  }

  /** What the writes of a cell have reached once the span rows before i are
      done, and the span columns before j of row i. */
  predicate Reached(row: int, col: int, nr: nat, nc: nat, i: int, j: int, cs: int, r: int, c: int)
  {
    || (At(row, 0, nr, r) && At(col, 0, nc, c))
    || (Covers(row, i, nr, r) && Covers(col, cs, nc, c))
    || (At(row, i, nr, r) && Covers(col, j, nc, c))
  }

  /** The grid g with every position the cell reaches set to v. */
  function Stamp(g: Grid, width: nat, row: int, col: int, rs: int, cs: int, v: Value): (s: Grid)
    requires Rect(g, width)
    ensures |s| == |g| && Rect(s, width)
  {
    seq(|g|, r requires 0 <= r < |g| =>
      seq(width, c requires 0 <= c < width =>
        if Hit(row, col, |g|, width, rs, cs, r, c) then v else g[r][c]))
  }

  /** The grid g with the positions reached so far set to v. */
  function Painted(g: Grid, width: nat, row: int, col: int, i: int, j: int, cs: int, v: Value): (p: Grid)
    requires Rect(g, width)
    ensures |p| == |g| && Rect(p, width)
  {
    seq(|g|, r requires 0 <= r < |g| =>
      seq(width, c requires 0 <= c < width =>
        if Reached(row, col, |g|, width, i, j, cs, r, c) then v else g[r][c]))
  }

  lemma GridEq(a: Grid, b: Grid, width: nat)
    requires |a| == |b| && Rect(a, width) && Rect(b, width)
    requires forall r, c :: 0 <= r < |a| && 0 <= c < width ==> a[r][c] == b[r][c]
    ensures a == b
  {
    forall r | 0 <= r < |a| ensures a[r] == b[r] {
      assert forall c :: 0 <= c < width ==> a[r][c] == b[r][c];
    }
  }

  // ---------------------------------------------------------------------------
  // One cell

  /** The fields a cell is read for, in the order the loop reads them: the
      indexes must be present (`cell['rowIndex']`), the content and spans
      default to '' and 1 (`cell.get(...)`). Anything but a dict raises. */
  function CellArgs(cell: Value): Option<(Value, Value, Value, Value, Value)>
  {
    if !cell.Dict? then None
    else
      var e := cell.entries;
      match Lookup(e, "rowIndex")
      case None => None
      case Some(row) =>
        match Lookup(e, "columnIndex")
        case None => None
        case Some(col) =>
          Some((row, col, Lookup(e, "content").GetOr(Str("")),
                Lookup(e, "columnSpan").GetOr(Int(1)), Lookup(e, "rowSpan").GetOr(Int(1))))
  }

  /** No write of the cell raises: the anchor lies inside the grid, the row
      span is a number, and when the span has rows the column span is a
      number and the whole block lies inside the grid. */
  predicate Fits(nr: nat, nc: nat, rowV: Value, colV: Value, colSpanV: Value, rowSpanV: Value)
  {
    && AsInt(rowV).Some? && AsInt(colV).Some?
    && ValidIdx(AsInt(rowV).value, nr) && ValidIdx(AsInt(colV).value, nc)
    && AsInt(rowSpanV).Some?
    && (AsInt(rowSpanV).value >= 1 ==> AsInt(colSpanV).Some?)
    && (AsInt(rowSpanV).value >= 1 && AsInt(colSpanV).GetOr(0) >= 1 ==>
          ValidIdx(AsInt(rowV).value + AsInt(rowSpanV).value - 1, nr) &&
          ValidIdx(AsInt(colV).value + AsInt(colSpanV).GetOr(0) - 1, nc))
  }

  /** The writes of a cell whose anchor lies inside the grid: None when
      one of them raises, the stamped grid otherwise. */
  function SpanSpec(g: Grid, width: nat, row: int, col: int, v: Value, colSpanV: Value, rs: int): (r: Option<Grid>)
    requires Rect(g, width)
    ensures r.Some? ==> |r.value| == |g| && Rect(r.value, width)
  {
    var cs := AsInt(colSpanV).GetOr(0);
    if rs >= 1 && AsInt(colSpanV).None? then None
    else if rs >= 1 && cs >= 1 && !(ValidIdx(row + rs - 1, |g|) && ValidIdx(col + cs - 1, width)) then None
    else Some(Stamp(g, width, row, col, rs, cs, v))
  }

  /** The grid after one cell, or None when the cell raises. */
  function CellSpec(g: Grid, width: nat, cell: Value): (r: Option<Grid>)
    requires Rect(g, width)
    ensures r.Some? ==> |r.value| == |g| && Rect(r.value, width)
  {
    match CellArgs(cell)
    case None => None
    case Some(args) =>
      var rowI, colI, rsI := AsInt(args.0), AsInt(args.1), AsInt(args.4);
      if rowI.None? || colI.None? || !ValidIdx(rowI.value, |g|) || !ValidIdx(colI.value, width) then None
      else if rsI.None? then None
      else SpanSpec(g, width, rowI.value, colI.value, args.2, args.3, rsI.value)
  }

  /** A cell is applied exactly when it fits, and then it stamps its content
      over its anchor and span block. */
  lemma CellSpecStamp(g: Grid, width: nat, cell: Value)
    requires Rect(g, width)
    ensures CellSpec(g, width, cell).Some? <==>
            CellArgs(cell).Some? &&
            (var a := CellArgs(cell).value; Fits(|g|, width, a.0, a.1, a.3, a.4))
    ensures CellSpec(g, width, cell).Some? ==>
            var a := CellArgs(cell).value;
            CellSpec(g, width, cell).value ==
              Stamp(g, width, AsInt(a.0).value, AsInt(a.1).value, AsInt(a.4).value, AsInt(a.3).GetOr(0), a.2)
  {
  }

  /** Every position of the span block of a cell that fits holds its content,
      and so does its anchor. */
  lemma StampBlock(g: Grid, width: nat, row: int, col: int, rs: int, cs: int, v: Value, i: int, j: int)
    requires Rect(g, width) && ValidIdx(row, |g|) && ValidIdx(col, width)
    requires rs >= 1 && cs >= 1 ==> ValidIdx(row + rs - 1, |g|) && ValidIdx(col + cs - 1, width)
    requires 0 <= i < rs && 0 <= j < cs
    ensures ValidIdx(row + i, |g|) && ValidIdx(col + j, width)
    ensures Stamp(g, width, row, col, rs, cs, v)[PyIndex(row + i, |g|)][PyIndex(col + j, width)] == v
    ensures Stamp(g, width, row, col, rs, cs, v)[PyIndex(row, |g|)][PyIndex(col, width)] == v
  {
    var r, c := PyIndex(row + i, |g|), PyIndex(col + j, width);
    assert Covers(row, rs, |g|, r) && Covers(col, cs, width, c);
  }

  /** The stamped grid holds v exactly at the anchor and at the positions
      some `(row + i, col + j)` of the span block designates; everything else
      keeps its old value. */
  lemma StampAt(g: Grid, width: nat, row: int, col: int, rs: int, cs: int, v: Value, r: nat, c: nat)
    requires Rect(g, width) && r < |g| && c < width
    ensures Stamp(g, width, row, col, rs, cs, v)[r][c] ==
            if || (At(row, 0, |g|, r) && At(col, 0, width, c))
               || (exists i, j :: 0 <= i < rs && 0 <= j < cs && At(row, i, |g|, r) && At(col, j, width, c))
            then v else g[r][c]
  {
    CoversMeans(row, rs, |g|, r);
    CoversMeans(col, cs, width, c);
    if Covers(row, rs, |g|, r) && Covers(col, cs, width, c) {
      var i :| 0 <= i < rs && At(row, i, |g|, r);
      var j :| 0 <= j < cs && At(col, j, width, c);
      assert 0 <= i < rs && 0 <= j < cs && At(row, i, |g|, r) && At(col, j, width, c);
    }
  }

  lemma AnchorWrite(g: Grid, width: nat, row: int, col: int, cs: int, v: Value)
    requires Rect(g, width) && ValidIdx(row, |g|) && ValidIdx(col, width)
    ensures Write(g, PyIndex(row, |g|), PyIndex(col, width), v) == Painted(g, width, row, col, 0, 0, cs, v)
  {
    var w := Write(g, PyIndex(row, |g|), PyIndex(col, width), v);
    var p := Painted(g, width, row, col, 0, 0, cs, v);
    forall r, c | 0 <= r < |g| && 0 <= c < width ensures w[r][c] == p[r][c] {
    }
    GridEq(w, p, width);
  }

  lemma SkipAnchor(g: Grid, width: nat, row: int, col: int, cs: int, v: Value)
    requires Rect(g, width) && ValidIdx(row, |g|) && ValidIdx(col, width)
    ensures Painted(g, width, row, col, 0, 0, cs, v) == Painted(g, width, row, col, 0, 1, cs, v)
  {
    var p := Painted(g, width, row, col, 0, 0, cs, v);
    var q := Painted(g, width, row, col, 0, 1, cs, v);
    forall r, c | 0 <= r < |g| && 0 <= c < width ensures p[r][c] == q[r][c] {
    }
    GridEq(p, q, width);
  }

  lemma PaintStep(g: Grid, width: nat, row: int, col: int, i: int, j: int, cs: int, v: Value)
    requires Rect(g, width) && 0 <= i && 0 <= j
    requires ValidIdx(row + i, |g|) && ValidIdx(col + j, width)
    ensures Write(Painted(g, width, row, col, i, j, cs, v), PyIndex(row + i, |g|), PyIndex(col + j, width), v)
            == Painted(g, width, row, col, i, j + 1, cs, v)
  {
    var w := Write(Painted(g, width, row, col, i, j, cs, v), PyIndex(row + i, |g|), PyIndex(col + j, width), v);
    var q := Painted(g, width, row, col, i, j + 1, cs, v);
    forall r, c | 0 <= r < |g| && 0 <= c < width ensures w[r][c] == q[r][c] {
    }
    GridEq(w, q, width);
  }

  lemma RowDone(g: Grid, width: nat, row: int, col: int, i: int, cs: int, v: Value)
    requires Rect(g, width) && 0 <= i
    ensures Painted(g, width, row, col, i, if cs < 0 then 0 else cs, cs, v)
            == Painted(g, width, row, col, i + 1, 0, cs, v)
  {
    var p := Painted(g, width, row, col, i, if cs < 0 then 0 else cs, cs, v);
    var q := Painted(g, width, row, col, i + 1, 0, cs, v);
    forall r, c | 0 <= r < |g| && 0 <= c < width ensures p[r][c] == q[r][c] {
    }
    GridEq(p, q, width);
  }

  lemma PaintedStamp(g: Grid, width: nat, row: int, col: int, rs: int, cs: int, v: Value)
    requires Rect(g, width)
    ensures Painted(g, width, row, col, if rs < 0 then 0 else rs, 0, cs, v) == Stamp(g, width, row, col, rs, cs, v)
  {
    var p := Painted(g, width, row, col, if rs < 0 then 0 else rs, 0, cs, v);
    var s := Stamp(g, width, row, col, rs, cs, v);
    forall r, c | 0 <= r < |g| && 0 <= c < width ensures p[r][c] == s[r][c] {
    }
    GridEq(p, s, width);
  }

  /** The inner span loop for span row i: `table[row + i][col + j] = content`
      for every j in `range(cs)`, skipping the anchor. */
  method FillSpanRow(ghost g: Grid, width: nat, row: int, col: int, i: int, cs: int, content: Value, table: Grid)
    returns (res: Option<Grid>)
    requires Rect(g, width) && 0 <= i && ValidIdx(row, |g|) && ValidIdx(col, width)
    requires table == Painted(g, width, row, col, i, 0, cs, content)
    ensures res.Some? ==> res.value == Painted(g, width, row, col, i + 1, 0, cs, content)
    ensures res.None? <==> cs >= 1 && !(ValidIdx(row + i, |g|) && ValidIdx(col + cs - 1, width))
  {
    var cur := table;
    var j := 0;
    while j < cs
      invariant 0 <= j <= (if cs < 0 then 0 else cs)
      invariant cur == Painted(g, width, row, col, i, j, cs, content)
      invariant j >= 1 ==> ValidIdx(row + i, |g|) && ValidIdx(col + j - 1, width)
    {
      if i == 0 && j == 0 {
        SkipAnchor(g, width, row, col, cs, content);
      } else {
        if !ValidIdx(row + i, |cur|) || !ValidIdx(col + j, width) {
          return None;
        }
        PaintStep(g, width, row, col, i, j, cs, content);
        cur := Write(cur, PyIndex(row + i, |cur|), PyIndex(col + j, width), content);
      }
      j := j + 1;
    }
    RowDone(g, width, row, col, i, cs, content);
    return Some(cur);
  }

  /** The span loops of one cell, after its anchor is written. */
  method FillSpan(g: Grid, width: nat, row: int, col: int, content: Value, colSpanV: Value, rs: int)
    returns (res: Option<Grid>)
    requires Rect(g, width) && ValidIdx(row, |g|) && ValidIdx(col, width)
    ensures res == SpanSpec(g, width, row, col, content, colSpanV, rs)
  {
    var cs := AsInt(colSpanV).GetOr(0);
    var table := Write(g, PyIndex(row, |g|), PyIndex(col, width), content);
    AnchorWrite(g, width, row, col, cs, content);
    if rs >= 1 && AsInt(colSpanV).None? {
      // `range(col_span)` raises on the first span row
      return None;
    }
    var i := 0;
    while i < rs
      invariant 0 <= i <= (if rs < 0 then 0 else rs)
      invariant table == Painted(g, width, row, col, i, 0, cs, content)
      invariant i >= 1 && cs >= 1 ==> ValidIdx(row + i - 1, |g|) && ValidIdx(col + cs - 1, width)
    {
      var next := FillSpanRow(g, width, row, col, i, cs, content, table);
      if next.None? {
        return None;
      }
      table := next.value;
      i := i + 1;
    }
    PaintedStamp(g, width, row, col, rs, cs, content);
    return Some(table);
  }

  /** One iteration of the cell loop: `table[row][col] = content`, then the
      span loops. */
  method FillCell(g: Grid, width: nat, cell: Value) returns (res: Option<Grid>)
    requires Rect(g, width)
    ensures res == CellSpec(g, width, cell)
  {
    var args := CellArgs(cell);
    if args.None? {
      return None;
    }
    var rowI, colI := AsInt(args.value.0), AsInt(args.value.1);
    if rowI.None? || colI.None? || !ValidIdx(rowI.value, |g|) || !ValidIdx(colI.value, width) {
      return None;
    }
    var rsI := AsInt(args.value.4);
    if rsI.None? {
      return None;
    }
    res := FillSpan(g, width, rowI.value, colI.value, args.value.2, args.value.3, rsI.value);
  }

  /** The cell loop: the grid after every cell, or None once one raises. */
  function FillAll(g: Grid, width: nat, cells: seq<Value>): (r: Option<Grid>)
    requires Rect(g, width)
    ensures r.Some? ==> |r.value| == |g| && Rect(r.value, width)
    decreases |cells|
  {
    if cells == [] then Some(g)
    else match CellSpec(g, width, cells[0])
      case None => None
      case Some(next) => FillAll(next, width, cells[1..])
  }

  // ---------------------------------------------------------------------------
  // Rendering

  /** `" | ".join(row)` needs every cell to be a string. */
  function CellStrings(row: seq<Value>): (r: Option<seq<string>>)
    ensures r.Some? <==> forall k :: 0 <= k < |row| ==> row[k].Str?
    ensures r.Some? ==> |r.value| == |row| && forall k :: 0 <= k < |row| ==> r.value[k] == row[k].s
  {
    if row == [] then Some([])
    else if !row[0].Str? then None
    else match CellStrings(row[1..])
      case None => None
      case Some(rest) => Some([row[0].s] + rest)
  }

  /** The strings of every row, or None when some cell is not a string. */
  function RowStrings(rows: Grid): (r: Option<seq<seq<string>>>)
    ensures r.Some? ==> |r.value| == |rows|
  {
    if rows == [] then Some([])
    else match CellStrings(rows[0])
      case None => None
      case Some(head) =>
        match RowStrings(rows[1..])
        case None => None
        case Some(rest) => Some([head] + rest)
  }

  lemma {:induction false} RowStringsSnoc(rows: Grid, row: seq<Value>)
    ensures RowStrings(rows + [row]) ==
            if RowStrings(rows).Some? && CellStrings(row).Some?
            then Some(RowStrings(rows).value + [CellStrings(row).value]) else None
  {
    if rows == [] {
      assert rows + [row] == [row];
      assert [row][1..] == [];
      assert RowStrings([row][1..]) == Some([]);
      assert [row][0] == row;
      if CellStrings(row).Some? {
        assert [CellStrings(row).value] + [] == [CellStrings(row).value];
        assert RowStrings([row]) == Some([CellStrings(row).value]);
        assert RowStrings(rows).value + [CellStrings(row).value] == [CellStrings(row).value];
      }
    } else {
      assert (rows + [row])[0] == rows[0];
      assert (rows + [row])[1..] == rows[1..] + [row];
      RowStringsSnoc(rows[1..], row);
      if RowStrings(rows).Some? && CellStrings(row).Some? {
        var head, rest := CellStrings(rows[0]).value, RowStrings(rows[1..]).value;
        assert [head] + (rest + [CellStrings(row).value]) == ([head] + rest) + [CellStrings(row).value];
      }
    }
  }

  /** `"| " + " | ".join(cells) + " |"`. */
  function RowLine(cells: seq<string>): string
  {
    "| " + Join(" | ", cells) + " |"
  }

  /** The separator row: one `---` per column (none for a negative count). */
  function Separator(columns: int): string
  {
    RowLine(Repeat("---", columns))
  }

  function BodyLines(rows: seq<seq<string>>): (r: seq<string>)
    ensures |r| == |rows|
  {
    if rows == [] then [] else [RowLine(rows[0])] + BodyLines(rows[1..])
  }

  /** The Markdown lines of a table: its first row, the separator, the rest. */
  function Lines(rows: seq<seq<string>>, columns: int): seq<string>
  {
    if rows == [] then [] else [RowLine(rows[0]), Separator(columns)] + BodyLines(rows[1..])
  }

  lemma {:induction false} BodyLinesAt(rows: seq<seq<string>>, k: nat)
    requires k < |rows|
    ensures BodyLines(rows)[k] == RowLine(rows[k])
  {
    if k > 0 {
      BodyLinesAt(rows[1..], k - 1);
    }
  }

  /** A rendered table has one line per row plus the separator, which comes
      right after the first row; every other line is its row. */
  lemma LinesShape(rows: seq<seq<string>>, columns: int)
    ensures rows == [] ==> Lines(rows, columns) == []
    ensures rows != [] ==>
      && |Lines(rows, columns)| == |rows| + 1
      && Lines(rows, columns)[0] == RowLine(rows[0])
      && Lines(rows, columns)[1] == Separator(columns)
      && forall k :: 1 <= k < |rows| ==> Lines(rows, columns)[k + 1] == RowLine(rows[k])
  {
    if rows != [] {
      forall k | 1 <= k < |rows| ensures Lines(rows, columns)[k + 1] == RowLine(rows[k]) {
        BodyLinesAt(rows[1..], k - 1);
      }
    }
  }

  lemma {:induction false} BodyLinesSnoc(rows: seq<seq<string>>, row: seq<string>)
    ensures BodyLines(rows + [row]) == BodyLines(rows) + [RowLine(row)]
  {
    if rows == [] {
      assert rows + [row] == [row];
      assert [row][1..] == [];
    } else {
      assert (rows + [row])[1..] == rows[1..] + [row];
      BodyLinesSnoc(rows[1..], row);
    }
  }

  lemma LinesSnoc(rows: seq<seq<string>>, row: seq<string>, columns: int)
    ensures Lines(rows + [row], columns) ==
            Lines(rows, columns) + [RowLine(row)] + (if rows == [] then [Separator(columns)] else [])
  {
    if rows == [] {
      assert rows + [row] == [row];
      assert [row][1..] == [];
    } else {
      assert (rows + [row])[1..] == rows[1..] + [row];
      BodyLinesSnoc(rows[1..], row);
    }
  }

  /** `"\n\n".join(markdown_table) + "\n\n"`, or None when a row holds a
      cell that is not a string. */
  function Rendered(grid: Grid, columns: int): (r: Option<string>)
    ensures r.Some? <==> RowStrings(grid).Some?
    ensures r.Some? ==> |r.value| >= 2 && r.value[|r.value| - 2..] == "\n\n"
  {
    match RowStrings(grid)
    case None => None
    case Some(rows) => Some(Join("\n\n", Lines(rows, columns)) + "\n\n")
  }

  /** The rendering loop over `enumerate(table)`. */
  method Render(grid: Grid, columns: int) returns (text: Option<string>)
    ensures text == Rendered(grid, columns)
  {
    var lines: seq<string> := [];
    ghost var done: seq<seq<string>> := [];
    for i := 0 to |grid|
      invariant RowStrings(grid[..i]) == Some(done)
      invariant lines == Lines(done, columns)
    {
      var strs := CellStrings(grid[i]);
      RowStringsSnoc(grid[..i], grid[i]);
      assert grid[..i + 1] == grid[..i] + [grid[i]];
      if strs.None? {
        RowStringsPrefix(grid, i + 1);
        return None;
      }
      LinesSnoc(done, strs.value, columns);
      lines := lines + [RowLine(strs.value)];
      if i == 0 {
        lines := lines + [Separator(columns)];
      }
      done := done + [strs.value];
    }
    assert grid[..|grid|] == grid;
    text := Some(Join("\n\n", lines) + "\n\n");
  }

  /** A row that is not all strings makes the whole table fail. */
  lemma {:induction false} RowStringsPrefix(grid: Grid, n: nat)
    requires n <= |grid| && RowStrings(grid[..n]).None?
    ensures RowStrings(grid).None?
    decreases |grid| - n
  {
    if n < |grid| {
      RowStringsSnoc(grid[..n], grid[n]);
      assert grid[..n + 1] == grid[..n] + [grid[n]];
      RowStringsPrefix(grid, n + 1);
    } else {
      assert grid[..n] == grid;
    }
  }

  // ---------------------------------------------------------------------------
  // One table, all tables

  /** The body of the `try` for one table: its Markdown, or None when any step
      raises. The grid has `rowCount` rows; `columnCount` is only read as a
      number when there is a row to build. */
  function TableSpec(t: Value): Option<string>
  {
    var rc, cc := Index(t, "rowCount"), Index(t, "columnCount");
    if rc.Raise? || cc.Raise? || AsInt(rc.value).None? then None
    else
      var rows := AsInt(rc.value).value;
      if rows >= 1 && AsInt(cc.value).None? then None
      else
        var columns := AsInt(cc.value).GetOr(0);
        var cells := Index(t, "cells");
        if cells.Raise? || Iter(cells.value).Raise? then None
        else
          match FillAll(NewGrid(rows, columns), if columns < 0 then 0 else columns, Iter(cells.value).value)
          case None => None
          case Some(filled) => Rendered(filled, columns)
  }

  /** One iteration of the table loop, from reading the counts to rendering. */
  method TableMarkdown(t: Value) returns (text: Option<string>)
    ensures text == TableSpec(t)
  {
    var rc, cc := Index(t, "rowCount"), Index(t, "columnCount");
    if rc.Raise? || cc.Raise? || AsInt(rc.value).None? {
      return None;
    }
    var rows := AsInt(rc.value).value;
    if rows >= 1 && AsInt(cc.value).None? {
      return None;
    }
    var columns := AsInt(cc.value).GetOr(0);
    var width: nat := if columns < 0 then 0 else columns;
    var cellsV := Index(t, "cells");
    if cellsV.Raise? || Iter(cellsV.value).Raise? {
      return None;
    }
    var cells := Iter(cellsV.value).value;
    var table := NewGrid(rows, columns);
    ghost var start := table;
    for k := 0 to |cells|
      invariant Rect(table, width)
      invariant FillAll(start, width, cells) == FillAll(table, width, cells[k..])
    {
      assert cells[k..][0] == cells[k] && cells[k..][1..] == cells[k + 1..];
      var next := FillCell(table, width, cells[k]);
      if next.None? {
        return None;
      }
      table := next.value;
    }
    assert cells[|cells|..] == [];
    text := Render(table, columns);
  }

  /** What the `try` of each table yields, in order, for a per-table meaning `spec`. */
  function Outcomes(tables: seq<Value>, spec: Value -> Option<string>): (r: seq<Option<string>>)
    ensures |r| == |tables|
  {
    if tables == [] then [] else [spec(tables[0])] + Outcomes(tables[1..], spec)
  }

  lemma {:induction false} OutcomesAt(tables: seq<Value>, spec: Value -> Option<string>, k: nat)
    requires k < |tables|
    ensures Outcomes(tables, spec)[k] == spec(tables[k])
  {
    if k > 0 {
      OutcomesAt(tables[1..], spec, k - 1);
    }
  }

  /** The Markdown of the outcomes that did not raise, concatenated. */
  function Joined(outcomes: seq<Option<string>>): string
  {
    if outcomes == [] then "" else outcomes[0].GetOr("") + Joined(outcomes[1..])
  }

  /** `tables_markdown` after the table loop. */
  function AllTables(tables: seq<Value>): string
  {
    Joined(Outcomes(tables, TableSpec))
  }

  lemma {:induction false} JoinedAppend(a: seq<Option<string>>, b: seq<Option<string>>)
    ensures Joined(a + b) == Joined(a) + Joined(b)
  {
    if a == [] {
      assert a + b == b;
    } else {
      assert (a + b)[0] == a[0];
      assert (a + b)[1..] == a[1..] + b;
      JoinedAppend(a[1..], b);
    }
  }

  lemma {:induction false} OutcomesAppend(a: seq<Value>, b: seq<Value>, spec: Value -> Option<string>)
    ensures Outcomes(a + b, spec) == Outcomes(a, spec) + Outcomes(b, spec)
  {
    if a == [] {
      assert a + b == b;
    } else {
      assert (a + b)[0] == a[0];
      assert (a + b)[1..] == a[1..] + b;
      OutcomesAppend(a[1..], b, spec);
    }
  }

  /** A table that raises contributes nothing: the others render as if it
      were absent. */
  lemma SkippedTable(before: seq<Option<string>>, after: seq<Option<string>>)
    ensures Joined(before + [None] + after) == Joined(before + after)
  {
    var none: seq<Option<string>> := [None];
    assert none[0] == None && none[1..] == [];
    JoinedAppend(before + none, after);
    JoinedAppend(before, none);
    JoinedAppend(before, after);
  }

  lemma {:induction false} JoinedEmpty(outcomes: seq<Option<string>>)
    requires forall k :: 0 <= k < |outcomes| && outcomes[k].Some? ==> outcomes[k].value != ""
    ensures Joined(outcomes) == "" <==> forall k :: 0 <= k < |outcomes| ==> outcomes[k].None?
  {
    if outcomes != [] {
      JoinedEmpty(outcomes[1..]);
      if outcomes[0].None? {
        assert forall k :: 1 <= k < |outcomes| ==> outcomes[k] == outcomes[1..][k - 1];
      }
    }
  }

  /** A table that does not raise renders at least its trailing blank line. */
  lemma RenderedNonEmpty(t: Value)
    ensures TableSpec(t).Some? ==> TableSpec(t).value != ""
  {
  }

  /** The Markdown is empty exactly when every table raised. */
  lemma NothingRendered(tables: seq<Value>)
    ensures AllTables(tables) == "" <==> forall k :: 0 <= k < |tables| ==> TableSpec(tables[k]).None?
  {
    var outs := Outcomes(tables, TableSpec);
    forall k | 0 <= k < |tables| ensures outs[k] == TableSpec(tables[k]) {
      OutcomesAt(tables, TableSpec, k);
      RenderedNonEmpty(tables[k]);
    }
    JoinedEmpty(outs);
  }

  /** What the layout analysis returns, as far as the processor reads it: the
      line contents of each page, and the `tables` and `figures` attributes
      (None when missing or None). */
  datatype Analysis = Analysis(pages: seq<seq<string>>, tables: Option<seq<Value>>, figures: Option<seq<Value>>)

  lemma JoinedSnoc(tables: seq<Value>, spec: Value -> Option<string>, k: nat)
    requires k < |tables|
    ensures Joined(Outcomes(tables, spec)[..k + 1]) == Joined(Outcomes(tables, spec)[..k]) + spec(tables[k]).GetOr("")
  {
    var outs := Outcomes(tables, spec);
    OutcomesAt(tables, spec, k);
    JoinedAppend(outs[..k], [outs[k]]);
    assert outs[..k + 1] == outs[..k] + [outs[k]];
    assert [outs[k]][0] == outs[k] && [outs[k]][1..] == [];
  }

  /** The table loop: every table in turn, each skipped when it raises. */
  method RenderTables(tables: seq<Value>) returns (markdown: string)
    ensures markdown == AllTables(tables)
  {
    markdown := "";
    for k := 0 to |tables|
      invariant markdown == Joined(Outcomes(tables, TableSpec)[..k])
    {
      var text := TableMarkdown(tables[k]);
      JoinedSnoc(tables, TableSpec, k);
      if text.Some? {
        markdown := markdown + text.value;
      }
    }
    assert Outcomes(tables, TableSpec)[..|tables|] == Outcomes(tables, TableSpec);
  }

  /** `extract_tables`. The chat completion is the oracle `summarize`, applied
      to the Markdown the prompt carries; None stands for a call that raised. */
  method ExtractTables(result: Option<Analysis>, summarize: string -> Option<string>) returns (out: string)
    ensures result.None? || result.value.tables.None? ==> out == ""
    ensures result.Some? && result.value.tables.Some? ==>
              var md := AllTables(result.value.tables.value);
              out == if md == "" then "" else summarize(md).GetOr("")
  {
    if result.None? || result.value.tables.None? || result.value.tables.value == [] {
      return "";
    }
    var markdown := RenderTables(result.value.tables.value);
    if markdown == "" {
      return "";
    }
    out := summarize(markdown).GetOr("");
  }
}

=== FILE: text.dfy ===
/** String and sequence helpers shared by the value model, the table
    renderer, the document processor, the PubMed clients, the orchestrator
    and the function app: Python's `sep.join(parts)`, `sub in s`, `[x] * n` and the flattening of a
    list of lists. */
module Text {

  /** `sep.join(parts)`. */
  function Join(sep: string, parts: seq<string>): (r: string)
    ensures |parts| == 0 ==> r == ""
    ensures |parts| == 1 ==> r == parts[0]
    ensures |parts| >= 1 ==> |r| >= |parts[0]|
  {
    if |parts| == 0 then ""
    else if |parts| == 1 then parts[0]
    else parts[0] + sep + Join(sep, parts[1..])
  }

  lemma {:induction false} JoinAppend(sep: string, parts: seq<string>, last: string)
    requires |parts| >= 1
    ensures Join(sep, parts + [last]) == Join(sep, parts) + sep + last
  {
    if |parts| == 1 {
      assert parts + [last] == [parts[0], last];
    } else {
      assert (parts + [last])[1..] == parts[1..] + [last];
      JoinAppend(sep, parts[1..], last);
    }
  }

  /** `needle in haystack` for strings. */
  predicate Contains(haystack: string, needle: string)
    decreases |haystack|
  {
    |needle| <= |haystack| &&
    (haystack[..|needle|] == needle || (|haystack| > 0 && Contains(haystack[1..], needle)))
  }

  /** `[x] * n`: Python repeats nothing for n <= 0. */
  function Repeat<T>(x: T, n: int): (r: seq<T>)
    ensures |r| == if n < 0 then 0 else n
    ensures forall k :: 0 <= k < |r| ==> r[k] == x
    decreases if n < 0 then 0 else n
  {
    if n <= 0 then [] else [x] + Repeat(x, n - 1)
  }

  /** The concatenation of a list of lists, in order. */
  function Flatten<T>(xss: seq<seq<T>>): (r: seq<T>)
  {
    if xss == [] then [] else xss[0] + Flatten(xss[1..])
  }

  lemma {:induction false} FlattenAppend<T>(xss: seq<seq<T>>, yss: seq<seq<T>>)
    ensures Flatten(xss + yss) == Flatten(xss) + Flatten(yss)
  {
    if xss == [] {
      assert xss + yss == yss;
    } else {
      assert (xss + yss)[1..] == xss[1..] + yss;
      FlattenAppend(xss[1..], yss);
    }
  }

  /** The total number of elements of a list of lists. */
  function TotalLength<T>(xss: seq<seq<T>>): nat
  {
    if xss == [] then 0 else |xss[0]| + TotalLength(xss[1..])
  }

  lemma {:induction false} FlattenLength<T>(xss: seq<seq<T>>)
    ensures |Flatten(xss)| == TotalLength(xss)
  {
    if xss != [] {
      FlattenLength(xss[1..]);
    }
  }

  /** A prefix one longer is the prefix and the next element. */
  lemma TakeSnoc<T>(s: seq<T>, k: nat)
    requires k < |s|
    ensures s[..k + 1] == s[..k] + [s[k]]
  {
  }
}

=== FILE: value.dfy ===
/** Decoded JSON and XML trees (what `resp.json()` and `xmltodict.parse`
    hand to the normalisers), and the handful of Python operations the
    normalisers apply to them: `d.get(key, default)`, iteration, `len`,
    truthiness, f-string formatting, `d[key] = v` and `{**a, **b}`.
    An operation Python would reject raises the exception it would raise. */
module PyValue {
  import opened Text

  datatype Option<+T> = None | Some(value: T) {
    function GetOr(default: T): T
    {
      match this
      case Some(v) => v
      case None => default
    }
  }

  /** The exceptions the modelled code can raise. */
  datatype Exn = AttributeError | TypeError | KeyError | IndexError | ValueError

  /** A computation that either returns a value or raises; `:-` propagates
      the exception exactly as an uncaught Python exception does. */
  datatype Result<+T> = Ok(value: T) | Raise(exn: Exn) {
    predicate IsFailure() { Raise? }
    function PropagateFailure<U>(): Result<U>
      requires Raise?
    {
      Raise(exn)
    }
    function Extract(): T
      requires Ok?
    {
      value
    }
  }

  /** A decoded value. Dicts keep their keys in insertion order, as Python's do. */
  datatype Value =
    | Null
    | Bool(b: bool)
    | Int(i: int)
    | Str(s: string)
    | List(items: seq<Value>)
    | Dict(entries: seq<(string, Value)>)

  const EmptyDict: Value := Dict([])
  const EmptyList: Value := List([])

  function Keys(entries: seq<(string, Value)>): (ks: seq<string>)
    ensures |ks| == |entries|
    ensures forall k :: 0 <= k < |entries| ==> ks[k] == entries[k].0
  {
    seq(|entries|, k requires 0 <= k < |entries| => entries[k].0)
  }

  /** A Python dict never holds a key twice. */
  predicate UniqueKeys(entries: seq<(string, Value)>)
  {
    forall j, k :: 0 <= j < k < |entries| ==> entries[j].0 != entries[k].0
  }

  /** The value stored under `key`, if any. */
  function Lookup(entries: seq<(string, Value)>, key: string): (r: Option<Value>)
    ensures r.Some? <==> key in Keys(entries)
    ensures r.Some? ==> exists k :: 0 <= k < |entries| && entries[k] == (key, r.value)
  {
    if entries == [] then None
    else if entries[0].0 == key then Some(entries[0].1)
    else
      var r := Lookup(entries[1..], key);
      assert Keys(entries) == [entries[0].0] + Keys(entries[1..]);
      r
  }

  lemma {:induction false} LookupAt(entries: seq<(string, Value)>, k: nat)
    requires k < |entries| && UniqueKeys(entries)
    ensures Lookup(entries, entries[k].0) == Some(entries[k].1)
  {
    if k > 0 {
      LookupAt(entries[1..], k - 1);
    }
  }

  /** The first entry under a key is the one found. */
  lemma {:induction false} LookupFirst(entries: seq<(string, Value)>, k: nat)
    requires k < |entries|
    requires forall j :: 0 <= j < k ==> entries[j].0 != entries[k].0
    ensures Lookup(entries, entries[k].0) == Some(entries[k].1)
  {
    if k > 0 {
      LookupFirst(entries[1..], k - 1);
    }
  }

  /** Two dicts with the same keys that agree on every entry under `key`
      give the same lookup for it. */
  lemma {:induction false} LookupAgree(a: seq<(string, Value)>, b: seq<(string, Value)>, key: string)
    requires |a| == |b|
    requires forall k :: 0 <= k < |a| ==> a[k].0 == b[k].0
    requires forall k :: 0 <= k < |a| && a[k].0 == key ==> a[k].1 == b[k].1
    ensures Lookup(a, key) == Lookup(b, key)
  {
    if a != [] && a[0].0 != key {
      LookupAgree(a[1..], b[1..], key);
    }
  }

  /** `d.get(key, default)`; anything but a dict has no `get`. */
  function Get(d: Value, key: string, default: Value): Result<Value>
  {
    match d
    case Dict(entries) => Ok(Lookup(entries, key).GetOr(default))
    case _ => Raise(AttributeError)
  }

  /** `d[key]` on a dict. */
  function Index(d: Value, key: string): Result<Value>
  {
    match d
    case Dict(entries) =>
      (match Lookup(entries, key)
       case Some(v) => Ok(v)
       case None => Raise(KeyError))
    case _ => Raise(TypeError)
  }

  /** Python truthiness. */
  predicate Truthy(v: Value)
  {
    match v
    case Null => false
    case Bool(b) => b
    case Int(i) => i != 0
    case Str(s) => s != ""
    case List(items) => items != []
    case Dict(entries) => entries != []
  }

  /** What `for x in v` visits: the items of a list, the keys of a dict, the
      one-character strings of a string; anything else is not iterable. */
  function Iter(v: Value): (r: Result<seq<Value>>)
    ensures v.List? ==> r == Ok(v.items)
    ensures v.Dict? ==> r.Ok? && |r.value| == |v.entries|
    ensures v.Str? ==> r.Ok? && |r.value| == |v.s|
    ensures r.Raise? <==> !(v.List? || v.Dict? || v.Str?)
  {
    match v
    case List(items) => Ok(items)
    case Dict(entries) => Ok(seq(|entries|, k requires 0 <= k < |entries| => Str(entries[k].0)))
    case Str(s) => Ok(seq(|s|, k requires 0 <= k < |s| => Str([s[k]])))
    case _ => Raise(TypeError)
  }

  /** `len(v)`. */
  function Len(v: Value): Result<nat>
  {
    match v
    case List(items) => Ok(|items|)
    case Dict(entries) => Ok(|entries|)
    case Str(s) => Ok(|s|)
    case _ => Raise(TypeError)
  }

  /** `[x.get(key, default) for x in xs]`: one result per element, in order;
      a single element that is not a dict makes the whole comprehension raise. */
  function MapGet(xs: seq<Value>, key: string, default: Value): (r: Result<seq<Value>>)
    ensures r.Ok? <==> forall k :: 0 <= k < |xs| ==> xs[k].Dict?
    ensures r.Ok? ==> |r.value| == |xs|
    ensures r.Ok? ==> forall k :: 0 <= k < |xs| ==> r.value[k] == Lookup(xs[k].entries, key).GetOr(default)
  {
    if xs == [] then Ok([])
    else
      var head :- Get(xs[0], key, default);
      var tail :- MapGet(xs[1..], key, default);
      Ok([head] + tail)
  }

  /** `[f(x) for x in xs]` where `f` may raise: the results in order, or the
      exception of the first element that raises. */
  function MapAll<T>(xs: seq<Value>, f: Value -> Result<T>): (r: Result<seq<T>>)
    ensures r.Ok? ==> |r.value| == |xs|
  {
    if xs == [] then Ok([])
    else
      match f(xs[0])
      case Raise(e) => Raise(e)
      case Ok(y) =>
        match MapAll(xs[1..], f)
        case Raise(e) => Raise(e)
        case Ok(ys) => Ok([y] + ys)
  }

  /** The map succeeds exactly when every element does, then holds each
      element's result at its position; otherwise it carries the exception
      of the first element that raises. */
  lemma {:induction false} MapAllMeans<T>(xs: seq<Value>, f: Value -> Result<T>)
    ensures MapAll(xs, f).Ok? <==> forall k :: 0 <= k < |xs| ==> f(xs[k]).Ok?
    ensures MapAll(xs, f).Ok? ==> forall k :: 0 <= k < |xs| ==> MapAll(xs, f).value[k] == f(xs[k]).value
    ensures MapAll(xs, f).Raise? ==>
              exists k :: 0 <= k < |xs| && f(xs[k]) == Raise(MapAll(xs, f).exn) &&
                          forall j :: 0 <= j < k ==> f(xs[j]).Ok?
  {
    if xs != [] {
      MapAllMeans(xs[1..], f);
      assert forall j :: 1 <= j < |xs| ==> xs[j] == xs[1..][j - 1];
      if f(xs[0]).Ok? && MapAll(xs[1..], f).Raise? {
        var k :| 0 <= k < |xs[1..]| && f(xs[1..][k]) == Raise(MapAll(xs[1..], f).exn) &&
                 forall j :: 0 <= j < k ==> f(xs[1..][j]).Ok?;
        assert f(xs[k + 1]) == Raise(MapAll(xs, f).exn);
        assert forall j :: 0 <= j < k + 1 ==> f(xs[j]).Ok?;
      }
    }
  }

  /** One more element: its result is appended, or its exception ends the map. */
  lemma {:induction false} MapAllSnoc<T>(xs: seq<Value>, x: Value, f: Value -> Result<T>)
    requires MapAll(xs, f).Ok?
    ensures f(x).Ok? ==> MapAll(xs + [x], f) == Ok(MapAll(xs, f).value + [f(x).value])
    ensures f(x).Raise? ==> MapAll(xs + [x], f) == Raise(f(x).exn)
  {
    if xs == [] {
      assert xs + [x] == [x] && [x][1..] == [];
      assert MapAll([x][1..], f) == Ok([]);
      if f(x).Ok? {
        assert [f(x).value] + [] == [] + [f(x).value];
      }
    } else {
      assert (xs + [x])[0] == xs[0];
      assert (xs + [x])[1..] == xs[1..] + [x];
      MapAllSnoc(xs[1..], x, f);
      if f(x).Ok? {
        var y, ys := f(xs[0]).value, MapAll(xs[1..], f).value;
        assert [y] + (ys + [f(x).value]) == ([y] + ys) + [f(x).value];
      }
    }
  }

  /** The first element that raises decides the whole map. */
  lemma {:induction false} MapAllStops<T>(xs: seq<Value>, k: nat, f: Value -> Result<T>)
    requires k < |xs| && MapAll(xs[..k], f).Ok? && f(xs[k]).Raise?
    ensures MapAll(xs, f) == Raise(f(xs[k]).exn)
  {
    if k == 0 {
    } else {
      assert xs[..k][0] == xs[0];
      assert xs[..k][1..] == xs[1..][..k - 1];
      MapAllStops(xs[1..], k - 1, f);
    }
  }

  /** `result = []` then `result.append(f(x))` for each `x` in turn: the loop
      computes the map, and an element that raises ends it. */
  method MapEach<T>(xs: seq<Value>, f: Value -> Result<T>) returns (r: Result<seq<T>>)
    ensures r == MapAll(xs, f)
  {
    var result: seq<T> := [];
    for k := 0 to |xs|
      invariant MapAll(xs[..k], f) == Ok(result)
    {
      assert xs[..k + 1] == xs[..k] + [xs[k]];
      MapAllSnoc(xs[..k], xs[k], f);
      var y := f(xs[k]);
      if y.Raise? {
        MapAllStops(xs, k, f);
        return Raise(y.exn);
      }
      result := result + [y.value];
    }
    assert xs[..|xs|] == xs;
    return Ok(result);
  }

  /** A list comprehension with a filter, `[... for x in xs if ...]`: `f`
      gives the items one element contributes (none when the filter drops
      it) or the exception evaluating it raises; elements are evaluated in
      order and the first exception ends the comprehension. */
  function Collect<T>(xs: seq<Value>, f: Value -> Result<seq<T>>): (r: Result<seq<T>>)
    ensures xs == [] ==> r == Ok([])
  {
    if xs == [] then Ok([])
    else
      match f(xs[0])
      case Raise(e) => Raise(e)
      case Ok(y) =>
        match Collect(xs[1..], f)
        case Raise(e) => Raise(e)
        case Ok(ys) => Ok(y + ys)
  }

  /** A single element contributes exactly its own items. */
  lemma CollectOne<T>(x: Value, f: Value -> Result<seq<T>>)
    ensures Collect([x], f) == f(x)
  {
    assert [x][1..] == [];
    if f(x).Ok? {
      assert f(x).value + [] == f(x).value;
    }
  }

  /** The comprehension keeps order: over a concatenation it yields the
      items of the first part followed by those of the second. */
  lemma {:induction false} CollectAppend<T>(a: seq<Value>, b: seq<Value>, f: Value -> Result<seq<T>>)
    requires Collect(a, f).Ok? && Collect(b, f).Ok?
    ensures Collect(a + b, f) == Ok(Collect(a, f).value + Collect(b, f).value)
  {
    if a == [] {
      assert a + b == b;
      assert Collect(a, f).value + Collect(b, f).value == Collect(b, f).value;
    } else {
      assert (a + b)[0] == a[0];
      assert (a + b)[1..] == a[1..] + b;
      CollectAppend(a[1..], b, f);
      var x, y, z := f(a[0]).value, Collect(a[1..], f).value, Collect(b, f).value;
      assert x + (y + z) == (x + y) + z;
    }
  }

  /** When every element raises only `exn`, so does the comprehension. */
  lemma {:induction false} CollectRaises<T>(xs: seq<Value>, f: Value -> Result<seq<T>>, exn: Exn)
    requires forall x :: f(x).Raise? ==> f(x).exn == exn
    ensures Collect(xs, f).Raise? ==> Collect(xs, f).exn == exn
  {
    if xs != [] {
      CollectRaises(xs[1..], f, exn);
    }
  }

  /** The comprehension succeeds exactly when every element does. */
  lemma {:induction false} CollectOk<T>(xs: seq<Value>, f: Value -> Result<seq<T>>)
    ensures Collect(xs, f).Ok? <==> forall k :: 0 <= k < |xs| ==> f(xs[k]).Ok?
  {
    if xs != [] {
      CollectOk(xs[1..], f);
      assert forall k :: 1 <= k < |xs| ==> xs[k] == xs[1..][k - 1];
    }
  }

  /** When every element contributes at most one item, the comprehension
      is no longer than its input. */
  lemma {:induction false} CollectBound<T>(xs: seq<Value>, f: Value -> Result<seq<T>>)
    requires forall x :: f(x).Ok? ==> |f(x).value| <= 1
    ensures Collect(xs, f).Ok? ==> |Collect(xs, f).value| <= |xs|
  {
    if xs != [] {
      CollectBound(xs[1..], f);
    }
  }

  function DigitChar(d: nat): char
    requires d < 10
  {
    "0123456789"[d]
  }

  /** Decimal digits of a natural number, most significant first. */
  function NatToString(n: nat): (s: string)
    ensures |s| >= 1
    ensures forall k :: 0 <= k < |s| ==> '0' <= s[k] <= '9'
    ensures |s| > 1 ==> s[0] != '0'
    decreases n
  {
    if n < 10 then [DigitChar(n)] else NatToString(n / 10) + [DigitChar(n % 10)]
  }

  /** `str(i)` for an integer. */
  function IntToString(i: int): string
  {
    if i < 0 then "-" + NatToString(-i) else NatToString(i)
  }

  /** `str(v)`, which is also what an f-string inserts. Strings inside
      containers are shown between single quotes (see README for what this
      leaves out of Python's `repr`). */
  function Format(v: Value): string
  {
    match v
    case Str(s) => s
    case _ => Repr(v)
  }

  function Repr(v: Value): string
    decreases v
  {
    match v
    case Null => "None"
    case Bool(b) => if b then "True" else "False"
    case Int(i) => IntToString(i)
    case Str(s) => "'" + s + "'"
    case List(items) =>
      "[" + Join(", ", seq(|items|, k requires 0 <= k < |items| => Repr(items[k]))) + "]"
    case Dict(entries) =>
      "{" + Join(", ", seq(|entries|, k requires 0 <= k < |entries| =>
        assert entries[k] in entries;
        "'" + entries[k].0 + "': " + Repr(entries[k].1))) + "}"
  }

  lemma KeysCons(e: (string, Value), rest: seq<(string, Value)>)
    ensures Keys([e] + rest) == [e.0] + Keys(rest)
  {
  }

  /** `d[key] = v` on a dict: an existing key keeps its place, a new key goes last. */
  function SetKey(entries: seq<(string, Value)>, key: string, v: Value): (r: seq<(string, Value)>)
  {
    if entries == [] then [(key, v)]
    else if entries[0].0 == key then [(key, v)] + entries[1..]
    else [entries[0]] + SetKey(entries[1..], key, v)
  }

  /** Setting a key keeps the key order; a new key goes last. */
  lemma {:induction false} SetKeyKeys(entries: seq<(string, Value)>, key: string, v: Value)
    ensures key in Keys(entries) ==> Keys(SetKey(entries, key, v)) == Keys(entries)
    ensures key !in Keys(entries) ==> Keys(SetKey(entries, key, v)) == Keys(entries) + [key]
  {
    if entries != [] {
      assert entries == [entries[0]] + entries[1..];
      KeysCons(entries[0], entries[1..]);
      if entries[0].0 == key {
        KeysCons((key, v), entries[1..]);
      } else {
        SetKeyKeys(entries[1..], key, v);
        KeysCons(entries[0], SetKey(entries[1..], key, v));
      }
    }
  }

  /** After `d[key] = v`, `key` holds `v` and every other key what it held. */
  lemma {:induction false} SetKeyLookup(entries: seq<(string, Value)>, key: string, v: Value, other: string)
    ensures Lookup(SetKey(entries, key, v), key) == Some(v)
    ensures other != key ==> Lookup(SetKey(entries, key, v), other) == Lookup(entries, other)
  {
    if entries != [] && entries[0].0 != key {
      var rest := SetKey(entries[1..], key, v);
      SetKeyLookup(entries[1..], key, v, other);
      assert ([entries[0]] + rest)[1..] == rest;
    }
  }

  lemma SetKeyUnique(entries: seq<(string, Value)>, key: string, v: Value)
    requires UniqueKeys(entries)
    ensures UniqueKeys(SetKey(entries, key, v))
  {
    var r := SetKey(entries, key, v);
    SetKeyKeys(entries, key, v);
    forall j, k | 0 <= j < k < |r| ensures r[j].0 != r[k].0 {
      assert Keys(r)[j] == r[j].0 && Keys(r)[k] == r[k].0;
      if key !in Keys(entries) && k == |entries| {
        assert Keys(entries)[j] == entries[j].0;
      } else {
        assert Keys(entries)[j] == entries[j].0 && Keys(entries)[k] == entries[k].0;
      }
    }
  }

  /** `{**a, **b}`: the keys of `a` in their order, each carrying the value of
      `b` when `b` has it, then the keys only `b` has. */
  function Merge(a: seq<(string, Value)>, b: seq<(string, Value)>): seq<(string, Value)>
    decreases |b|
  {
    if b == [] then a else Merge(SetKey(a, b[0].0, b[0].1), b[1..])
  }

  /** A key of `b` reads `b`'s value from the merge, any other key `a`'s. */
  lemma {:induction false} MergeLookup(a: seq<(string, Value)>, b: seq<(string, Value)>, key: string)
    requires UniqueKeys(b)
    ensures key in Keys(b) ==> Lookup(Merge(a, b), key) == Lookup(b, key)
    ensures key !in Keys(b) ==> Lookup(Merge(a, b), key) == Lookup(a, key)
    decreases |b|
  {
    if b != [] {
      var a' := SetKey(a, b[0].0, b[0].1);
      assert Keys(b) == [b[0].0] + Keys(b[1..]);
      assert UniqueKeys(b[1..]) by {
        forall j, k | 0 <= j < k < |b[1..]| ensures b[1..][j].0 != b[1..][k].0 {
          assert b[1..][j] == b[j + 1] && b[1..][k] == b[k + 1];
        }
      }
      MergeLookup(a', b[1..], key);
      SetKeyLookup(a, b[0].0, b[0].1, key);
      if key == b[0].0 {
        assert key !in Keys(b[1..]) by {
          forall k | 0 <= k < |b[1..]| ensures Keys(b[1..])[k] != key {
            assert b[1..][k] == b[k + 1];
          }
        }
      }
    }
  }

  /** Merging two dicts gives a dict: no key twice. */
  lemma {:induction false} MergeUnique(a: seq<(string, Value)>, b: seq<(string, Value)>)
    requires UniqueKeys(a)
    ensures UniqueKeys(Merge(a, b))
    decreases |b|
  {
    if b != [] {
      SetKeyUnique(a, b[0].0, b[0].1);
      MergeUnique(SetKey(a, b[0].0, b[0].1), b[1..]);
    }
  }

  /** A dict object shared by reference: callers that hold it see every
      `d[key] = v` made through any other holder. */
  class DictRef {
    var entries: seq<(string, Value)>

    constructor (entries: seq<(string, Value)>)
      ensures this.entries == entries
    {
      this.entries := entries;
    }

    /** `d.get(key, default)`. */
    function Get(key: string, default: Value): Value
      reads this
    {
      Lookup(entries, key).GetOr(default)
    }

    /** `d[key] = v`. */
    method Set(key: string, v: Value)
      modifies this
      ensures entries == SetKey(old(entries), key, v)
    {
      entries := SetKey(entries, key, v);
    }
  }
}
